=== FILE: README.md ===
# lcapy schematic layout, modelled in Dafny

This project models how lcapy's schematic drawer (`lcapy/schematic.py`,
`lcapy/schemcpts.py`) works out where the nodes of a circuit diagram go.
Each axis has its own graph:

- **Common nodes.** Connection points that must share a coordinate on the
  axis are merged into groups, the common nodes (`Cnodes`, and
  `xlink`/`ylink` of each component).
- **The graph.** Each component adds edges between its nodes. An edge gives
  a minimum separation and says whether the span may stretch (`place`,
  `Graph.add`).
- **`analyse`.** It joins a synthetic `start` and `end` to the graph. It
  finds the longest path from `start` (the critical path) and pins the
  critical path's vertices at their distances. Rigid edges then fix further
  vertices. Every remaining vertex is placed between the first placed
  vertices its two walks through unplaced vertices reach, and the slack is
  shared among the stretchable edges. Every point
  takes its group's position.

The model also covers the component options the layout reads:

- size, stretch, rotation, the rotation-matrix table and `check`;
- how nodes are drawn (`Node.visible`, `Node.port`);
- how chip pins are labelled (`Chip.name_pins`);
- how implicit wires rename their far node (`Wire`).

The modules follow the source:

| module | file | models |
|---|---|---|
| `Base` | base.dfy | points, `Option`/`Result`, Python's `split`, `join` and `strip` |
| `CommonNodes` | cnodes.dfy | `Cnodes`: a class holding the group table |
| `Paths` | paths.dfy | vertices, `Gedge`, chains of edges and their lengths |
| `Search` | search.dfy | the recursive `traverse` of both longest-path searches, and the walks along `next` pointers |
| `Slack` | slack.dfy | the two position rules: `assign_fixed` and the slack sharing of the stretch pass |
| `Analysis` | analysis.dfy | the passes of `analyse` on the edge lists and per-vertex fields |
| `LayoutGraph` | graph.dfy | `Gnode` and `Graph`: a class whose `nodes` map the methods update |
| `Placement` | placement.dfy | `xlink`/`ylink` and `place` |
| `Options` | options.dfy | `Cpt.size`, `boolattr`, `stretch`, `angle`, `R` (the table), `scale`, `check` |
| `Nodes` | nodes.dfy | `Node`: a class with `append`, `count`, `port`, `visible` |
| `Pins` | pins.dfy | `Chip.name_pins` over `Node` objects |
| `Wires` | wire.dfy | `Wire.__init__` and `Wire.implicit` |

Conventions:

- Numbers are `real`.
- Python's `float()` on an option string is a parameter `num: string -> Option<real>`.
- The recursion limit of the searches is a `fuel` parameter.
- The iteration order of Python sets is either an input `order` or a free
  choice (`:|`).
- Exceptions are the error cases of `Result`/`Option` values. `Failure`
  lists the exceptions of `analyse`:
  - `Dodgy` is the `RuntimeError`;
  - `NoCriticalPath` is the `AttributeError` of a missing `prev`;
  - `WontFit` is the `ValueError`;
  - `MissingKnown` is the `TypeError` of arithmetic on a `None` position;
  - `Unattached` is the `KeyError`;
  - `RecursionLimit` is the uncaught `RuntimeError` of `longest_path_to_known`.
- The module imports `grammar` as a sibling module (lcapy/schematic.py:43),
  which is Python 2. So `self.values()` in `add_start_nodes` is a list taken
  before `start` and `end` are added, and only the earlier vertices are
  visited.

## Model

| member | source | states |
|---|---|---|
| CommonNodes.Singletons | lcapy/schematic.py:153-157 | a fresh table knows exactly the given points, is a partition, and puts two points together only when they are the same point |
| CommonNodes.Linked | lcapy/schematic.py:159-171 | after a link the two points share the union of their old groups, the known points are unchanged, and every point outside both groups keeps its group |
| CommonNodes.LinkedPartition | lcapy/schematic.py:159-171 | linking keeps the table a partition |
| CommonNodes.LinkedTogether | lcapy/schematic.py:159-171 | after a link two points are together iff they were together before, or each was together with one of the linked points |
| CommonNodes.LinkedSymmetric | lcapy/schematic.py:159-171 | `link(n1, n2)` and `link(n2, n1)` give the same table |
| CommonNodes.LinkedIdempotent | lcapy/schematic.py:159-171 | linking points already together changes nothing; linking twice is linking once |
| CommonNodes.RepointCompose | lcapy/schematic.py:167-170 | the two re-pointing loops together re-point the union of both groups |
| CommonNodes.RepointedLinked | lcapy/schematic.py:159-171 | once both old groups are re-pointed at the merged group, the table is the linked table |
| CommonNodes.Cnodes.constructor | lcapy/schematic.py:153-157 | the loop leaves every point alone in its group |
| CommonNodes.Cnodes.Find | lcapy/schematic.py:240-250 | the group of a known point is its table entry, inside the known points; an unknown point stands alone |
| CommonNodes.Cnodes.Repoint | lcapy/schematic.py:167-170 | the loop points every member at the merged group and leaves every other point as it was |
| CommonNodes.Cnodes.Link | lcapy/schematic.py:159-171 | succeeds iff both points are known (otherwise `KeyError` with the table unchanged); on success the table becomes the linked table and stays a partition |
| Paths.Mirror | lcapy/schematic.py:280-284 | the reverse-list edge joins the same vertices the other way, with the same size and stretch flag |
| Paths.ChainSnoc | lcapy/schematic.py:372-376 | extending a walk by one edge adds that edge's size and stretch count |
| Paths.ShapeAdj | lcapy/schematic.py:294-307 | both edge lists of a well-formed graph point at known vertices with non-negative sizes; `end` has no forward edges and `start` no reverse edges |
| Paths.ShapeWalk | lcapy/schematic.py:371-386 | forward walks never re-enter `start` and reverse walks never re-enter `end` |
| Paths.ReachedBound | lcapy/schematic.py:438-447 | when every reached vertex is relaxed, a chain from a reached vertex ends at a reached vertex and its length is at most the distance it gains |
| Paths.LengthNonneg | lcapy/schematic.py:255-262 | a chain of forward edges has non-negative length |
| Paths.CycleLength | lcapy/schematic.py:255-262 | a non-empty forward cycle avoids `start` and `end` and has positive length |
| Search.Traverse | lcapy/schematic.py:438-447 | `traverse` keeps every `prev`/`next` pointer sound and only raises distances; on success `v` and every vertex whose distance changed have all their out-edges relaxed; running out of fuel is the `RuntimeError` |
| Search.Step | lcapy/schematic.py:440-447 | one turn of the loop relaxes the edge only when it lengthens the target's distance, then recurses into the target |
| Search.Reset | lcapy/schematic.py:433-436 | every distance becomes -1 and every pointer is cleared |
| Search.Longest | lcapy/schematic.py:430-456 | after a search from `origin`, unreached vertices keep -1, `origin` stays at 0 when nothing enters it, the pointers are sound, and a search that ran to the end is complete; an expanded `origin` whose first edge is not a loop of length 0 gets a `next` pointer, since that edge always lengthens a reset distance |
| Search.PrevTight | lcapy/schematic.py:443-446 | after a finished search each `prev` edge is tight: its target's distance is its source's plus its size |
| Search.FinishedTree | lcapy/schematic.py:443-446 | the `prev` pointers of a finished search form a tree of tight edges that spans the reached vertices |
| Search.CompleteBound | lcapy/schematic.py:438-447 | after a complete unbounded search no chain is longer than the distance it gains: the distances are longest-path distances |
| Search.CycleUnfinished | lcapy/schematic.py:449-455 | a search cannot finish while a cycle of positive length is reachable from its origin |
| Search.Walk | lcapy/schematic.py:371-376 | the `while node.next` walk follows a chain of `next` edges through unplaced vertices; its count and total are that chain's stretch count and length, and it stops where no `next` leaves |
| Slack.FirstWhere | lcapy/schematic.py:311-320 | the first edge meeting the test, or none iff no edge meets it |
| Slack.FixedAsWritten | lcapy/schematic.py:309-321 | `assign_fixed` as written: a position iff some forward edge is rigid to a placed vertex other than `end`, or the as-written reverse test holds; the position is taken from the neighbour's search distance |
| Slack.FixedCorrected | lcapy/schematic.py:309-321 | the corrected rule: a position iff a rigid edge leads to a placed neighbour; the vertex then sits exactly that edge's size from the neighbour's assigned position |
| Slack.AsWrittenIgnoresReverse | lcapy/schematic.py:316-320 | the reverse-edge branch as written never fires, so only forward edges can fix a vertex |
| Slack.RigidChainMisplaced | lcapy/schematic.py:314 | a concrete chain where the as-written rule puts a vertex 8 units from where its rigid edge demands, and the corrected rule puts it there |
| Slack.RigidPredecessorIgnored | lcapy/schematic.py:316-320 | a concrete vertex with only a rigid predecessor: never fixed as written, and fixed by the corrected rule |
| Slack.StretchPosition | lcapy/schematic.py:388-409 | a dangling vertex hangs off its one anchor; between two anchors it fails with `ValueError` iff the walks do not fit; otherwise it lies between the two bounds, with the `rstretches == 0` and `fstretches == 0` cases exact |
| Slack.SlackShared | lcapy/schematic.py:407-409 | between two anchors each stretchable edge on both sides takes an equal share of the slack |
| Slack.SlackShareUnique | lcapy/schematic.py:407-409 | the equal-share position is the only point with that property |
| Paths.TightPrefix | lcapy/schematic.py:340-346 | along a chain of tight edges each vertex's distance is the origin's plus the length of the chain up to it |
| Analysis.CriticalPlaced | lcapy/schematic.py:340-346 | each vertex the walk back placed sits at the length of the critical path from `start` up to it |
| Analysis.CriticalPath | lcapy/schematic.py:340-346 | the walk back from `end` fails iff `end` was never reached (the `AttributeError`); otherwise it pins the vertices of a chain from `start` to `end` at their distances, each at the length of the chain up to it, removes them from `unknown`, and no chain from `start` to `end` is longer |
| Analysis.FixOne | lcapy/schematic.py:355-360 | one scan either fixes some unknown vertex by the rigid-edge rule, or finds every unknown vertex loose |
| Analysis.FixedPass | lcapy/schematic.py:353-360 | the rigid-edge pass only removes vertices from `unknown`; each removed vertex is placed the size of a rigid edge from a placed neighbour; nothing else moves; afterwards every remaining vertex is loose |
| Analysis.Probe | lcapy/schematic.py:368-386 | a search towards placed vertices followed by the walk: the walk crosses only unplaced vertices and stops where no `next` leaves; from an unplaced vertex whose first edge is not a loop of length 0 it takes at least one edge |
| Analysis.PlaceStretched | lcapy/schematic.py:365-409 | for one vertex: both walks, each through unplaced vertices only, so each stops at the first placed vertex it reaches, and from an unplaced vertex each takes at least one edge on a side that has one; then the slack-sharing position of their end points; fails only with the recursion limit, `TypeError` or `ValueError` |
| Analysis.FixOneAsWritten | lcapy/schematic.py:355-360 | one scan with `assign_fixed` as written either fixes an unknown vertex at the position the as-written rule gives, or finds every unknown vertex stuck under that rule |
| Analysis.FixedForward | lcapy/schematic.py:309-321 | a vertex fixed by the as-written rule sits a rigid forward edge's size before that edge's target's search distance |
| Analysis.FixStepAsWritten | lcapy/schematic.py:355-360 | fixing one more vertex by the as-written rule keeps every earlier fix and every other position |
| Analysis.FixedPassAsWritten | lcapy/schematic.py:353-360 | the rigid-edge pass as written: vertices only leave `unknown`, each is placed from its rigid edge's target's search distance, nothing else moves, and every remaining vertex is stuck |
| Analysis.Shared | lcapy/schematic.py:365-409 | what `PlaceStretched` returns for a vertex is the slack-sharing position between where its two walks stop, or the failure of that sharing |
| Analysis.BetweenWalks | lcapy/schematic.py:370-386 | for a vertex between two placed neighbours, each walk takes the one edge to its neighbour and stops there |
| Analysis.MiddleNeverFails | lcapy/schematic.py:365-409 | for a vertex between two placed neighbours, the stretch pass can fail there only by running out of recursion: the slack sharing succeeds |
| Analysis.StretchedOnlyMiddle | lcapy/schematic.py:370-386 | for a vertex between two placed neighbours, each walk stops at the neighbour it reaches first, so the middle is the only position the stretch pass can give it |
| Analysis.StretchedMiddle | lcapy/schematic.py:388-409 | in that graph the middle is a position the stretch pass gives |
| Analysis.AtTurnUpdate | lcapy/schematic.py:365-409 | placing the vertex of turn `i` changes no earlier turn's view of the positions, and the new positions are the next turn's view |
| Analysis.StretchedAdd | lcapy/schematic.py:365-409 | placing the vertex of turn `i` where the slack sharing puts it extends the record of the pass by one turn |
| Analysis.StretchTurn | lcapy/schematic.py:365-409 | one turn of the loop: a still-unknown vertex is placed by the slack sharing between the ends of its two walks through unplaced vertices, against the positions so far, or the pass fails there with the positions unchanged and the sharing's failure |
| Analysis.StretchPass | lcapy/schematic.py:365-409 | in `order`, each unknown vertex is put where the slack sharing between its two walks' end points puts it, each walk running through unplaced vertices to the first placed one, against the positions known at its turn; vertices outside `unknown` keep theirs; a failure is the sharing's failure at the vertex where the pass stopped |
| Analysis.Positions | lcapy/schematic.py:416-424 | every point takes its group's position; the lookup fails with `Unattached` iff some group never became a vertex |
| Analysis.Zeros | lcapy/schematic.py:331-335 | with no real vertex every point is at 0 |
| Analysis.PlacedAfterCritical | lcapy/schematic.py:340-346 | after the critical path only `start` and the still-unknown vertices lack a position |
| Analysis.PlacedAll | lcapy/schematic.py:365-409 | after the stretch pass every vertex but `start` has a position |
| Analysis.AnchoredKept | lcapy/schematic.py:353-409 | a vertex fixed by a rigid edge stays fixed while the stretch pass moves only loose vertices |
| Analysis.StretchedAgree | lcapy/schematic.py:365-409 | the stretch pass reads its starting positions only at the vertices it places |
| Analysis.Settle | lcapy/schematic.py:353-428 | every unknown vertex is either anchored by a rigid edge or loose, and the stretch pass places the loose ones by the slack sharing; on success every point has its group's position and the extent is `end`'s position; `Unattached` names a group without a vertex; other failures are the sharing's failure at a loose vertex |
| Analysis.NoCycleWithoutGroups | lcapy/schematic.py:331-335 | with only `start` and `end` there is no cycle |
| Analysis.FinishedAcyclic | lcapy/schematic.py:449-455 | a forward search from `start` that finishes leaves no cycle reachable from `start` |
| Analysis.NothingEntersStart | lcapy/schematic.py:294-307 | no forward edge enters `start` |
| Analysis.ExplainsAgree | lcapy/schematic.py:325-428 | the account of the positions depends on the starting positions only at the vertices the stretch pass places |
| Analysis.Arrange | lcapy/schematic.py:340-428 | after a finished search: on success the extent is the length of a longest chain from `start` to `end`; the critical path's vertices sit at their path lengths, the rigidly fixed ones at their rigid edge's size from a placed neighbour, the rest where the slack sharing puts them; `NoCriticalPath` means no chain reaches `end`; other failures are the sharing's failure at some vertex |
| Analysis.Solve | lcapy/schematic.py:338-428 | adds the forward search to `Arrange`: a cycle reachable from `start` always ends in `RuntimeError` |
| Analysis.OutcomeAgree | lcapy/schematic.py:294-428 | the outcome of `analyse` is the same for two starting positions that agree on every vertex but `start` and `end` |
| Analysis.Resolve | lcapy/schematic.py:325-428 | the whole of `analyse` after `add_start_nodes`: all points at 0 with extent 0 when there is no real vertex, otherwise the outcome of `Solve`, positions included |
| LayoutGraph.Oriented | lcapy/schematic.py:258-263 | a negative size swaps the endpoints and negates the size, so every stored size is positive |
| LayoutGraph.Touch | lcapy/schematic.py:274-278 | `add_node` adds a fresh `Gnode` for a new vertex and leaves every existing one alone |
| LayoutGraph.TouchLists | lcapy/schematic.py:192-200 | a new vertex starts with empty edge lists and no position |
| LayoutGraph.Connect | lcapy/schematic.py:280-284 | `add_edges` appends the edge to its source's forward list and its mirror to its target's reverse list; positions are unchanged |
| LayoutGraph.SearchFrom | lcapy/schematic.py:430-481 | a search writes only the search fields of the vertices: edges and positions are unchanged and the fields hold the search's result |
| LayoutGraph.KeyIn | lcapy/schematic.py:265-268 | `add` keys a point by its group, or by the point alone when the table does not know it |
| LayoutGraph.Added | lcapy/schematic.py:255-272 | a zero size changes nothing; otherwise both endpoints' groups become vertices |
| LayoutGraph.AddedEdges | lcapy/schematic.py:255-272 | a non-zero `add` appends exactly one positive edge to one forward list and its mirror to the other end's reverse list; every other list and every position stays |
| LayoutGraph.Stamp | lcapy/schematic.py:430-481 | writing search results back changes positions and search fields, never edges |
| LayoutGraph.ShapeAddEdge | lcapy/schematic.py:280-284 | adding a well-formed edge keeps the graph well formed |
| LayoutGraph.HookedEdges | lcapy/schematic.py:294-307 | after `add_start_nodes` every earlier vertex has both forward and reverse edges; `start` has a rigid edge of size 0 to a vertex iff it had no reverse edges, and `end` is reached from a vertex by one iff it had no forward edges |
| LayoutGraph.HookStep | lcapy/schematic.py:302-306 | one turn of the loop adds `start -> v` iff `v` had no reverse edges and `v -> end` iff it had no forward edges |
| LayoutGraph.Graph.constructor | lcapy/schematic.py:224-227 | a new graph is empty, over a fresh table of singleton groups |
| LayoutGraph.Graph.Key | lcapy/schematic.py:240-250 | the vertex of a point is its group and contains the point |
| LayoutGraph.Graph.Lookup | lcapy/schematic.py:240-250 | `graph[p]` finds a vertex iff `p`'s group is one, and otherwise is the `KeyError` |
| LayoutGraph.Graph.LookupTogether | lcapy/schematic.py:240-250 | linked points look up the same vertex |
| LayoutGraph.Graph.Link | lcapy/schematic.py:252-253 | `link` is the table's link |
| LayoutGraph.Graph.AddNode | lcapy/schematic.py:274-278 | the vertex is present afterwards; a new one has empty lists and no position |
| LayoutGraph.Graph.AddEdges | lcapy/schematic.py:280-284 | one edge and its mirror are appended, and the graph stays well formed |
| LayoutGraph.Graph.Add | lcapy/schematic.py:255-272 | the nodes become the `Added` graph and the graph stays well formed |
| LayoutGraph.Graph.Hook | lcapy/schematic.py:302-306 | one turn of the loop of `add_start_nodes`, keeping positions |
| LayoutGraph.Graph.AddStartNodes | lcapy/schematic.py:294-307 | does nothing when `start` exists; otherwise adds `start` and `end` and hooks every earlier vertex |
| LayoutGraph.Graph.HookAll | lcapy/schematic.py:301-306 | the loop visits every earlier vertex once |
| LayoutGraph.Graph.LongestForwardPath | lcapy/schematic.py:430-456 | edges and positions are unchanged; the search fields are sound; `start` is at 0 when nothing enters it; a finished search is complete |
| LayoutGraph.Graph.LongestPathToKnown | lcapy/schematic.py:458-482 | the same search along either side, stopping at placed vertices |
| LayoutGraph.LayOut | lcapy/schematic.py:325-428 | `Graph.Lay` on the vertex table (its body): edge lists unchanged and the outcome of `analyse` from the table's positions |
| LayoutGraph.Graph.Lay | lcapy/schematic.py:325-428 | the layout passes on the graph's own fields: vertices and both edge lists unchanged, and the outcome of `analyse`, positions included |
| LayoutGraph.Graph.Analyse | lcapy/schematic.py:294-428 | the edge lists laid out are the input's, unchanged when `start` exists and otherwise hooked to `start` and `end` as `add_start_nodes` does. On success every point has a position. With no real vertex all are 0. Otherwise each point has its group's position; the extent is the length of a longest chain from `start` to `end`; the critical path's vertices sit at their path lengths, the rigidly fixed ones at their rigid edge's size from a placed neighbour, the rest where the slack sharing puts them. `Unattached` names an unattached group. `NoCriticalPath` means `end` is unreachable. A reachable cycle always ends in `RuntimeError` |
| Placement.LinkRowFrom | lcapy/schematic.py:159-171 | the inner loop keeps the table a partition over the same points |
| Placement.LinkRowFails | lcapy/schemcpts.py:258-264 | the inner loop fails iff a node with an equal offset is missing from the table |
| Placement.LinkFromFails | lcapy/schemcpts.py:258-264 | `xlink` fails iff two nodes with equal offsets include one the table lacks |
| Placement.LinkRowTogether | lcapy/schemcpts.py:258-264 | after the inner loop node `m1` is together with every later node at its offset |
| Placement.LinkFromTogether | lcapy/schemcpts.py:258-264 | after `xlink` any two nodes at equal offsets share a group |
| Placement.XLink | lcapy/schemcpts.py:258-272 | `xlink`/`ylink` keep the table a partition over the same points |
| Placement.LinkRow | lcapy/schemcpts.py:260-264 | the inner loop on the table object computes `LinkRowFrom` |
| Placement.LinkEqual | lcapy/schemcpts.py:258-272 | `xlink`/`ylink` on the graph succeed iff `XLink` does, and leave its table |
| Placement.PlaceCalls | lcapy/schemcpts.py:274-284 | one call per neighbouring pair in `idx`, none for fewer than two nodes; each call has the second node's offset minus the first's, scaled by the size, and the component's stretch flag |
| Placement.PlaceCallsSigns | lcapy/schemcpts.py:274-284 | with offsets in descending order and a positive size, every requested separation is at most 0, and 0 iff the two offsets are equal |
| Placement.PlaceStep | lcapy/schemcpts.py:278-284 | one turn of the loop is one more `add` |
| Placement.Place | lcapy/schemcpts.py:274-290 | the graph becomes the one the `PlaceCalls` calls build, in order |
| Options.Plain | lcapy/schemcpts.py:45-49 | the base-class defaults: may rotate and stretch, not scale or mirror, width 1 |
| Options.FirstGivenUnique | lcapy/schemcpts.py:93-103 | the first given option of a list is unique |
| Options.Size | lcapy/schemcpts.py:90-107 | the first given of `size`, `right`, `down`, `left`, `up` through `float`; the default width when none is given or its text is empty |
| Options.Boolattr | lcapy/schemcpts.py:137-143 | `False` when absent, `True` when bare, else the text; truthy iff the option is present |
| Options.Stretch | lcapy/schemcpts.py:161-163 | stretchable iff the class allows it and `fixed` is not given |
| Options.BaseAngle | lcapy/schemcpts.py:165-177 | the first given direction's angle; without one -90 for `O` and `P` and 0 otherwise |
| Options.Angle | lcapy/schemcpts.py:165-181 | the base angle plus `rotate`; `ValueError` where `float` rejects the text |
| Options.RTable | lcapy/schemcpts.py:197-208 | a matrix iff the angle is in the table; each is an integer quarter-turn rotation, and the identity only at 0 |
| Options.RTableInverse | lcapy/schemcpts.py:201-206 | the table's matrix for `-x` is the transpose of that for `x` |
| Options.RTableHalfTurn | lcapy/schemcpts.py:201-206 | a further half turn negates the matrix |
| Options.Scale | lcapy/schemcpts.py:109-111 | `scale` through `float`, 1 by default |
| Options.DirectionCount | lcapy/schemcpts.py:113-127 | counts the direction options: at most 4, and 0 iff none is given |
| Options.Check | lcapy/schemcpts.py:392-407 | succeeds iff rotation, scale, mirroring and directions are all allowed, and then draws iff not `invisible`; each error is the first check that fails, in source order |
| Nodes.Attached | lcapy/schematic.py:540-548 | the count of non-`O` elements, 0 iff all are open circuits |
| Nodes.Node.constructor | lcapy/schematic.py:525-535 | a fresh node has no elements, no port flag and count 0 |
| Nodes.Node.Append | lcapy/schematic.py:540-548 | the element is appended; the port flag is set by a `P`; the count grows unless the element is an `O`; the counters stay in step with the elements |
| Nodes.Node.IsPort | lcapy/schematic.py:577-581 | a port iff a `P` element is attached or exactly one non-`O` element is |
| Nodes.Node.Visible | lcapy/schematic.py:557-575 | `'all'` draws everything; otherwise an `@` name is hidden and a port is drawn; a quiet setting draws only ports |
| Nodes.ConnectionsDrawn | lcapy/schematic.py:571-572 | with `'connections'` a plain node is drawn iff three or more elements meet there |
| Nodes.OtherSettingsDrawn | lcapy/schematic.py:574-575 | any other setting draws the nodes without `@` and `_`, and of the rest only ports |
| Nodes.AllDrawsMost | lcapy/schematic.py:557-575 | `'all'` draws everything any setting draws, and every setting draws what `'none'` draws |
| Pins.Clocked | lcapy/schemcpts.py:1160-1165 | a leading `>` marks a clock and is removed, and writing the pin back gives the label |
| Pins.ClockedWritten | lcapy/schemcpts.py:1160-1165 | reading a written pin gives the pin back |
| Pins.PinMode | lcapy/schemcpts.py:1137-1150 | `''` and `'auto'` are accepted; the `{` and `}` errors are raised exactly when their conditions hold; a list is accepted iff it has one name per node, and the braced names rebuild the option |
| Pins.AutoLabel | lcapy/schemcpts.py:1154-1157 | the last dotted part of the name, empty when it starts with `_`; an empty part is the `IndexError` |
| Pins.PinForLabel | lcapy/schemcpts.py:1152-1165 | only an empty automatic label fails; otherwise the pin is the empty, automatic or stripped listed label |
| Pins.FirstUnnamed | lcapy/schemcpts.py:1152-1165 | the first node whose label fails |
| Pins.NameOne | lcapy/schemcpts.py:1152-1165 | one turn of the loop sets `pinpos`, then the clock flag and label if the label exists, and keeps earlier nodes labelled; without a label the clock flag and label stay |
| Pins.Unaliased | lcapy/schemcpts.py:1152-1165 | the first node without a pin is none of the nodes before it |
| Pins.NameAll | lcapy/schemcpts.py:1152-1165 | nodes are labelled in order up to the first failing one, which gets its `pinpos`, keeps its clock flag and label, and is reported; every later node that is none of those before is untouched; `port`, `count` and elements are untouched |
| Pins.NamePins | lcapy/schemcpts.py:1135-1165 | a malformed option is reported before any node changes; otherwise as `NameAll` |
| Wires.AnyGiven | lcapy/schemcpts.py:1359-1365 | true iff one of the keys is an option |
| Wires.Implicit | lcapy/schemcpts.py:1359-1365 | true iff one of `implicit`, `ground`, `sground`, `rground` is given |
| Wires.Renamed | lcapy/schemcpts.py:1357 | the far node's new name is the wire's name, `@_`, then the node name |
| Wires.WireNodes | lcapy/schemcpts.py:1347-1357 | an implicit wire keeps its first node and renames the second; any other wire keeps its nodes |
| Wires.Wire.constructor | lcapy/schemcpts.py:1347-1357 | the wire's nodes are `WireNodes` of the given ones |
| Wires.RenamedHidden | lcapy/schematic.py:563-564 | a renamed node is drawn only under `'all'` |
| Wires.RenamedInjective | lcapy/schemcpts.py:1357 | wires without `@` in their names never share a renamed node unless they are the same wire and far node |

## Left out

- Drawing, TikZ and dot output, the `stage` argument of `analyse`, and `node.path`: they do not affect positions.
- Parsing of netlists and option strings. Options arrive as a map from option name to text.
- Python's `float()` is the parameter `num`, not modelled.
- `numpy.argsort` is the input `idx` of `Place`. `Placement.PlaceCallsSigns` states what follows when `idx` is the descending order.
- The cosine/sine branch of `Cpt.R` for angles outside its table: floating-point trigonometry.
- Integer keys in `Graph.__getitem__` (converted to strings): points are strings here.
- The recursion limit is `fuel`. The exact depth at which Python raises `RuntimeError` is not modelled.
- The iteration order of Python sets and dicts is an input `order` or an arbitrary choice.
- A point named `start` or `end` would collide with the synthetic vertices. Vertices here are a datatype, so it cannot.
- The exception messages.
- `Gedge.stretched`, `Node.rootname`, `Node.primary`, `Node.pos`, `Node.pin` and the element objects in `Node.list`: only the element types are kept.
- `Placement.Place` calls `Graph.add` with four arguments. As written, `place` passes the component as a fifth (lcapy/schemcpts.py:283), which `Graph.add` (lcapy/schematic.py:255) does not take. The model follows the evident intent.
- `Pins.NamePins` requires at least as many pin positions as nodes. `pinpos` is a per-class table of `Chip` and is a parameter here.
- `Wires.Wire.constructor` requires at least two nodes, as every two-terminal wire has.
- `LayoutGraph.Graph.Analyse` follows the code for a cycle: a cycle reachable from `start` is the `RuntimeError`; an unreachable `end` is the `AttributeError`.
- `Analysis.FixOne` follows the corrected rule `Slack.FixedCorrected`, not `assign_fixed` as written (lcapy/schematic.py:309-321). As written, a rigidly attached vertex is placed from its neighbour's search distance rather than its assigned position, and the reverse-edge branch never fires. `Analysis.FixOneAsWritten` models the scan as written.
- `Analysis.FixedPass` follows the corrected rule in the same way. `Analysis.FixedPassAsWritten` models the pass as written; nothing else uses it.
- `Analysis.Settle` runs `Analysis.FixedPass`, so where the two rules differ its positions are the corrected rule's, not those the code as written computes.
- `Analysis.Arrange`, likewise, through `Analysis.Settle`.
- `Analysis.Solve`, likewise, through `Analysis.Arrange`.
- `Analysis.Resolve`, likewise, through `Analysis.Solve`.
- `LayoutGraph.Graph.Lay`, likewise, through `Analysis.Resolve`.
- `LayoutGraph.Graph.Analyse`, likewise, through `LayoutGraph.Graph.Lay`.
- `StretchTurn` (`Analysis.StretchTurn`) pins each walk to a chain through unplaced vertices that stops at the first placed vertex it reaches, and from an unplaced vertex it takes at least one edge on a side that has one, but not to the one chain the code follows. The code follows `next`, the last edge `traverse` relaxed out of each vertex (lcapy/schematic.py:475-481), which depends on the edge order and on the distances found so far. Where several such chains exist, the model admits each of them.
- `StretchPass` (`Analysis.StretchPass`), likewise, for each vertex it places; so do the members above it (`Analysis.Settle`, `Analysis.Arrange`, `Analysis.Solve`, `Analysis.Resolve`, `LayoutGraph.Graph.Lay`, `LayoutGraph.Graph.Analyse`).
- `Nodes.Node.constructor` accepts an empty name. The code raises `IndexError` there (lcapy/schematic.py:531), which is not modelled.

## Findings

| source | as written | input that shows it | evidently intended | confidence | as-written member | corrected member |
|---|---|---|---|---|---|---|
| lcapy/schematic.py:314 | a rigidly attached vertex is placed from the neighbour's longest-path `dist` | rigid chain A -1-> B -1-> C with C on the critical path at 10 and B's `dist` 1: A is put at 0 | place it from the neighbour's assigned `known_dist` (A at 8) | not executed | Slack.RigidChainMisplaced | Slack.FixedCorrected |
| lcapy/schematic.py:316-320 | the reverse-edge test looks at `edge.from_node`, which is the vertex itself, still unknown, so the branch never fires | X whose only rigid edge comes from K placed at 5, size 2: X is never fixed | test and read the predecessor `edge.to_node` (X at 7) | not executed | Slack.AsWrittenIgnoresReverse | Slack.FixedCorrected |

The rest of the model (`Analysis.FixOne`, `Analysis.FixedPass` and the
passes above them) uses the corrected rule `Slack.FixedCorrected`.
`Analysis.FixedPassAsWritten` runs the whole rigid-edge pass with the rule
as written. `Slack.RigidPredecessorIgnored` exhibits the second row's input
on both rules.

=== FILE: analysis.dfy ===
/** The passes of `analyse` that turn the forward longest-path search into
    one position per vertex: the critical path, the rigid-edge propagation
    and the stretch pass, and the final lookup of every point's position. */
module Analysis {
  import opened Base
  import opened Paths
  import opened Search
  import opened Slack

  /** `known` with every vertex of `vs` set to its distance. */
  ghost predicate SetFrom(known: map<Vertex, Option<real>>, dist: map<Vertex, real>, vs: set<Vertex>,
                          known2: map<Vertex, Option<real>>) {
    known2.Keys == known.Keys &&
    forall x :: x in known ==> known2[x] == (if x in vs && x in dist then Some(dist[x]) else known[x])
  }

  /** Setting no vertex leaves the positions as they were. */
  lemma SetFromNone(known: map<Vertex, Option<real>>, dist: map<Vertex, real>, known2: map<Vertex, Option<real>>)
    requires SetFrom(known, dist, {}, known2)
    ensures known2 == known
  {
  }

  /** A non-empty chain enters its last vertex. */
  lemma {:induction false} TargetsEnd(p: seq<Edge>, a: Vertex, b: Vertex)
    requires IsChain(p, a, b) && p != []
    ensures b in Targets(p)
  {
    if |p| > 1 {
      TargetsEnd(p[1..], p[0].to, b);
    }
  }

  /** The walk back from `end` has reached `cur` along the tight chain
      `path`; every vertex the chain enters has been placed at its distance
      and taken out of `unknown`. */
  ghost predicate BackWalked(fedges: map<Vertex, seq<Edge>>, known: map<Vertex, Option<real>>, t: State,
                             unknown: set<Vertex>, cur: Vertex, path: seq<Edge>,
                             known2: map<Vertex, Option<real>>, unknown2: set<Vertex>) {
    cur in fedges && cur in t.dist && Targets(path) <= t.dist.Keys && Targets(path) <= fedges.Keys &&
    IsChain(path, cur, End) && InAdj(fedges, path) && Tight(t.dist, path) &&
    (path == []) == (cur == End) &&
    (path != [] ==> End in Targets(path) && t.dist[cur] >= 0.0 && End in t.dist && t.dist[End] >= 0.0) &&
    Start !in Targets(path) && cur !in Targets(path) &&
    (cur == Start || forall w :: w in Targets(path) ==> t.dist[w] > t.dist[cur] || w == End) &&
    unknown2 == unknown - Targets(path) && SetFrom(known, t.dist, Targets(path), known2)
  }

  /** Placing one more vertex at its distance extends `SetFrom` by it. */
  lemma SetFromStep(known: map<Vertex, Option<real>>, dist: map<Vertex, real>, vs: set<Vertex>,
                    known2: map<Vertex, Option<real>>, x: Vertex)
    requires SetFrom(known, dist, vs, known2) && x in known && x in dist
    ensures SetFrom(known, dist, vs + {x}, known2[x := Some(dist[x])])
  {
  }

  /** Prepending a tight edge into the head of a tight chain. */
  lemma BackChain(fedges: map<Vertex, seq<Edge>>, dist: map<Vertex, real>, cur: Vertex, path: seq<Edge>, e: Edge)
    requires IsChain(path, cur, End) && InAdj(fedges, path) && Tight(dist, path)
    requires e.to == cur && e.from in fedges && e in fedges[e.from]
    requires e.from in dist && cur in dist && dist[cur] == dist[e.from] + e.size
    ensures IsChain([e] + path, e.from, End) && InAdj(fedges, [e] + path) && Tight(dist, [e] + path)
    ensures Targets([e] + path) == Targets(path) + {cur}
  {
    var p := [e] + path;
    assert p[1..] == path;
    forall i | 0 <= i < |p| ensures p[i].from in fedges && p[i] in fedges[p[i].from] {
      if i > 0 {
        assert p[i] == path[i - 1];
      }
    }
  }

  /** One step back from `cur` along its `prev` edge `e`: the chain to
      `end` grows by `e` and stays tight, `cur` is placed, and one more
      vertex has been visited. */
  lemma BackStep(fedges: map<Vertex, seq<Edge>>, known: map<Vertex, Option<real>>, t: State,
                 unknown: set<Vertex>, cur: Vertex, path: seq<Edge>,
                 known2: map<Vertex, Option<real>>, unknown2: set<Vertex>, e: Edge)
    requires ForwardEdges(fedges) && PrevTree(fedges, t, Start) && known.Keys == fedges.Keys
    requires BackWalked(fedges, known, t, unknown, cur, path, known2, unknown2)
    requires cur != Start && t.prev[cur] == Some(e)
    ensures BackWalked(fedges, known, t, unknown, e.from, [e] + path,
                       known2[cur := Some(t.dist[cur])], unknown2 - {cur})
    ensures Targets([e] + path) == Targets(path) + {cur}
  {
    assert TightPrev(fedges, t.dist, cur, e);
    assert ForwardShape(e, fedges.Keys);
    BackChain(fedges, t.dist, cur, path, e);
    SetFromStep(known, t.dist, Targets(path), known2, cur);
    if path != [] {
      TargetsEnd(path, cur, End);
    }
  }

  /** Visiting one more vertex shrinks the set of vertices not yet visited. */
  lemma VisitOne(all: set<Vertex>, visited: set<Vertex>, x: Vertex)
    requires x in all && x !in visited
    ensures |all - (visited + {x})| < |all - visited|
  {
    var rest := all - (visited + {x});
    assert all - visited == rest + {x} && x !in rest;
  }

  /** A set not yet exhausted still has a member to visit. */
  lemma Unvisited(all: set<Vertex>, visited: set<Vertex>)
    requires visited <= all && visited != all
    ensures exists x :: x in all && x !in visited
  {
    assert !(all <= visited);
    var x :| x in all && x !in visited;
  }

  /** The walk back ended at `start`: the chain runs from `start` to `end`,
      is as long as `end`'s distance, and no chain of the graph from `start`
      to `end` is longer. */
  lemma CriticalFacts(fedges: map<Vertex, seq<Edge>>, known: map<Vertex, Option<real>>, t: State,
                      unknown: set<Vertex>, path: seq<Edge>,
                      known2: map<Vertex, Option<real>>, unknown2: set<Vertex>)
    requires Finished(fedges, known, false, t, Start) && t.dist[Start] == 0.0
    requires BackWalked(fedges, known, t, unknown, Start, path, known2, unknown2)
    ensures t.dist[End] >= 0.0 && End in Targets(path) && Start !in Targets(path)
    ensures IsChain(path, Start, End) && InAdj(fedges, path) && Length(path) == t.dist[End]
    ensures forall q :: IsChain(q, Start, End) && InAdj(fedges, q) ==> Length(q) <= Length(path)
  {
    ChainExact(t.dist, path, Start, End);
    forall q | IsChain(q, Start, End) && InAdj(fedges, q) ensures Length(q) <= Length(path) {
      CompleteBound(fedges, known, t, q, Start, End);
    }
  }

  /** The vertices the walk back placed sit at the length of the critical
      path up to them. */
  lemma CriticalPlaced(fedges: map<Vertex, seq<Edge>>, known: map<Vertex, Option<real>>, t: State,
                       unknown: set<Vertex>, path: seq<Edge>,
                       known2: map<Vertex, Option<real>>, unknown2: set<Vertex>)
    requires t.dist.Keys == fedges.Keys && known.Keys == fedges.Keys && Start in t.dist && t.dist[Start] == 0.0
    requires BackWalked(fedges, known, t, unknown, Start, path, known2, unknown2)
    ensures forall i :: 0 <= i < |path| ==> path[i].to in known2 && known2[path[i].to] == Some(Length(path[..i + 1]))
  {
    TightPrefix(t.dist, path, Start, End);
  }

  /** The walk back from `end` along `prev` edges after the forward
      search: each vertex on it, `end` included, takes its distance as its
      position and leaves `unknown`; `start` is where the walk stops and is
      never placed.  Python fails on the missing `prev` of an unreached
      `end`, reported as `ok == false`.  The walked chain is tight, so its
      length is `end`'s distance, and no chain from `start` to `end` is
      longer. */
  method CriticalPath(fedges: map<Vertex, seq<Edge>>, known: map<Vertex, Option<real>>, t: State,
                      unknown: set<Vertex>)
    returns (ok: bool, known2: map<Vertex, Option<real>>, unknown2: set<Vertex>, ghost path: seq<Edge>)
    requires ForwardEdges(fedges) && Start in fedges && End in fedges
    requires Finished(fedges, known, false, t, Start) && t.dist[Start] == 0.0
    ensures ok <==> t.dist[End] >= 0.0
    ensures !ok ==> known2 == known[End := Some(t.dist[End])] && unknown2 == unknown - {End}
    ensures ok ==> IsChain(path, Start, End) && InAdj(fedges, path) && Length(path) == t.dist[End]
    ensures ok ==> End in Targets(path) && Start !in Targets(path)
    ensures ok ==> unknown2 == unknown - Targets(path) && SetFrom(known, t.dist, Targets(path), known2)
    ensures ok ==> forall q :: IsChain(q, Start, End) && InAdj(fedges, q) ==> Length(q) <= Length(path)
    ensures ok ==> forall i :: 0 <= i < |path| ==>
                     path[i].to in known2 && known2[path[i].to] == Some(Length(path[..i + 1]))
  {
    FinishedTree(fedges, known, false, t, Start);
    var cur := End;
    known2, unknown2, path := known, unknown, [];
    while cur != Start
      invariant BackWalked(fedges, known, t, unknown, cur, path, known2, unknown2)
      decreases |fedges.Keys - Targets(path)|
    {
      if t.prev[cur].None? {
        assert cur == End && t.dist[End] < 0.0 && path == [];
        SetFromNone(known, t.dist, known2);
        return false, known2[cur := Some(t.dist[cur])], unknown2 - {cur}, path;
      }
      var e := t.prev[cur].value;
      BackStep(fedges, known, t, unknown, cur, path, known2, unknown2, e);
      VisitOne(fedges.Keys, Targets(path), cur);
      unknown2 := unknown2 - {cur};
      known2 := known2[cur := Some(t.dist[cur])];
      path := [e] + path;
      cur := e.from;
    }
    ok := true;
    CriticalFacts(fedges, known, t, unknown, path, known2, unknown2);
    CriticalPlaced(fedges, known, t, unknown, path, known2, unknown2);
  }

  /** Every vertex that has left `unknown`, except `start`, has a position. */
  ghost predicate Placed(known: map<Vertex, Option<real>>, unknown: set<Vertex>) {
    forall v :: v in known && v !in unknown && v != Start ==> known[v].Some?
  }

  /** No rigid edge joins `v` to a placed neighbour, so `assign_fixed` (as
      intended) cannot fix it. */
  ghost predicate Loose(fedges: map<Vertex, seq<Edge>>, redges: map<Vertex, seq<Edge>>,
                        unknown: set<Vertex>, v: Vertex) {
    v in fedges && v in redges &&
    (forall e :: e in fedges[v] ==> !RigidForward(e, unknown)) &&
    (forall e :: e in redges[v] ==> !RigidBackward(e, unknown))
  }

  /** `v` sits exactly the length of its rigid edge `e` from the placed
      neighbour `e` leads to. */
  ghost predicate Anchored(fedges: map<Vertex, seq<Edge>>, redges: map<Vertex, seq<Edge>>,
                           known: map<Vertex, Option<real>>, unknown: set<Vertex>, v: Vertex, e: Edge) {
    v in fedges && v in redges && v in known && known[v].Some? && e.to in known && known[e.to].Some? &&
    ((e in fedges[v] && RigidForward(e, unknown) && known[v].value + e.size == known[e.to].value) ||
     (e in redges[v] && RigidBackward(e, unknown) && known[v].value == known[e.to].value + e.size))
  }

  /** Every neighbour a rigid edge of `v` leads to has a position, so the
      fixing rule can be evaluated at `v`. */
  ghost predicate Fixing(fedges: map<Vertex, seq<Edge>>, redges: map<Vertex, seq<Edge>>,
                         known: map<Vertex, Option<real>>, unknown: set<Vertex>, v: Vertex) {
    v in fedges && v in redges &&
    (forall e :: e in fedges[v] && RigidForward(e, unknown) ==> e.to in known && known[e.to].Some?) &&
    (forall e :: e in redges[v] && RigidBackward(e, unknown) ==> e.to in known && known[e.to].Some?)
  }

  /** In a well-formed graph the fixing rule can be evaluated everywhere. */
  lemma Fixable(fedges: map<Vertex, seq<Edge>>, redges: map<Vertex, seq<Edge>>,
                known: map<Vertex, Option<real>>, unknown: set<Vertex>, v: Vertex)
    requires GraphShape(fedges, redges) && known.Keys == fedges.Keys && Placed(known, unknown)
    requires v in fedges
    ensures Fixing(fedges, redges, known, unknown, v)
  {
    forall e | e in fedges[v] && RigidForward(e, unknown) ensures e.to in known && known[e.to].Some? {
      assert ForwardShape(e, fedges.Keys);
    }
    forall e | e in redges[v] && RigidBackward(e, unknown) ensures e.to in known && known[e.to].Some? {
      assert ForwardShape(Mirror(e), fedges.Keys);
    }
  }

  /** One scan of `for n in unknown` in `analyse`: the first vertex (in the
      scan's order) that a rigid edge fixes is placed and leaves `unknown`;
      if there is none, every vertex of `unknown` is loose. */
  method FixOne(fedges: map<Vertex, seq<Edge>>, redges: map<Vertex, seq<Edge>>,
                known: map<Vertex, Option<real>>, unknown: set<Vertex>)
    returns (fixed: bool, v: Vertex, x: real)
    requires GraphShape(fedges, redges) && known.Keys == fedges.Keys && Placed(known, unknown)
    requires unknown <= fedges.Keys
    ensures fixed ==> v in unknown &&
                      FixedCorrected(fedges[v], redges[v], unknown, known) == Some(x)
    ensures !fixed ==> forall w :: w in unknown ==> Loose(fedges, redges, unknown, w)
  {
    var todo := unknown;
    while todo != {}
      invariant todo <= unknown
      invariant forall w :: w in unknown - todo ==> Loose(fedges, redges, unknown, w)
    {
      var n :| n in todo;
      Fixable(fedges, redges, known, unknown, n);
      var r := FixedCorrected(fedges[n], redges[n], unknown, known);
      if r.Some? {
        return true, n, r.value;
      }
      todo := todo - {n};
    }
    return false, Start, 0.0;
  }

  /** Fixing `v` keeps every earlier fixed vertex anchored: its anchor is
      already placed, so it is neither `v` nor moved. */
  lemma AnchoredStep(fedges: map<Vertex, seq<Edge>>, redges: map<Vertex, seq<Edge>>,
                     known: map<Vertex, Option<real>>, unknown: set<Vertex>, w: Vertex, e: Edge,
                     v: Vertex, x: real)
    requires Anchored(fedges, redges, known, unknown, w, e) && w !in unknown && v in unknown
    ensures Anchored(fedges, redges, known[v := Some(x)], unknown - {v}, w, e)
  {
  }

  /** The vertex just fixed is anchored by the edge that fixed it. */
  lemma AnchoredNew(fedges: map<Vertex, seq<Edge>>, redges: map<Vertex, seq<Edge>>,
                    known: map<Vertex, Option<real>>, unknown: set<Vertex>, v: Vertex, x: real)
    returns (e: Edge)
    requires v in unknown && v in known && Fixing(fedges, redges, known, unknown, v)
    requires FixedCorrected(fedges[v], redges[v], unknown, known) == Some(x)
    ensures Anchored(fedges, redges, known[v := Some(x)], unknown - {v}, v, e)
  {
    var known2 := known[v := Some(x)];
    if f :| f in fedges[v] && RigidForward(f, unknown) && x + f.size == known[f.to].value {
      e := f;
    } else {
      e :| e in redges[v] && RigidBackward(e, unknown) && x == known[e.to].value + e.size;
    }
    assert e.to != v && known2[e.to] == known[e.to];
  }

  /** What the rigid-edge pass keeps from `known`/`unknown` to
      `known2`/`unknown2`: vertices only leave `unknown`, each one that
      leaves is placed and anchored by the rigid edge `anchors` names, and
      nothing else moves. */
  ghost predicate FixedSoFar(fedges: map<Vertex, seq<Edge>>, redges: map<Vertex, seq<Edge>>,
                             known: map<Vertex, Option<real>>, unknown: set<Vertex>,
                             known2: map<Vertex, Option<real>>, unknown2: set<Vertex>,
                             anchors: map<Vertex, Edge>) {
    unknown2 <= unknown && known2.Keys == known.Keys && Placed(known2, unknown2) &&
    (forall v :: v in known && v !in unknown - unknown2 ==> known2[v] == known[v]) &&
    anchors.Keys == unknown - unknown2 &&
    (forall v :: v in anchors ==> Anchored(fedges, redges, known2, unknown2, v, anchors[v]))
  }

  /** Fixing one more vertex keeps `FixedSoFar`. */
  lemma FixStep(fedges: map<Vertex, seq<Edge>>, redges: map<Vertex, seq<Edge>>,
                known: map<Vertex, Option<real>>, unknown: set<Vertex>,
                known2: map<Vertex, Option<real>>, unknown2: set<Vertex>, anchors: map<Vertex, Edge>,
                v: Vertex, x: real)
    returns (e: Edge)
    requires FixedSoFar(fedges, redges, known, unknown, known2, unknown2, anchors)
    requires v in unknown2 && v in known && Fixing(fedges, redges, known2, unknown2, v)
    requires FixedCorrected(fedges[v], redges[v], unknown2, known2) == Some(x)
    ensures FixedSoFar(fedges, redges, known, unknown, known2[v := Some(x)], unknown2 - {v}, anchors[v := e])
  {
    e := AnchoredNew(fedges, redges, known2, unknown2, v, x);
    forall w | w in anchors ensures Anchored(fedges, redges, known2[v := Some(x)], unknown2 - {v}, w, anchors[w]) {
      AnchoredStep(fedges, redges, known2, unknown2, w, anchors[w], v, x);
    }
  }

  /** The rigid-edge pass of `analyse`: scan `unknown` for a vertex a rigid
      edge fixes, place it, and start over until a scan finds none.
      Afterwards every vertex still unknown is loose, every vertex that left
      is anchored by the rigid edge `anchors` names, and no other position
      changed. */
  method FixedPass(fedges: map<Vertex, seq<Edge>>, redges: map<Vertex, seq<Edge>>,
                   known: map<Vertex, Option<real>>, unknown: set<Vertex>)
    returns (known2: map<Vertex, Option<real>>, unknown2: set<Vertex>, ghost anchors: map<Vertex, Edge>)
    requires GraphShape(fedges, redges) && known.Keys == fedges.Keys && unknown <= fedges.Keys
    requires Placed(known, unknown)
    ensures FixedSoFar(fedges, redges, known, unknown, known2, unknown2, anchors)
    ensures forall v :: v in unknown2 ==> Loose(fedges, redges, unknown2, v)
  {
    known2, unknown2, anchors := known, unknown, map[];
    var changes := true;
    while changes && unknown2 != {}
      invariant FixedSoFar(fedges, redges, known, unknown, known2, unknown2, anchors)
      invariant !changes ==> forall w :: w in unknown2 ==> Loose(fedges, redges, unknown2, w)
      decreases |unknown2| + (if changes then 1 else 0)
    {
      var v, x;
      changes, v, x := FixOne(fedges, redges, known2, unknown2);
      if changes {
        Fixable(fedges, redges, known2, unknown2, v);
        var e := FixStep(fedges, redges, known, unknown, known2, unknown2, anchors, v, x);
        anchors := anchors[v := e];
        known2 := known2[v := Some(x)];
        unknown2 := unknown2 - {v};
      }
    }
  }

  /** No edge of `w` passes the tests `assign_fixed` writes, so as written
      it cannot fix `w`. */
  ghost predicate StuckAsWritten(fedges: map<Vertex, seq<Edge>>, redges: map<Vertex, seq<Edge>>,
                                 unknown: set<Vertex>, w: Vertex) {
    w in fedges && w in redges &&
    (forall e :: e in fedges[w] ==> !RigidForward(e, unknown)) &&
    (forall e :: e in redges[w] ==> !RigidBackwardAsWritten(e, unknown))
  }

  /** Every vertex `assign_fixed` as written may read at `v` has a
      distance. */
  ghost predicate Readable(fedges: map<Vertex, seq<Edge>>, redges: map<Vertex, seq<Edge>>,
                           dist: map<Vertex, real>, v: Vertex) {
    v in fedges && v in redges &&
    (forall e :: e in fedges[v] ==> e.to in dist) && (forall e :: e in redges[v] ==> e.from in dist)
  }

  /** As written, a fixed vertex `v` sits its rigid forward edge's length
      before that edge's target's longest-path distance `dist`, whatever
      position the target was given. */
  ghost predicate PlacedAsWritten(fedges: map<Vertex, seq<Edge>>, dist: map<Vertex, real>,
                                  known: map<Vertex, Option<real>>, unknown: set<Vertex>, v: Vertex) {
    v in fedges && v in known && known[v].Some? &&
    exists e :: e in fedges[v] && RigidForward(e, unknown) && e.to in dist && known[v].value == dist[e.to] - e.size
  }

  /** One scan of `for n in unknown` with `assign_fixed` as written: the
      first vertex it fixes, at the position the rule as written gives,
      or, if there is none, every vertex of `unknown` is stuck. */
  method FixOneAsWritten(fedges: map<Vertex, seq<Edge>>, redges: map<Vertex, seq<Edge>>,
                         dist: map<Vertex, real>, unknown: set<Vertex>)
    returns (fixed: bool, v: Vertex, x: real)
    requires GraphShape(fedges, redges) && dist.Keys == fedges.Keys && unknown <= fedges.Keys
    ensures fixed ==> v in unknown && Readable(fedges, redges, dist, v) &&
                      FixedAsWritten(fedges[v], redges[v], unknown, dist) == Some(x)
    ensures !fixed ==> forall w :: w in unknown ==> StuckAsWritten(fedges, redges, unknown, w)
  {
    ShapeAdj(fedges, redges);
    var todo := unknown;
    while todo != {}
      invariant todo <= unknown
      invariant forall w :: w in unknown - todo ==> StuckAsWritten(fedges, redges, unknown, w)
    {
      var n :| n in todo;
      assert Readable(fedges, redges, dist, n);
      var r := FixedAsWritten(fedges[n], redges[n], unknown, dist);
      if r.Some? {
        return true, n, r.value;
      }
      todo := todo - {n};
    }
    return false, Start, 0.0;
  }

  /** What `assign_fixed` as written fixes, it fixes by a forward edge:
      its reverse-edge test never passes (`AsWrittenIgnoresReverse`). */
  lemma FixedForward(fedges: map<Vertex, seq<Edge>>, redges: map<Vertex, seq<Edge>>,
                     dist: map<Vertex, real>, known: map<Vertex, Option<real>>,
                     unknown: set<Vertex>, v: Vertex, x: real)
    requires AdjShape(redges) && v in unknown && v in known && Readable(fedges, redges, dist, v)
    requires FixedAsWritten(fedges[v], redges[v], unknown, dist) == Some(x)
    ensures PlacedAsWritten(fedges, dist, known[v := Some(x)], unknown - {v}, v)
  {
    AsWrittenIgnoresReverse(v, fedges[v], redges[v], unknown, dist);
    var e :| e in fedges[v] && RigidForward(e, unknown) && x == dist[e.to] - e.size;
    assert RigidForward(e, unknown - {v});
  }

  /** What the rigid-edge pass as written keeps from `known`/`unknown` to
      `known2`/`unknown2`: vertices only leave `unknown`, each one that
      leaves is placed by the rule as written, and nothing else moves. */
  ghost predicate FixedSoFarAsWritten(fedges: map<Vertex, seq<Edge>>, dist: map<Vertex, real>,
                                      known: map<Vertex, Option<real>>, unknown: set<Vertex>,
                                      known2: map<Vertex, Option<real>>, unknown2: set<Vertex>) {
    unknown2 <= unknown && known2.Keys == known.Keys &&
    (forall v :: v in known && v !in unknown - unknown2 ==> known2[v] == known[v]) &&
    (forall v :: v in unknown - unknown2 ==> PlacedAsWritten(fedges, dist, known2, unknown2, v))
  }

  /** Fixing one more vertex by the rule as written keeps
      `FixedSoFarAsWritten`. */
  lemma FixStepAsWritten(fedges: map<Vertex, seq<Edge>>, redges: map<Vertex, seq<Edge>>,
                         dist: map<Vertex, real>, known: map<Vertex, Option<real>>, unknown: set<Vertex>,
                         known2: map<Vertex, Option<real>>, unknown2: set<Vertex>, v: Vertex, x: real)
    requires AdjShape(redges) && FixedSoFarAsWritten(fedges, dist, known, unknown, known2, unknown2)
    requires v in unknown2 && v in known2 && Readable(fedges, redges, dist, v)
    requires FixedAsWritten(fedges[v], redges[v], unknown2, dist) == Some(x)
    ensures FixedSoFarAsWritten(fedges, dist, known, unknown, known2[v := Some(x)], unknown2 - {v})
  {
    var known3, unknown3 := known2[v := Some(x)], unknown2 - {v};
    forall w | w in unknown - unknown3 ensures PlacedAsWritten(fedges, dist, known3, unknown3, w) {
      if w == v {
        FixedForward(fedges, redges, dist, known2, unknown2, v, x);
      } else {
        PlacedKept(fedges, dist, known2, unknown2, w, v, x);
      }
    }
    forall w | w in known && w !in unknown - unknown3 ensures known3[w] == known[w] {
      assert w != v && w !in unknown - unknown2;
    }
  }

  /** Fixing `v` leaves a vertex fixed before it where it was. */
  lemma PlacedKept(fedges: map<Vertex, seq<Edge>>, dist: map<Vertex, real>,
                   known: map<Vertex, Option<real>>, unknown: set<Vertex>, w: Vertex, v: Vertex, x: real)
    requires PlacedAsWritten(fedges, dist, known, unknown, w) && w !in unknown && v in unknown
    ensures PlacedAsWritten(fedges, dist, known[v := Some(x)], unknown - {v}, w)
  {
    var e :| e in fedges[w] && RigidForward(e, unknown) && e.to in dist && known[w].value == dist[e.to] - e.size;
    assert RigidForward(e, unknown - {v});
  }

  /** The rigid-edge pass of `analyse` with `assign_fixed` as written, given
      the distances `dist` of the forward search.  Afterwards every vertex
      still unknown is stuck, every vertex that left sits its rigid edge's
      length before the distance of that edge's target, and no other
      position changed. */
  method FixedPassAsWritten(fedges: map<Vertex, seq<Edge>>, redges: map<Vertex, seq<Edge>>,
                            dist: map<Vertex, real>, known: map<Vertex, Option<real>>, unknown: set<Vertex>)
    returns (known2: map<Vertex, Option<real>>, unknown2: set<Vertex>)
    requires GraphShape(fedges, redges) && dist.Keys == fedges.Keys && known.Keys == fedges.Keys
    requires unknown <= fedges.Keys
    ensures FixedSoFarAsWritten(fedges, dist, known, unknown, known2, unknown2)
    ensures forall w :: w in unknown2 ==> StuckAsWritten(fedges, redges, unknown2, w)
  {
    ShapeAdj(fedges, redges);
    known2, unknown2 := known, unknown;
    var changes := true;
    while changes && unknown2 != {}
      invariant FixedSoFarAsWritten(fedges, dist, known, unknown, known2, unknown2)
      invariant !changes ==> forall w :: w in unknown2 ==> StuckAsWritten(fedges, redges, unknown2, w)
      decreases |unknown2| + (if changes then 1 else 0)
    {
      var v, x;
      changes, v, x := FixOneAsWritten(fedges, redges, dist, unknown2);
      if changes {
        FixStepAsWritten(fedges, redges, dist, known, unknown, known2, unknown2, v, x);
        known2 := known2[v := Some(x)];
        unknown2 := unknown2 - {v};
      }
    }
  }

  /** Where a walk of the stretch pass stopped, how far it went and how
      many stretchable edges it crossed. */
  datatype Reach = Reach(last: Vertex, length: real, stretches: nat)

  /** `w` sums up the chain `path` of `adj` leading from `v`. */
  ghost predicate Along(adj: map<Vertex, seq<Edge>>, v: Vertex, w: Reach, path: seq<Edge>) {
    IsChain(path, v, w.last) && InAdj(adj, path) && Length(path) == w.length && Stretches(path) == w.stretches
  }

  /** Every edge of `path` leaves a vertex without a position: a walk
      stops at the first placed vertex it reaches. */
  ghost predicate Unplaced(known: map<Vertex, Option<real>>, path: seq<Edge>) {
    forall i :: 0 <= i < |path| ==> path[i].from in known && known[path[i].from] == None
  }

  /** A walk from a vertex without a position that has edges on its side
      takes at least one of them: the search always relaxes the first edge
      out of where it starts. */
  ghost predicate Leaves(adj: map<Vertex, seq<Edge>>, known: map<Vertex, Option<real>>, v: Vertex,
                         path: seq<Edge>) {
    v in adj && v in known && known[v] == None && adj[v] != [] ==> path != []
  }

  /** `longest_path_to_known` from `v` followed by the walk along the
      `next` pointers it leaves.  A recursion failure is `ok == false`;
      otherwise the walk is a chain from `v` through vertices without a
      known position, never back to `src`, and it ends where the search
      left no `next` pointer. */
  method Probe(adj: map<Vertex, seq<Edge>>, known: map<Vertex, Option<real>>, s: State,
               v: Vertex, src: Vertex, fuel: nat)
    returns (ok: bool, w: Reach, t: State, ghost path: seq<Edge>)
    requires AdjShape(adj) && WalkShape(adj, src) && known.Keys == adj.Keys && v in adj && v != src
    requires s.dist.Keys == adj.Keys && s.prev.Keys == adj.Keys && s.next.Keys == adj.Keys
    ensures Frame(adj, known, t)
    ensures ok ==> Along(adj, v, w, path) && w.last in adj && w.last != src && t.next[w.last] == None
    ensures ok ==> forall i :: 0 <= i < |path| ==> known[path[i].from] == None
    ensures ok && adj[v] != [] && (adj[v][0].to != v || adj[v][0].size > 0.0) ==> Leaves(adj, known, v, path)
  {
    ok, t := Longest(adj, known, true, s, v, fuel);
    w, path := Reach(v, 0.0, 0), [];
    if ok {
      var last, total, count;
      ghost var visited;
      last, total, count, path, visited := Walk(adj, known, t, v, src);
      w := Reach(last, total, count);
    }
  }

  /** Neither edge list of a vertex other than `start` and `end` begins
      with a loop of length 0, so both searches from it set its `next`. */
  lemma NoEmptyLoop(fedges: map<Vertex, seq<Edge>>, redges: map<Vertex, seq<Edge>>, v: Vertex)
    requires GraphShape(fedges, redges) && v in fedges && v != Start && v != End
    ensures fedges[v] != [] ==> fedges[v][0].to != v || fedges[v][0].size > 0.0
    ensures redges[v] != [] ==> redges[v][0].to != v || redges[v][0].size > 0.0
  {
    if fedges[v] != [] {
      assert fedges[v][0] in fedges[v];
    }
    if redges[v] != [] {
      assert redges[v][0] in redges[v];
    }
  }

  /** The stretch pass for one vertex `v`: walk forwards to `to` and
      backwards to `from`, then share the slack between them
      (`StretchPosition`).  Every failure of the pass shows up here. */
  method PlaceStretched(fedges: map<Vertex, seq<Edge>>, redges: map<Vertex, seq<Edge>>,
                        known: map<Vertex, Option<real>>, s: State, v: Vertex, fuel: nat)
    returns (r: Result<real, Failure>, t: State, fw: Reach, rw: Reach,
             ghost fpath: seq<Edge>, ghost rpath: seq<Edge>)
    requires GraphShape(fedges, redges) && known.Keys == fedges.Keys
    requires v in fedges && v != Start && v != End
    requires s.dist.Keys == fedges.Keys && s.prev.Keys == fedges.Keys && s.next.Keys == fedges.Keys
    ensures Frame(fedges, known, t)
    ensures r.Err? ==> r.error in {RecursionLimit, MissingKnown, WontFit}
    ensures r != Err(RecursionLimit) ==>
              Along(fedges, v, fw, fpath) && Along(redges, v, rw, rpath) &&
              fw.last != Start && rw.last != End && fw.last in known && rw.last in known &&
              Unplaced(known, fpath) && Unplaced(known, rpath) &&
              Leaves(fedges, known, v, fpath) && Leaves(redges, known, v, rpath) &&
              r == StretchPosition(rw.last == Start, fw.last == End, known[rw.last], known[fw.last],
                                   fw.length, rw.length, fw.stretches, rw.stretches)
  {
    ShapeAdj(fedges, redges);
    ShapeWalk(fedges, redges);
    NoEmptyLoop(fedges, redges, v);
    var ok;
    ok, fw, t, fpath := Probe(fedges, known, s, v, Start, fuel);
    rw, rpath := Reach(v, 0.0, 0), [];
    if !ok {
      return Err(RecursionLimit), t, fw, rw, fpath, rpath;
    }
    var t2;
    ok, rw, t2, rpath := Probe(redges, known, t, v, End, fuel);
    if !ok {
      return Err(RecursionLimit), t, fw, rw, fpath, rpath;
    }
    t := t2;
    r := StretchPosition(rw.last == Start, fw.last == End, known[rw.last], known[fw.last],
                         fw.length, rw.length, fw.stretches, rw.stretches);
  }

  /** `fw` and `rw` sum up chains `fpath` of forward and `rpath` of reverse
      edges leading from `v` through vertices without a position, so each
      stops at the first placed vertex it reaches, if any; the forward one
      never stops at `start`, the reverse one never at `end`, and both stop
      at vertices of `known`.  From a vertex without a position each walk
      takes at least one edge on a side that has one. */
  ghost predicate Walks(fedges: map<Vertex, seq<Edge>>, redges: map<Vertex, seq<Edge>>,
                        known: map<Vertex, Option<real>>, v: Vertex, fw: Reach, rw: Reach,
                        fpath: seq<Edge>, rpath: seq<Edge>) {
    Along(fedges, v, fw, fpath) && Along(redges, v, rw, rpath) &&
    fw.last != Start && rw.last != End && fw.last in known && rw.last in known &&
    Unplaced(known, fpath) && Unplaced(known, rpath) &&
    Leaves(fedges, known, v, fpath) && Leaves(redges, known, v, rpath)
  }

  /** The slack sharing between where the two walks stopped. */
  function Share(known: map<Vertex, Option<real>>, fw: Reach, rw: Reach): Result<real, Failure>
    requires fw.last in known && rw.last in known
  {
    StretchPosition(rw.last == Start, fw.last == End, known[rw.last], known[fw.last],
                    fw.length, rw.length, fw.stretches, rw.stretches)
  }

  /** Against the positions `known`, the stretch pass puts `v` at `x`: the
      walks from `v` stop at two vertices and `x` shares the slack between
      them. */
  ghost predicate Stretched(fedges: map<Vertex, seq<Edge>>, redges: map<Vertex, seq<Edge>>,
                            known: map<Vertex, Option<real>>, v: Vertex, x: real) {
    exists fw: Reach, rw: Reach, fpath: seq<Edge>, rpath: seq<Edge> ::
      Walks(fedges, redges, known, v, fw, rw, fpath, rpath) && Share(known, fw, rw) == Ok(x)
  }

  /** Against the positions `known`, the stretch pass fails at `v` with
      `f`: the search runs out of recursion, or the slack sharing between
      where the walks stop fails with `f`. */
  ghost predicate StretchFails(fedges: map<Vertex, seq<Edge>>, redges: map<Vertex, seq<Edge>>,
                               known: map<Vertex, Option<real>>, v: Vertex, f: Failure) {
    f == RecursionLimit ||
    exists fw: Reach, rw: Reach, fpath: seq<Edge>, rpath: seq<Edge> ::
      Walks(fedges, redges, known, v, fw, rw, fpath, rpath) && Share(known, fw, rw) == Err(f)
  }

  /** What `PlaceStretched` returns for `v` is where the stretch pass puts
      it, or how the pass fails there. */
  lemma Shared(fedges: map<Vertex, seq<Edge>>, redges: map<Vertex, seq<Edge>>,
               known: map<Vertex, Option<real>>, v: Vertex, r: Result<real, Failure>,
               fw: Reach, rw: Reach, fpath: seq<Edge>, rpath: seq<Edge>)
    requires r != Err(RecursionLimit) ==>
               Walks(fedges, redges, known, v, fw, rw, fpath, rpath) && r == Share(known, fw, rw)
    ensures r.Ok? ==> Stretched(fedges, redges, known, v, r.value)
    ensures r.Err? ==> StretchFails(fedges, redges, known, v, r.error)
  {
  }

  /** A vertex `v` between `b`, placed at 0, and `a`, placed at 10, with a
      stretchable edge of size 1 on each side; `a` leads on to `end`, at 20,
      and `b` back to `start`. */
  ghost predicate Between(fedges: map<Vertex, seq<Edge>>, redges: map<Vertex, seq<Edge>>,
                          known: map<Vertex, Option<real>>, b: Vertex, v: Vertex, a: Vertex) {
    b.Group? && v.Group? && a.Group? && b != v && v != a && a != b &&
    fedges == map[Start := [Edge(Start, b, 0.0, false)], b := [Edge(b, v, 1.0, true)],
                  v := [Edge(v, a, 1.0, true)], a := [Edge(a, End, 10.0, true)], End := []] &&
    redges == map[Start := [], b := [Edge(b, Start, 0.0, false)], v := [Edge(v, b, 1.0, true)],
                  a := [Edge(a, v, 1.0, true)], End := [Edge(End, a, 10.0, true)]] &&
    known == map[Start := None, b := Some(0.0), v := None, a := Some(10.0), End := Some(20.0)]
  }

  /** In `Between` the walks from `v` stop at `a` and `b`: neither stays at
      `v`, and neither runs on to `end` or `start`. */
  lemma BetweenWalks(fedges: map<Vertex, seq<Edge>>, redges: map<Vertex, seq<Edge>>,
                     known: map<Vertex, Option<real>>, b: Vertex, v: Vertex, a: Vertex,
                     fw: Reach, rw: Reach, fpath: seq<Edge>, rpath: seq<Edge>)
    requires Between(fedges, redges, known, b, v, a) && Walks(fedges, redges, known, v, fw, rw, fpath, rpath)
    ensures fw == Reach(a, 1.0, 1) && rw == Reach(b, 1.0, 1)
  {
    assert fedges[v] == [Edge(v, a, 1.0, true)] && redges[v] == [Edge(v, b, 1.0, true)];
    assert known[v] == None && known[a] == Some(10.0) && known[b] == Some(0.0);
    assert fpath != [] && rpath != [];
    // each walk takes the one edge out of `v`, then stops at the placed vertex it reaches
    assert fpath[0] == Edge(v, a, 1.0, true) && rpath[0] == Edge(v, b, 1.0, true);
    assert IsChain(fpath[1..], a, fw.last) && IsChain(rpath[1..], b, rw.last);
    assert fpath[1..] == [] && rpath[1..] == [];
    assert fpath == [Edge(v, a, 1.0, true)] && rpath == [Edge(v, b, 1.0, true)];
    OneEdge(fpath[0]);
    OneEdge(rpath[0]);
  }

  /** In `Between` the stretch pass can put `v` only in the middle. */
  lemma StretchedOnlyMiddle(fedges: map<Vertex, seq<Edge>>, redges: map<Vertex, seq<Edge>>,
                            known: map<Vertex, Option<real>>, b: Vertex, v: Vertex, a: Vertex, x: real)
    requires Between(fedges, redges, known, b, v, a) && Stretched(fedges, redges, known, v, x)
    ensures x == 5.0
  {
    var fw: Reach, rw: Reach, fpath: seq<Edge>, rpath: seq<Edge> :|
      Walks(fedges, redges, known, v, fw, rw, fpath, rpath) && Share(known, fw, rw) == Ok(x);
    BetweenWalks(fedges, redges, known, b, v, a, fw, rw, fpath, rpath);
  }

  /** In `Between` the stretch pass can fail at `v` only by running out of
      recursion: the slack sharing there always succeeds. */
  lemma MiddleNeverFails(fedges: map<Vertex, seq<Edge>>, redges: map<Vertex, seq<Edge>>,
                         known: map<Vertex, Option<real>>, b: Vertex, v: Vertex, a: Vertex, f: Failure)
    requires Between(fedges, redges, known, b, v, a) && StretchFails(fedges, redges, known, v, f)
    ensures f == RecursionLimit
  {
    forall fw: Reach, rw: Reach, fpath: seq<Edge>, rpath: seq<Edge> | Walks(fedges, redges, known, v, fw, rw, fpath, rpath)
      ensures Share(known, fw, rw) == Ok(5.0)
    {
      BetweenWalks(fedges, redges, known, b, v, a, fw, rw, fpath, rpath);
      assert known[a] == Some(10.0) && known[b] == Some(0.0);
    }
  }

  /** In `Between` the middle is a position the stretch pass gives `v`. */
  lemma StretchedMiddle(fedges: map<Vertex, seq<Edge>>, redges: map<Vertex, seq<Edge>>,
                        known: map<Vertex, Option<real>>, b: Vertex, v: Vertex, a: Vertex)
    requires Between(fedges, redges, known, b, v, a)
    ensures Stretched(fedges, redges, known, v, 5.0)
  {
    var fe, re := Edge(v, a, 1.0, true), Edge(v, b, 1.0, true);
    var fw, rw := Reach(a, 1.0, 1), Reach(b, 1.0, 1);
    assert fedges[v] == [fe] && redges[v] == [re];
    OneEdge(fe);
    OneEdge(re);
    assert Along(fedges, v, fw, [fe]) && Along(redges, v, rw, [re]);
    assert Walks(fedges, redges, known, v, fw, rw, [fe], [re]);
    assert Share(known, fw, rw) == Ok(5.0);
  }

  /** `order` lists distinct vertices: an iteration order of a set. */
  predicate Distinct(order: seq<Vertex>) {
    order == [] || (order[0] !in order[1..] && Distinct(order[1..]))
  }

  /** Two positions of a distinct list hold different vertices. */
  lemma {:induction false} DistinctAt(order: seq<Vertex>, i: nat, j: nat)
    requires Distinct(order) && j < i < |order|
    ensures order[i] != order[j]
  {
    if j == 0 {
      assert order[i] == order[1..][i - 1];
    } else {
      DistinctAt(order[1..], i - 1, j - 1);
    }
  }

  /** The positions the stretch pass sees when it reaches `order[j]`, given
      the positions `known` it started from and `known2` it ends with: the
      vertices of `unknown` it has not reached yet still hold their
      starting positions; every other vertex holds its final one. */
  ghost function AtTurn(known: map<Vertex, Option<real>>, known2: map<Vertex, Option<real>>,
                        unknown: set<Vertex>, order: seq<Vertex>, j: nat): map<Vertex, Option<real>>
    requires j <= |order|
  {
    map v | v in known2 :: if v in unknown && v !in order[..j] && v in known then known[v] else known2[v]
  }

  /** Each vertex of `unknown` among the first `n` of `order` is placed by
      the slack sharing against the positions known at its turn. */
  ghost predicate StretchedUpTo(fedges: map<Vertex, seq<Edge>>, redges: map<Vertex, seq<Edge>>,
                                known: map<Vertex, Option<real>>, known2: map<Vertex, Option<real>>,
                                unknown: set<Vertex>, order: seq<Vertex>, n: nat) {
    n <= |order| &&
    forall j :: 0 <= j < n && order[j] in unknown ==>
      order[j] in known2 && known2[order[j]].Some? &&
      Stretched(fedges, redges, AtTurn(known, known2, unknown, order, j), order[j], known2[order[j]].value)
  }

  /** Placing `order[i]` changes none of the earlier turns' views, and the
      new positions are the view of the next turn. */
  lemma AtTurnUpdate(known: map<Vertex, Option<real>>, known2: map<Vertex, Option<real>>,
                     unknown: set<Vertex>, order: seq<Vertex>, i: nat, x: real)
    requires Distinct(order) && i < |order| && order[i] in unknown && order[i] in known && order[i] in known2
    requires known2 == AtTurn(known, known2, unknown, order, i)
    ensures forall j :: 0 <= j <= i ==>
              AtTurn(known, known2[order[i] := Some(x)], unknown, order, j) == AtTurn(known, known2, unknown, order, j)
    ensures known2[order[i] := Some(x)] == AtTurn(known, known2[order[i] := Some(x)], unknown, order, i + 1)
  {
    var v := order[i];
    var k2 := known2[v := Some(x)];
    forall j | 0 <= j <= i
      ensures AtTurn(known, k2, unknown, order, j) == AtTurn(known, known2, unknown, order, j)
    {
      forall l | 0 <= l < j ensures order[l] != v {
        DistinctAt(order, i, l);
      }
      assert v !in order[..j];
    }
    assert order[..i + 1] == order[..i] + [v];
  }

  /** Placing `order[i]` at `x`, where the slack sharing puts it, extends
      `StretchedUpTo` by one turn. */
  lemma StretchedAdd(fedges: map<Vertex, seq<Edge>>, redges: map<Vertex, seq<Edge>>,
                     known: map<Vertex, Option<real>>, known2: map<Vertex, Option<real>>,
                     unknown: set<Vertex>, order: seq<Vertex>, i: nat, x: real)
    requires Distinct(order) && i < |order| && order[i] in unknown && order[i] in known && order[i] in known2
    requires StretchedUpTo(fedges, redges, known, known2, unknown, order, i)
    requires known2 == AtTurn(known, known2, unknown, order, i)
    requires Stretched(fedges, redges, known2, order[i], x)
    ensures StretchedUpTo(fedges, redges, known, known2[order[i] := Some(x)], unknown, order, i + 1)
    ensures known2[order[i] := Some(x)] == AtTurn(known, known2[order[i] := Some(x)], unknown, order, i + 1)
  {
    AtTurnUpdate(known, known2, unknown, order, i, x);
    var k2 := known2[order[i] := Some(x)];
    forall j | 0 <= j < i + 1 && order[j] in unknown
      ensures order[j] in k2 && k2[order[j]].Some? &&
              Stretched(fedges, redges, AtTurn(known, k2, unknown, order, j), order[j], k2[order[j]].value)
    {
      if j < i {
        DistinctAt(order, i, j);
      }
    }
  }

  /** Passing over a vertex that is not unknown extends `StretchedUpTo`
      by one turn. */
  lemma StretchedSkip(fedges: map<Vertex, seq<Edge>>, redges: map<Vertex, seq<Edge>>,
                      known: map<Vertex, Option<real>>, known2: map<Vertex, Option<real>>,
                      unknown: set<Vertex>, order: seq<Vertex>, i: nat)
    requires i < |order| && order[i] !in unknown
    requires StretchedUpTo(fedges, redges, known, known2, unknown, order, i)
    requires known2 == AtTurn(known, known2, unknown, order, i)
    ensures StretchedUpTo(fedges, redges, known, known2, unknown, order, i + 1)
    ensures known2 == AtTurn(known, known2, unknown, order, i + 1)
  {
    assert order[..i + 1] == order[..i] + [order[i]];
  }

  /** After the first `i` vertices of `order`: the unknown ones among them
      are placed and nothing outside `unknown` has moved. */
  ghost predicate StretchedSoFar(known: map<Vertex, Option<real>>, unknown: set<Vertex>, order: seq<Vertex>,
                                 i: nat, known2: map<Vertex, Option<real>>) {
    i <= |order| && known2.Keys == known.Keys && unknown <= known.Keys &&
    (forall v :: v in known && v !in unknown ==> known2[v] == known[v]) &&
    (forall j :: 0 <= j < i && order[j] in unknown ==> known2[order[j]].Some?)
  }

  /** Placing `order[i]` or skipping it moves on to `i + 1`. */
  lemma StretchedNext(known: map<Vertex, Option<real>>, unknown: set<Vertex>, order: seq<Vertex>,
                      i: nat, known2: map<Vertex, Option<real>>, x: real)
    requires StretchedSoFar(known, unknown, order, i, known2) && i < |order|
    ensures order[i] !in unknown ==> StretchedSoFar(known, unknown, order, i + 1, known2)
    ensures order[i] in unknown && order[i] in known ==>
              StretchedSoFar(known, unknown, order, i + 1, known2[order[i] := Some(x)])
  {
  }

  /** Having gone through all of `order`, every vertex of `unknown` it
      lists is placed. */
  lemma StretchedAll(known: map<Vertex, Option<real>>, unknown: set<Vertex>, order: seq<Vertex>,
                     known2: map<Vertex, Option<real>>)
    requires StretchedSoFar(known, unknown, order, |order|, known2)
    requires forall v :: v in unknown ==> v in order
    ensures forall v :: v in unknown ==> known2[v].Some?
  {
    forall v | v in unknown ensures known2[v].Some? {
      var j :| 0 <= j < |order| && order[j] == v;
    }
  }

  /** The state of the stretch pass before turn `i`: `known2` holds the
      positions so far and `t` the search fields. */
  ghost predicate Turned(fedges: map<Vertex, seq<Edge>>, redges: map<Vertex, seq<Edge>>,
                         known: map<Vertex, Option<real>>, unknown: set<Vertex>, order: seq<Vertex>,
                         i: nat, known2: map<Vertex, Option<real>>, t: State) {
    StretchedSoFar(known, unknown, order, i, known2) &&
    StretchedUpTo(fedges, redges, known, known2, unknown, order, i) &&
    known2 == AtTurn(known, known2, unknown, order, i) &&
    t.dist.Keys == fedges.Keys && t.prev.Keys == fedges.Keys && t.next.Keys == fedges.Keys
  }

  /** One turn of the stretch pass: `order[i]`, if still unknown, is placed
      by the slack sharing against the positions so far, or the pass fails
      there with the positions unchanged. */
  method StretchTurn(fedges: map<Vertex, seq<Edge>>, redges: map<Vertex, seq<Edge>>,
                     known: map<Vertex, Option<real>>, unknown: set<Vertex>, order: seq<Vertex>,
                     i: nat, known2: map<Vertex, Option<real>>, t: State, fuel: nat)
    returns (err: Option<Failure>, known3: map<Vertex, Option<real>>, t3: State)
    requires GraphShape(fedges, redges) && known.Keys == fedges.Keys
    requires unknown <= fedges.Keys && Start !in unknown && End !in unknown
    requires Distinct(order) && i < |order|
    requires Turned(fedges, redges, known, unknown, order, i, known2, t)
    ensures err.None? ==> Turned(fedges, redges, known, unknown, order, i + 1, known3, t3)
    ensures err.Some? ==> known3 == known2 && Frame(fedges, known2, t3) && order[i] in unknown &&
                          err.value in {RecursionLimit, MissingKnown, WontFit} &&
                          StretchFails(fedges, redges, known2, order[i], err.value)
  {
    var v := order[i];
    known3, t3, err := known2, t, None;
    if v in unknown {
      var r, fw, rw;
      ghost var fpath, rpath;
      r, t3, fw, rw, fpath, rpath := PlaceStretched(fedges, redges, known2, t, v, fuel);
      Shared(fedges, redges, known2, v, r, fw, rw, fpath, rpath);
      if r.Err? {
        return Some(r.error), known2, t3;
      }
      StretchedAdd(fedges, redges, known, known2, unknown, order, i, r.value);
      StretchedNext(known, unknown, order, i, known2, r.value);
      known3 := known2[v := Some(r.value)];
    } else {
      StretchedSkip(fedges, redges, known, known2, unknown, order, i);
      StretchedNext(known, unknown, order, i, known2, 0.0);
    }
  }

  /** The stretch pass of `analyse`: every vertex still unknown, taken in
      the set's iteration order `order`, is placed by the slack sharing
      between where its two walks stop, against the positions known at its
      turn, including those placed earlier in the pass.  It stops at the
      first failure; `done` vertices of `order` have been gone through by
      then, and the one after them is where the pass failed. */
  method StretchPass(fedges: map<Vertex, seq<Edge>>, redges: map<Vertex, seq<Edge>>,
                     known: map<Vertex, Option<real>>, unknown: set<Vertex>, s: State,
                     order: seq<Vertex>, fuel: nat)
    returns (err: Option<Failure>, known2: map<Vertex, Option<real>>, t: State, ghost done: nat)
    requires GraphShape(fedges, redges) && known.Keys == fedges.Keys
    requires unknown <= fedges.Keys && Start !in unknown && End !in unknown
    requires Distinct(order) && forall v :: v in unknown ==> v in order
    requires s.dist.Keys == fedges.Keys && s.prev.Keys == fedges.Keys && s.next.Keys == fedges.Keys
    ensures known2.Keys == known.Keys && Frame(fedges, known2, t)
    ensures forall v :: v in known && v !in unknown ==> known2[v] == known[v]
    ensures StretchedUpTo(fedges, redges, known, known2, unknown, order, done)
    ensures known2 == AtTurn(known, known2, unknown, order, done)
    ensures err.None? ==> done == |order| && forall v :: v in unknown ==> known2[v].Some?
    ensures err.Some? ==> err.value in {RecursionLimit, MissingKnown, WontFit}
    ensures err.Some? ==> done < |order| && order[done] in unknown &&
                          StretchFails(fedges, redges, known2, order[done], err.value)
  {
    ShapeAdj(fedges, redges);
    known2, t, err := known, s, None;
    var i := 0;
    assert order[..0] == [];
    while i < |order|
      invariant i <= |order| && err.None? && Turned(fedges, redges, known, unknown, order, i, known2, t)
    {
      var known3, t3;
      err, known3, t3 := StretchTurn(fedges, redges, known, unknown, order, i, known2, t, fuel);
      t := t3;
      if err.Some? {
        break;
      }
      known2 := known3;
      i := i + 1;
    }
    done := i;
    if err.None? {
      StretchedAll(known, unknown, order, known2);
    }
  }

  /** The point positions `analyse` returns: each point takes its group's
      position.  A group that never entered the graph is the `KeyError`
      ("component is unattached"). */
  method Positions(groups: map<Point, set<Point>>, known: map<Vertex, Option<real>>)
    returns (r: Result<map<Point, Option<real>>, Failure>)
    ensures r.Ok? <==> forall p :: p in groups ==> Group(groups[p]) in known
    ensures r.Ok? ==> r.value.Keys == groups.Keys &&
                      forall p :: p in groups ==> r.value[p] == known[Group(groups[p])]
    ensures r.Err? ==> r.error == Unattached
  {
    var pos: map<Point, Option<real>> := map[];
    var todo := groups.Keys;
    while todo != {}
      invariant todo <= groups.Keys
      invariant pos.Keys == groups.Keys - todo
      invariant forall p :: p in pos ==> Group(groups[p]) in known && pos[p] == known[Group(groups[p])]
      decreases todo
    {
      var p :| p in todo;
      if Group(groups[p]) !in known {
        return Err(Unattached);
      }
      pos := pos[p := known[Group(groups[p])]];
      todo := todo - {p};
    }
    return Ok(pos);
  }

  /** The answer for a graph without real vertices: every point at 0. */
  method Zeros(groups: map<Point, set<Point>>) returns (pos: map<Point, Option<real>>)
    ensures pos.Keys == groups.Keys && forall p :: p in pos ==> pos[p] == Some(0.0)
  {
    pos := map[];
    var todo := groups.Keys;
    while todo != {}
      invariant todo <= groups.Keys
      invariant pos.Keys == groups.Keys - todo && forall p :: p in pos ==> pos[p] == Some(0.0)
      decreases todo
    {
      var p :| p in todo;
      pos := pos[p := Some(0.0)];
      todo := todo - {p};
    }
  }

  /** What `analyse` returns: every point's position and the axis extent. */
  datatype Layout = Layout(pos: map<Point, Option<real>>, extent: real)

  /** A finished layout: every vertex but `start` is placed, each point
      takes its group's position and the extent is `end`'s position. */
  ghost predicate Laid(fedges: map<Vertex, seq<Edge>>, groups: map<Point, set<Point>>,
                       known: map<Vertex, Option<real>>, lay: Layout) {
    (forall v :: v in fedges && v != Start ==> v in known && known[v].Some?) &&
    lay.pos.Keys == groups.Keys &&
    (forall p :: p in groups ==> Group(groups[p]) in known && lay.pos[p] == known[Group(groups[p])]) &&
    End in known && known[End] == Some(lay.extent)
  }

  /** `path` is a critical path of length `extent`: a chain of forward
      edges from `start` to `end` at least as long as any other. */
  ghost predicate Critical(fedges: map<Vertex, seq<Edge>>, path: seq<Edge>, extent: real) {
    IsChain(path, Start, End) && InAdj(fedges, path) && Length(path) == extent &&
    forall q :: IsChain(q, Start, End) && InAdj(fedges, q) ==> Length(q) <= extent
  }

  /** After the critical path only `start` and the vertices still unknown
      lack a position. */
  lemma PlacedAfterCritical(fedges: map<Vertex, seq<Edge>>, known: map<Vertex, Option<real>>, t: State,
                            unknown: set<Vertex>, path: seq<Edge>,
                            known2: map<Vertex, Option<real>>, unknown2: set<Vertex>)
    requires known.Keys == fedges.Keys && t.dist.Keys == fedges.Keys && unknown == fedges.Keys - {Start, End}
    requires End in Targets(path) && unknown2 == unknown - Targets(path)
    requires SetFrom(known, t.dist, Targets(path), known2)
    ensures Placed(known2, unknown2)
  {
  }

  /** Once the stretch pass has placed every vertex it was given, every
      vertex but `start` has a position. */
  lemma PlacedAll(known3: map<Vertex, Option<real>>, unknown3: set<Vertex>, known4: map<Vertex, Option<real>>)
    requires Placed(known3, unknown3) && known4.Keys == known3.Keys && unknown3 <= known3.Keys
    requires forall v :: v in known3 && v !in unknown3 ==> known4[v] == known3[v]
    requires forall v :: v in unknown3 ==> known4[v].Some?
    ensures forall v :: v in known4 && v != Start ==> known4[v].Some?
  {
  }

  /** A vertex anchored by a rigid edge stays anchored when only loose
      vertices move. */
  lemma AnchoredKept(fedges: map<Vertex, seq<Edge>>, redges: map<Vertex, seq<Edge>>,
                     known: map<Vertex, Option<real>>, known2: map<Vertex, Option<real>>,
                     loose: set<Vertex>, v: Vertex, e: Edge)
    requires Anchored(fedges, redges, known, loose, v, e) && v !in loose
    requires known2.Keys == known.Keys && forall w :: w in known && w !in loose ==> known2[w] == known[w]
    ensures Anchored(fedges, redges, known2, loose, v, e)
  {
  }

  /** The stretch pass reads its starting positions only at the vertices
      it places, so two starting points that agree there explain the same
      positions. */
  lemma StretchedAgree(fedges: map<Vertex, seq<Edge>>, redges: map<Vertex, seq<Edge>>,
                       ka: map<Vertex, Option<real>>, kb: map<Vertex, Option<real>>,
                       known2: map<Vertex, Option<real>>, loose: set<Vertex>, order: seq<Vertex>, n: nat)
    requires forall v :: v in loose ==> v in ka && v in kb && ka[v] == kb[v]
    requires StretchedUpTo(fedges, redges, ka, known2, loose, order, n)
    ensures StretchedUpTo(fedges, redges, kb, known2, loose, order, n)
  {
    forall j | 0 <= j <= |order| ensures AtTurn(ka, known2, loose, order, j) == AtTurn(kb, known2, loose, order, j) {
    }
  }

  /** The passes of `analyse` after the critical path: the rigid-edge
      pass, the stretch pass and the lookup of every point's position.
      Every vertex of `unknown` either is anchored by the rigid edge
      `anchors` names or is one of the `loose` vertices no rigid edge
      fixes, which the stretch pass places in the order `order` against
      the positions known at each one's turn.  On success every vertex but
      `start` is placed, each point takes its group's position and the
      extent is `end`'s position; a failure of the stretch pass is the
      failure of the slack sharing at a loose vertex. */
  method Settle(fedges: map<Vertex, seq<Edge>>, redges: map<Vertex, seq<Edge>>,
                known: map<Vertex, Option<real>>, unknown: set<Vertex>, t: State,
                groups: map<Point, set<Point>>, order: seq<Vertex>, fuel: nat)
    returns (r: Result<Layout, Failure>, known2: map<Vertex, Option<real>>, t2: State,
             ghost loose: set<Vertex>, ghost anchors: map<Vertex, Edge>)
    requires GraphShape(fedges, redges) && known.Keys == fedges.Keys
    requires unknown <= fedges.Keys && Start !in unknown && End !in unknown && End in fedges
    requires Placed(known, unknown)
    requires t.dist.Keys == fedges.Keys && t.prev.Keys == fedges.Keys && t.next.Keys == fedges.Keys
    requires Distinct(order) && forall v :: v in unknown ==> v in order
    ensures known2.Keys == known.Keys && forall v :: v in known && v !in unknown ==> known2[v] == known[v]
    ensures t2.dist.Keys == fedges.Keys && t2.prev.Keys == fedges.Keys && t2.next.Keys == fedges.Keys
    ensures loose <= unknown && anchors.Keys == unknown - loose
    ensures forall v :: v in anchors ==> Anchored(fedges, redges, known2, loose, v, anchors[v])
    ensures forall v :: v in loose ==> Loose(fedges, redges, loose, v)
    ensures r.Ok? ==> Laid(fedges, groups, known2, r.value) &&
                      StretchedUpTo(fedges, redges, known, known2, loose, order, |order|)
    ensures r == Err(Unattached) ==> exists p :: p in groups && Group(groups[p]) !in known2
    ensures r.Err? ==> r.error in {RecursionLimit, MissingKnown, WontFit, Unattached}
    ensures r.Err? && r.error != Unattached ==> exists v :: v in loose && StretchFails(fedges, redges, known2, v, r.error)
  {
    var known3, unknown3;
    known3, unknown3, anchors := FixedPass(fedges, redges, known, unknown);
    loose := unknown3;
    var err;
    ghost var done;
    err, known2, t2, done := StretchPass(fedges, redges, known3, unknown3, t, order, fuel);
    forall v | v in anchors ensures Anchored(fedges, redges, known2, loose, v, anchors[v]) {
      AnchoredKept(fedges, redges, known3, known2, loose, v, anchors[v]);
    }
    if err.Some? {
      return Err(err.value), known2, t2, loose, anchors;
    }
    StretchedAgree(fedges, redges, known3, known, known2, loose, order, |order|);
    PlacedAll(known3, unknown3, known2);
    var pos := Positions(groups, known2);
    if pos.Err? {
      return Err(Unattached), known2, t2, loose, anchors;
    }
    r := Ok(Layout(pos.value, known2[End].value));
  }

  /** With no group vertex the forward graph has no cycle: only `start`
      and `end` remain, and no edge leaves `end` or enters `start`. */
  lemma NoCycleWithoutGroups(fedges: map<Vertex, seq<Edge>>)
    requires ForwardEdges(fedges) && fedges.Keys <= {Start, End}
    ensures forall c, a :: IsChain(c, a, a) && InAdj(fedges, c) ==> c == []
  {
    forall c: seq<Edge>, a: Vertex | IsChain(c, a, a) && InAdj(fedges, c) && c != [] ensures false {
      CycleLength(fedges, c, a);
    }
  }

  /** A finished forward search from `start` leaves no cycle reachable
      from `start`: around a cycle of positive length the distances could
      never settle. */
  lemma FinishedAcyclic(fedges: map<Vertex, seq<Edge>>, known: map<Vertex, Option<real>>, t: State)
    requires ForwardEdges(fedges) && Finished(fedges, known, false, t, Start)
    ensures forall p, c, a :: IsChain(p, Start, a) && InAdj(fedges, p) && IsChain(c, a, a) && InAdj(fedges, c) ==> c == []
  {
    forall p: seq<Edge>, c: seq<Edge>, a: Vertex | IsChain(p, Start, a) && InAdj(fedges, p) && IsChain(c, a, a) && InAdj(fedges, c) && c != []
      ensures false
    {
      CycleLength(fedges, c, a);
      CycleUnfinished(fedges, known, t, Start, p, c, a);
    }
  }

  /** No forward edge enters `start`. */
  lemma NothingEntersStart(fedges: map<Vertex, seq<Edge>>)
    requires ForwardEdges(fedges)
    ensures forall v, e :: v in fedges && e in fedges[v] ==> e.to != Start
  {
  }

  /** How `analyse` arrives at the positions `known2` from the positions
      `known` it started with.  `critical` is a critical path of length
      `extent`, and each vertex it enters sits at the length of the path up
      to that vertex.  Each vertex `anchors` names sits at the length of
      its rigid edge from a placed neighbour.  The other vertices, `loose`,
      have no such edge, and the stretch pass placed them in the order
      `order` by sharing out the slack. */
  ghost predicate Explains(fedges: map<Vertex, seq<Edge>>, redges: map<Vertex, seq<Edge>>,
                           known: map<Vertex, Option<real>>, order: seq<Vertex>,
                           known2: map<Vertex, Option<real>>, critical: seq<Edge>,
                           loose: set<Vertex>, anchors: map<Vertex, Edge>, extent: real) {
    Critical(fedges, critical, extent) &&
    (forall i :: 0 <= i < |critical| ==>
       critical[i].to in known2 && known2[critical[i].to] == Some(Length(critical[..i + 1]))) &&
    loose <= fedges.Keys - {Start, End} - Targets(critical) &&
    anchors.Keys == fedges.Keys - {Start, End} - Targets(critical) - loose &&
    (forall v :: v in anchors ==> Anchored(fedges, redges, known2, loose, v, anchors[v])) &&
    (forall v :: v in loose ==> Loose(fedges, redges, loose, v)) &&
    StretchedUpTo(fedges, redges, known, known2, loose, order, |order|)
  }

  /** Some critical path, rigid anchors and loose vertices explain how
      `analyse` arrives at `known2` from `known`, with extent `extent`. */
  ghost predicate Explained(fedges: map<Vertex, seq<Edge>>, redges: map<Vertex, seq<Edge>>,
                            known: map<Vertex, Option<real>>, order: seq<Vertex>,
                            known2: map<Vertex, Option<real>>, extent: real) {
    exists critical, loose, anchors :: Explains(fedges, redges, known, order, known2, critical, loose, anchors, extent)
  }

  /** `Explains` reads the starting positions only at the vertices the
      stretch pass places, so two starting points that agree on every
      vertex but `start` and `end` explain the same positions. */
  lemma ExplainsAgree(fedges: map<Vertex, seq<Edge>>, redges: map<Vertex, seq<Edge>>,
                      ka: map<Vertex, Option<real>>, kb: map<Vertex, Option<real>>, order: seq<Vertex>,
                      known2: map<Vertex, Option<real>>, extent: real)
    requires forall v :: v in fedges && v != Start && v != End ==> v in ka && v in kb && ka[v] == kb[v]
    requires Explained(fedges, redges, ka, order, known2, extent)
    ensures Explained(fedges, redges, kb, order, known2, extent)
  {
    var critical, loose, anchors :| Explains(fedges, redges, ka, order, known2, critical, loose, anchors, extent);
    StretchedAgree(fedges, redges, ka, kb, known2, loose, order, |order|);
    assert Explains(fedges, redges, kb, order, known2, critical, loose, anchors, extent);
  }

  /** The passes of `analyse` after a finished forward search: the
      critical path, then `Settle`.  On success the extent is the length
      of the longest chain from `start` to `end`, and every position is
      explained by the critical path, a rigid edge or the slack sharing. */
  method Arrange(fedges: map<Vertex, seq<Edge>>, redges: map<Vertex, seq<Edge>>,
                 known: map<Vertex, Option<real>>, t: State, groups: map<Point, set<Point>>,
                 order: seq<Vertex>, fuel: nat)
    returns (r: Result<Layout, Failure>, known2: map<Vertex, Option<real>>, t2: State,
             ghost critical: seq<Edge>, ghost loose: set<Vertex>, ghost anchors: map<Vertex, Edge>)
    requires GraphShape(fedges, redges) && Start in fedges && End in fedges && known.Keys == fedges.Keys
    requires Finished(fedges, known, false, t, Start) && t.dist[Start] == 0.0
    requires Distinct(order) && forall v :: v in fedges && v != Start && v != End ==> v in order
    ensures known2.Keys == known.Keys && known2[Start] == known[Start]
    ensures t2.dist.Keys == fedges.Keys && t2.prev.Keys == fedges.Keys && t2.next.Keys == fedges.Keys
    ensures r.Ok? ==> Laid(fedges, groups, known2, r.value) &&
                      Explains(fedges, redges, known, order, known2, critical, loose, anchors, r.value.extent)
    ensures r == Err(Unattached) ==> exists p :: p in groups && Group(groups[p]) !in known2
    ensures r == Err(NoCriticalPath) ==> forall q :: IsChain(q, Start, End) ==> !InAdj(fedges, q)
    ensures r.Err? ==> r.error in {NoCriticalPath, RecursionLimit, MissingKnown, WontFit, Unattached}
    ensures r.Err? && r.error in {RecursionLimit, MissingKnown, WontFit} ==>
              exists v :: v in fedges && StretchFails(fedges, redges, known2, v, r.error)
  {
    var unknown := fedges.Keys - {Start, End};
    var ok, unknown1;
    ok, known2, unknown1, critical := CriticalPath(fedges, known, t, unknown);
    loose, anchors := {}, map[];
    if !ok {
      forall q | IsChain(q, Start, End) ensures !InAdj(fedges, q) {
        if InAdj(fedges, q) {
          CompleteBound(fedges, known, t, q, Start, End);
        }
      }
      return Err(NoCriticalPath), known2, t, critical, loose, anchors;
    }
    PlacedAfterCritical(fedges, known, t, unknown, critical, known2, unknown1);
    var known3 := known2;
    r, known2, t2, loose, anchors := Settle(fedges, redges, known3, unknown1, t, groups, order, fuel);
    if r.Ok? {
      StretchedAgree(fedges, redges, known3, known, known2, loose, order, |order|);
      assert forall i :: 0 <= i < |critical| ==> critical[i].to in Targets(critical);
    }
  }

  /** `analyse` on a graph with group vertices: the forward search, the
      critical path, then `Settle`.  On success the extent is the length of
      the longest chain from `start` to `end`, and every position is
      explained by the critical path, a rigid edge or the slack sharing. */
  method Solve(fedges: map<Vertex, seq<Edge>>, redges: map<Vertex, seq<Edge>>,
               known: map<Vertex, Option<real>>, groups: map<Point, set<Point>>, s: State,
               order: seq<Vertex>, fuel: nat)
    returns (r: Result<Layout, Failure>, known2: map<Vertex, Option<real>>, t: State,
             ghost critical: seq<Edge>, ghost loose: set<Vertex>, ghost anchors: map<Vertex, Edge>)
    requires GraphShape(fedges, redges) && Start in fedges && known.Keys == fedges.Keys
    requires s.dist.Keys == fedges.Keys && s.prev.Keys == fedges.Keys && s.next.Keys == fedges.Keys
    requires Distinct(order) && forall v :: v in fedges && v != Start && v != End ==> v in order
    ensures known2.Keys == known.Keys && known2[Start] == known[Start]
    ensures t.dist.Keys == fedges.Keys && t.prev.Keys == fedges.Keys && t.next.Keys == fedges.Keys
    ensures r.Ok? ==> Laid(fedges, groups, known2, r.value) &&
                      Explains(fedges, redges, known, order, known2, critical, loose, anchors, r.value.extent)
    ensures r == Err(Unattached) ==> exists p :: p in groups && Group(groups[p]) !in known2
    ensures r == Err(NoCriticalPath) ==> forall q :: IsChain(q, Start, End) ==> !InAdj(fedges, q)
    ensures r.Err? && r.error in {RecursionLimit, MissingKnown, WontFit} ==>
              exists v :: v in fedges && StretchFails(fedges, redges, known2, v, r.error)
    ensures forall p, c, a ::
              IsChain(p, Start, a) && InAdj(fedges, p) && IsChain(c, a, a) && InAdj(fedges, c) && c != [] ==>
              r == Err(Dodgy)
  {
    ShapeAdj(fedges, redges);
    assert ForwardEdges(fedges) && End in fedges;
    NothingEntersStart(fedges);
    var ok;
    ok, t := Longest(fedges, known, false, s, Start, fuel);
    if !ok {
      return Err(Dodgy), known, t, [], {}, map[];
    }
    assert t.dist[Start] == 0.0;
    FinishedAcyclic(fedges, known, t);
    r, known2, t, critical, loose, anchors := Arrange(fedges, redges, known, t, groups, order, fuel);
  }

  /** What a finished `analyse` promises about its result `r`, over the
      forward lists `fedges`, the point groups `groups` and the final
      known positions `known2`: on success every point has a position
      and, with some real vertex, the layout is laid out along a critical
      path; `Unattached` names a group with no vertex; `NoCriticalPath`
      means `end` is unreachable from `start`; and a cycle reachable from
      `start` always ends in `Dodgy`. */
  ghost predicate Outcome(fedges: map<Vertex, seq<Edge>>, redges: map<Vertex, seq<Edge>>,
                          groups: map<Point, set<Point>>, known: map<Vertex, Option<real>>, order: seq<Vertex>,
                          known2: map<Vertex, Option<real>>, r: Result<Layout, Failure>)
    requires Start in fedges
  {
    (r.Ok? ==> r.value.pos.Keys == groups.Keys && forall p :: p in groups ==> r.value.pos[p].Some?) &&
    (r.Ok? && !(fedges.Keys <= {Start, End}) ==>
       Laid(fedges, groups, known2, r.value) && Explained(fedges, redges, known, order, known2, r.value.extent)) &&
    (r == Err(Unattached) ==> exists p :: p in groups && Group(groups[p]) !in known2) &&
    (r == Err(NoCriticalPath) ==> forall q :: IsChain(q, Start, End) ==> !InAdj(fedges, q)) &&
    (r.Err? && r.error in {RecursionLimit, MissingKnown, WontFit} ==>
       exists v :: v in fedges && StretchFails(fedges, redges, known2, v, r.error)) &&
    (forall p, c, a ::
       IsChain(p, Start, a) && InAdj(fedges, p) && IsChain(c, a, a) && InAdj(fedges, c) && c != [] ==>
       r == Err(Dodgy))
  }

  /** `Outcome` reads the starting positions only at the vertices the
      stretch pass places, so two starting points that agree on every
      vertex but `start` and `end` give the same outcome. */
  lemma OutcomeAgree(fedges: map<Vertex, seq<Edge>>, redges: map<Vertex, seq<Edge>>,
                     groups: map<Point, set<Point>>, ka: map<Vertex, Option<real>>, kb: map<Vertex, Option<real>>,
                     order: seq<Vertex>, known2: map<Vertex, Option<real>>, r: Result<Layout, Failure>)
    requires Start in fedges
    requires forall v :: v in fedges && v != Start && v != End ==> v in ka && v in kb && ka[v] == kb[v]
    requires Outcome(fedges, redges, groups, ka, order, known2, r)
    ensures Outcome(fedges, redges, groups, kb, order, known2, r)
  {
    if r.Ok? && !(fedges.Keys <= {Start, End}) {
      ExplainsAgree(fedges, redges, ka, kb, order, known2, r.value.extent);
    }
  }

  /** `analyse` after `add_start_nodes`, on the graph's edge lists and
      fields: with no real vertex every point is at 0 and the extent is 0;
      otherwise `Solve`.  On success every vertex but `start` is placed,
      each point takes its group's position, and the extent is the length
      of the longest chain from `start` to `end`, the critical path.  A
      cycle reachable from `start` always ends in `RuntimeError`, and a
      missing critical path means `end` is unreachable from `start`. */
  method Resolve(fedges: map<Vertex, seq<Edge>>, redges: map<Vertex, seq<Edge>>,
                 known: map<Vertex, Option<real>>, groups: map<Point, set<Point>>, s: State,
                 order: seq<Vertex>, fuel: nat)
    returns (r: Result<Layout, Failure>, known2: map<Vertex, Option<real>>, t: State)
    requires GraphShape(fedges, redges) && Start in fedges && known.Keys == fedges.Keys
    requires s.dist.Keys == fedges.Keys && s.prev.Keys == fedges.Keys && s.next.Keys == fedges.Keys
    requires Distinct(order) && forall v :: v in fedges && v != Start && v != End ==> v in order
    ensures known2.Keys == known.Keys && known2[Start] == known[Start]
    ensures t.dist.Keys == fedges.Keys && t.prev.Keys == fedges.Keys && t.next.Keys == fedges.Keys
    ensures fedges.Keys <= {Start, End} ==>
              known2 == known && r.Ok? && r.value.extent == 0.0 && r.value.pos.Keys == groups.Keys &&
              forall p :: p in groups ==> r.value.pos[p] == Some(0.0)
    ensures Outcome(fedges, redges, groups, known, order, known2, r)
  {
    if fedges.Keys <= {Start, End} {
      NoCycleWithoutGroups(fedges);
      var pos := Zeros(groups);
      return Ok(Layout(pos, 0.0)), known, s;
    }
    ghost var critical, loose, anchors;
    r, known2, t, critical, loose, anchors := Solve(fedges, redges, known, groups, s, order, fuel);
    if r.Ok? {
      forall p | p in groups ensures r.value.pos[p].Some? {
        assert Group(groups[p]) in fedges && Group(groups[p]) != Start;
      }
    }
  }
}

=== FILE: base.dfy ===
/** Small shared vocabulary: optional values, outcomes, connection-point
    names, and the two string operations of Python the layout code relies
    on (`str.split` on one character and `str.strip`). */
module Base {

  datatype Option<T> = None | Some(value: T)

  datatype Result<T, E> = Ok(value: T) | Err(error: E)

  /** A connection point (an electrical node of the schematic) is named by a string. */
  type Point = string

  /** `s.split(sep)` for a one-character separator: the pieces between
      separators, including empty ones. */
  function Split(s: string, sep: char): (parts: seq<string>)
    ensures |parts| >= 1
    ensures forall i :: 0 <= i < |parts| ==> sep !in parts[i]
    ensures sep !in s ==> parts == [s]
  {
    if s == [] then [""]
    else
      var rest := Split(s[1..], sep);
      if s[0] == sep then [""] + rest
      else
        assert sep !in s ==> s == [s[0]] + s[1..];
        [[s[0]] + rest[0]] + rest[1..]
  }

  /** `sep.join(parts)`. */
  function Join(parts: seq<string>, sep: char): string
    requires |parts| >= 1
  {
    if |parts| == 1 then parts[0] else parts[0] + [sep] + Join(parts[1..], sep)
  }

  /** Splitting and joining again gives the original string back, so no
      character is lost or invented by `Split`. */
  lemma {:induction false} JoinSplit(s: string, sep: char)
    ensures Join(Split(s, sep), sep) == s
  {
    if s != [] {
      JoinSplit(s[1..], sep);
      var rest := Split(s[1..], sep);
      if s[0] == sep {
        assert Split(s, sep) == [""] + rest;
        assert ([""] + rest)[1..] == rest;
      } else {
        var parts := Split(s, sep);
        assert parts == [[s[0]] + rest[0]] + rest[1..];
        if |rest| == 1 {
          assert parts == [[s[0]] + rest[0]];
        } else {
          assert parts[1..] == rest[1..];
          assert Join(rest, sep) == rest[0] + [sep] + Join(rest[1..], sep);
        }
      }
    }
  }

  /** The last piece of `Split(s, sep)` is the part of `s` after its last
      separator, i.e. `s.split(sep)[-1]`. */
  function LastPart(s: string, sep: char): (r: string)
    ensures sep !in r
    ensures sep !in s ==> r == s
  {
    var parts := Split(s, sep);
    parts[|parts| - 1]
  }

  /** The characters Python's `str.strip()` removes from byte strings. */
  predicate IsSpace(c: char) {
    c == ' ' || c == '\t' || c == '\n' || c == '\r' || c == '\U{B}' || c == '\U{C}'
  }

  /** The number of whitespace characters `s` starts with. */
  function Leading(s: string): (n: nat)
    ensures n <= |s| && forall k :: 0 <= k < n ==> IsSpace(s[k])
    ensures n < |s| ==> !IsSpace(s[n])
  {
    if s != [] && IsSpace(s[0]) then 1 + Leading(s[1..]) else 0
  }

  /** The number of whitespace characters `s` ends with. */
  function Trailing(s: string): (n: nat)
    ensures n <= |s| && forall k :: |s| - n <= k < |s| ==> IsSpace(s[k])
    ensures n < |s| ==> !IsSpace(s[|s| - n - 1])
  {
    if s != [] && IsSpace(s[|s| - 1]) then 1 + Trailing(s[..|s| - 1]) else 0
  }

  /** `s.strip()`: what is left of `s` after its leading and trailing
      whitespace; it neither starts nor ends with whitespace, and all of
      `s` after it is whitespace. */
  function Strip(s: string): (r: string)
    ensures Leading(s) + |r| <= |s| && r == s[Leading(s)..Leading(s) + |r|]
    ensures forall k :: Leading(s) + |r| <= k < |s| ==> IsSpace(s[k])
    ensures r == [] || (!IsSpace(r[0]) && !IsSpace(r[|r| - 1]))
  {
    var rest := s[Leading(s)..];
    var n := Trailing(rest);
    assert forall k :: Leading(s) + |rest| - n <= k < |s| ==> s[k] == rest[k - Leading(s)];
    rest[..|rest| - n]
  }
}

=== FILE: cnodes.dfy ===
/** The table of common nodes: connection points that must share one
    coordinate along an axis are merged into one group.  The table maps
    every point it knows to its group (the Python code keeps one tuple per
    group and re-points every member at the merged tuple). */
module CommonNodes {
  import opened Base

  /** Every known point lies in its own group, and every member of a group
      is known and maps to that same group: the groups partition the points. */
  ghost predicate IsPartition(m: map<Point, set<Point>>) {
    forall p :: p in m ==> p in m[p] && forall q :: q in m[p] ==> q in m && m[q] == m[p]
  }

  /** Two points are in the same group. */
  predicate Together(m: map<Point, set<Point>>, p: Point, q: Point) {
    p in m && q in m && m[p] == m[q]
  }

  /** The table a fresh `Cnodes(nodes)` holds: each point alone. */
  function Singletons(points: set<Point>): (m: map<Point, set<Point>>)
    ensures m.Keys == points
    ensures IsPartition(m)
    ensures forall p, q :: Together(m, p, q) <==> p in points && p == q
  {
    var m := map p | p in points :: {p};
    assert forall p, q :: Together(m, p, q) ==> p == q by {
      forall p, q | Together(m, p, q) ensures p == q {
        assert p in m[p] && m[p] == {p} && m[q] == {q};
      }
    }
    m
  }

  /** The table after `link(n1, n2)`: the two groups become one. */
  function Linked(m: map<Point, set<Point>>, n1: Point, n2: Point): (r: map<Point, set<Point>>)
    requires IsPartition(m) && n1 in m && n2 in m
    ensures r.Keys == m.Keys
    ensures r[n1] == r[n2] == m[n1] + m[n2]
    ensures forall p :: p in m && p !in m[n1] && p !in m[n2] ==> r[p] == m[p]
  {
    map p | p in m :: if p in m[n1] || p in m[n2] then m[n1] + m[n2] else m[p]
  }

  /** Linking keeps the groups a partition. */
  lemma LinkedPartition(m: map<Point, set<Point>>, n1: Point, n2: Point)
    requires IsPartition(m) && n1 in m && n2 in m
    ensures IsPartition(Linked(m, n1, n2))
  {
    var r := Linked(m, n1, n2);
    var u := m[n1] + m[n2];
    forall p | p in r ensures p in r[p] && forall q :: q in r[p] ==> q in r && r[q] == r[p] {
      if p in u {
        forall q | q in r[p] ensures q in r && r[q] == r[p] {
          assert q in u;
        }
      } else {
        forall q | q in r[p] ensures q in r && r[q] == r[p] {
          assert q in m[p] && m[q] == m[p];
        }
      }
    }
  }

  /** After linking, two points share a group exactly when they already
      did, or each of them was together with `n1` or with `n2`. */
  lemma LinkedTogether(m: map<Point, set<Point>>, n1: Point, n2: Point, p: Point, q: Point)
    requires IsPartition(m) && n1 in m && n2 in m
    ensures Together(Linked(m, n1, n2), p, q) <==>
            Together(m, p, q) ||
            ((Together(m, p, n1) || Together(m, p, n2)) && (Together(m, q, n1) || Together(m, q, n2)))
  {
    var r := Linked(m, n1, n2);
    var u := m[n1] + m[n2];
    assert forall x :: x in m ==> (x in u <==> Together(m, x, n1) || Together(m, x, n2)) by {
      forall x | x in m ensures x in u <==> Together(m, x, n1) || Together(m, x, n2) {
        if x in m[n1] { assert m[x] == m[n1]; }
        if x in m[n2] { assert m[x] == m[n2]; }
        if Together(m, x, n1) { assert x in m[x]; }
        if Together(m, x, n2) { assert x in m[x]; }
      }
    }
    if p in m && q in m && p !in u && q in u {
      assert r[p] == m[p] && p in m[p];
    }
    if p in m && q in m && p in u && q !in u {
      assert r[q] == m[q] && q in m[q];
    }
  }

  /** Linking is symmetric in its two points. */
  lemma LinkedSymmetric(m: map<Point, set<Point>>, n1: Point, n2: Point)
    requires IsPartition(m) && n1 in m && n2 in m
    ensures Linked(m, n1, n2) == Linked(m, n2, n1)
  {
    assert m[n1] + m[n2] == m[n2] + m[n1];
  }

  /** Linking two points that already share a group changes nothing, so
      linking the same pair twice is the same as linking it once. */
  lemma LinkedIdempotent(m: map<Point, set<Point>>, n1: Point, n2: Point)
    requires IsPartition(m) && n1 in m && n2 in m
    ensures Together(m, n1, n2) ==> Linked(m, n1, n2) == m
    ensures Linked(Linked(m, n1, n2), n1, n2) == Linked(m, n1, n2)
  {
    var r := Linked(m, n1, n2);
    if Together(m, n1, n2) {
      forall p | p in m ensures r[p] == m[p] {
        if p in m[n1] { assert m[p] == m[n1]; }
      }
    }
    LinkedPartition(m, n1, n2);
    var rr := Linked(r, n1, n2);
    forall p | p in r ensures rr[p] == r[p] {
      if p in r[n1] { assert r[p] == r[n1]; }
    }
  }

  /** Part way through `link`: the points of `done` are re-pointed at the
      merged group, every other point keeps its old group. */
  ghost predicate Repointed(g: map<Point, set<Point>>, m: map<Point, set<Point>>,
                            done: set<Point>, merged: set<Point>) {
    g.Keys == m.Keys && forall p :: p in m ==> g[p] == if p in done then merged else m[p]
  }

  /** Re-pointing one more known point. */
  lemma RepointStep(g: map<Point, set<Point>>, m: map<Point, set<Point>>,
                    done: set<Point>, merged: set<Point>, n: Point)
    requires Repointed(g, m, done, merged) && n in m
    ensures Repointed(g[n := merged], m, done + {n}, merged)
  {
  }

  /** Re-pointing `a` and then `b` at the same group re-points `a + b`. */
  lemma RepointCompose(m: map<Point, set<Point>>, g1: map<Point, set<Point>>, g2: map<Point, set<Point>>,
                       a: set<Point>, b: set<Point>, merged: set<Point>)
    requires Repointed(g1, m, a, merged) && Repointed(g2, g1, b, merged)
    ensures Repointed(g2, m, a + b, merged)
  {
  }

  /** Once both old groups are re-pointed, the table is `Linked`. */
  lemma RepointedLinked(g: map<Point, set<Point>>, m: map<Point, set<Point>>, n1: Point, n2: Point)
    requires IsPartition(m) && n1 in m && n2 in m
    requires Repointed(g, m, m[n1] + m[n2], m[n1] + m[n2])
    ensures g == Linked(m, n1, n2)
  {
  }

  /** The equivalence table of one axis. */
  class Cnodes {
    var groups: map<Point, set<Point>>

    ghost predicate Valid()
      reads this
    {
      IsPartition(groups)
    }

    /** `Cnodes(nodes)`: every point starts alone in its group. */
    constructor (nodes: set<Point>)
      ensures Valid()
      ensures groups == Singletons(nodes)
    {
      var table: map<Point, set<Point>> := map[];
      var todo := nodes;
      while todo != {}
        invariant todo <= nodes
        invariant table == map p | p in nodes - todo :: {p}
        decreases todo
      {
        var node :| node in todo;
        table := table[node := {node}];
        todo := todo - {node};
      }
      groups := table;
    }

    /** The group of a point; a point the table does not know stands alone. */
    function Find(p: Point): (g: set<Point>)
      reads this
      requires Valid()
      ensures p in g
      ensures p in groups ==> g == groups[p] && g <= groups.Keys
      ensures p !in groups ==> g == {p}
    {
      if p in groups then groups[p] else {p}
    }

    /** One loop of `link`: every point of `members` is re-pointed at
        `merged`. */
    method Repoint(members: set<Point>, merged: set<Point>)
      requires members <= groups.Keys
      modifies this
      ensures Repointed(groups, old(groups), members, merged)
    {
      ghost var m := groups;
      var todo := members;
      ghost var done: set<Point> := {};
      while todo != {}
        invariant done + todo == members
        invariant Repointed(groups, m, done, merged)
        decreases todo
      {
        var n :| n in todo;
        RepointStep(groups, m, done, merged, n);
        groups := groups[n := merged];
        todo := todo - {n};
        done := done + {n};
      }
    }

    /** `link(n1, n2)`.  Looking up a point the table does not know raises
        `KeyError` before anything changes; that is the `false` outcome. */
    method Link(n1: Point, n2: Point) returns (ok: bool)
      requires Valid()
      modifies this
      ensures Valid()
      ensures ok <==> n1 in old(groups) && n2 in old(groups)
      ensures ok ==> groups == Linked(old(groups), n1, n2)
      ensures !ok ==> groups == old(groups)
    {
      if n1 !in groups || n2 !in groups {
        return false;
      }
      ghost var m := groups;
      var set1 := groups[n1];
      var set2 := groups[n2];
      var newset := set1 + set2;
      Repoint(set1, newset);
      var second := groups[n2];
      assert second == set2 || second == newset;
      ghost var g1 := groups;
      Repoint(second, newset);
      RepointCompose(m, g1, groups, set1, second, newset);
      RepointedLinked(groups, m, n1, n2);
      LinkedPartition(m, n1, n2);
      return true;
    }
  }
}

=== FILE: graph.dfy ===
/** The placement graph of one axis and its analysis: vertices are groups
    of common nodes, edges carry minimum separations, and `Analyse` turns
    the graph into one coordinate per connection point. */
module LayoutGraph {
  import opened Base
  import opened CommonNodes
  import opened Paths
  import opened Search
  import opened Analysis

  /** The edge `add` stores for a non-zero size: a negative size swaps the
      endpoints so that every stored length is positive. */
  function Oriented(a: Vertex, b: Vertex, size: real, stretch: bool): (e: Edge)
    requires size != 0.0
    ensures e.size > 0.0 && e.stretch == stretch
    ensures size > 0.0 ==> e.from == a && e.to == b && e.size == size
    ensures size < 0.0 ==> e.from == b && e.to == a && e.size == -size
  {
    if size < 0.0 then Edge(b, a, -size, stretch) else Edge(a, b, size, stretch)
  }

  /** A vertex's `Gnode`: its forward and reverse edge lists, the fields
      the longest-path searches write (`dist`, `prev`, `next`) and its
      assigned position (`known_dist`). */
  datatype Gnode = Gnode(fedges: seq<Edge>, redges: seq<Edge>, dist: real,
                         prev: Option<Edge>, next: Option<Edge>, known: Option<real>)

  /** A fresh `Gnode(name)`: no edges, distance 0, no pointers, no position. */
  const Blank := Gnode([], [], 0.0, None, None, None)

  /** The forward lists of every vertex. */
  function FEdges(nodes: map<Vertex, Gnode>): (m: map<Vertex, seq<Edge>>)
    ensures m.Keys == nodes.Keys && forall v :: v in nodes ==> m[v] == nodes[v].fedges
  {
    map v | v in nodes :: nodes[v].fedges
  }

  /** The reverse lists of every vertex. */
  function REdges(nodes: map<Vertex, Gnode>): (m: map<Vertex, seq<Edge>>)
    ensures m.Keys == nodes.Keys && forall v :: v in nodes ==> m[v] == nodes[v].redges
  {
    map v | v in nodes :: nodes[v].redges
  }

  /** The assigned position of every vertex. */
  function Known(nodes: map<Vertex, Gnode>): (m: map<Vertex, Option<real>>)
    ensures m.Keys == nodes.Keys && forall v :: v in nodes ==> m[v] == nodes[v].known
  {
    map v | v in nodes :: nodes[v].known
  }

  /** The search fields of every vertex. */
  function Marks(nodes: map<Vertex, Gnode>): (t: State)
    ensures t.dist.Keys == nodes.Keys && t.prev.Keys == nodes.Keys && t.next.Keys == nodes.Keys
    ensures forall v :: v in nodes ==> t.dist[v] == nodes[v].dist && t.prev[v] == nodes[v].prev && t.next[v] == nodes[v].next
  {
    State(map v | v in nodes :: nodes[v].dist, map v | v in nodes :: nodes[v].prev, map v | v in nodes :: nodes[v].next)
  }

  /** `add_node(v)`: a new vertex gets a fresh `Gnode`; an existing one is
      left alone. */
  function Touch(nodes: map<Vertex, Gnode>, v: Vertex): (r: map<Vertex, Gnode>)
    ensures r.Keys == nodes.Keys + {v} && v in r
    ensures forall u :: u in nodes ==> r[u] == nodes[u]
    ensures v !in nodes ==> r[v] == Blank
  {
    if v in nodes then nodes else nodes[v := Blank]
  }

  /** The lists and positions after `add_node(v)`: those of a new vertex
      are empty. */
  lemma TouchLists(nodes: map<Vertex, Gnode>, v: Vertex)
    ensures FEdges(Touch(nodes, v)) == WithVertex(FEdges(nodes), v, [])
    ensures REdges(Touch(nodes, v)) == WithVertex(REdges(nodes), v, [])
    ensures Known(Touch(nodes, v)) == WithVertex(Known(nodes), v, None)
  {
  }

  /** `add_edges`: the edge goes on its source's forward list, its mirror
      on its target's reverse list. */
  function Connect(nodes: map<Vertex, Gnode>, e: Edge): (r: map<Vertex, Gnode>)
    requires e.from in nodes && e.to in nodes
    ensures r.Keys == nodes.Keys
    ensures FEdges(r) == Append(FEdges(nodes), e.from, e) && REdges(r) == Append(REdges(nodes), e.to, Mirror(e))
    ensures Known(r) == Known(nodes)
  {
    var n1 := nodes[e.from := nodes[e.from].(fedges := nodes[e.from].fedges + [e])];
    n1[e.to := n1[e.to].(redges := n1[e.to].redges + [Mirror(e)])]
  }
  /** The edge lists a search follows: the forward or the reverse ones. */
  function Side(nodes: map<Vertex, Gnode>, forward: bool): (adj: map<Vertex, seq<Edge>>)
    ensures adj.Keys == nodes.Keys
  {
    if forward then FEdges(nodes) else REdges(nodes)
  }

  /** `Graph.Lay` on the vertex table: resolve the positions and write
      them, with the search marks, back into the table. */
  method LayOut(nodes: map<Vertex, Gnode>, groups: map<Point, set<Point>>, order: seq<Vertex>, fuel: nat)
    returns (r: Result<Layout, Failure>, nodes2: map<Vertex, Gnode>)
    requires GraphShape(FEdges(nodes), REdges(nodes)) && Start in nodes && Distinct(order)
    requires forall v :: v in nodes && v.Group? ==> v in order
    ensures nodes2.Keys == nodes.Keys && FEdges(nodes2) == FEdges(nodes) && REdges(nodes2) == REdges(nodes)
    ensures Outcome(FEdges(nodes2), REdges(nodes2), groups, Known(nodes), order, Known(nodes2), r)
    ensures nodes.Keys <= {Start, End} ==>
              r.Ok? && r.value.extent == 0.0 && forall p :: p in groups ==> r.value.pos[p] == Some(0.0)
  {
    var fe, re := FEdges(nodes), REdges(nodes);
    var known2, t;
    r, known2, t := Resolve(fe, re, Known(nodes), groups, Marks(nodes), order, fuel);
    nodes2 := Stamp(nodes, known2, t);
    assert FEdges(nodes2) == fe && REdges(nodes2) == re && Known(nodes2) == known2;
  }

  /** The longest-path search from `origin` over one side of a graph, its
      marks stored in the vertices and nothing else changed. */
  method SearchFrom(nodes: map<Vertex, Gnode>, forward: bool, stop: bool, origin: Vertex, fuel: nat)
    returns (ok: bool, r: map<Vertex, Gnode>)
    requires GraphShape(FEdges(nodes), REdges(nodes)) && origin in nodes
    ensures r.Keys == nodes.Keys && FEdges(r) == FEdges(nodes) && REdges(r) == REdges(nodes) && Known(r) == Known(nodes)
    ensures Pointers(Side(r, forward), Known(r), stop, Marks(r))
    ensures forall x :: x in r && r[x].dist < 0.0 ==> r[x].dist == -1.0
    ensures (forall v, e :: v in r && e in Side(r, forward)[v] ==> e.to != origin) ==> r[origin].dist == 0.0
    ensures ok ==> Finished(Side(r, forward), Known(r), stop, Marks(r), origin)
  {
    var fe, re, kn := FEdges(nodes), REdges(nodes), Known(nodes);
    ShapeAdj(fe, re);
    var adj := Side(nodes, forward);
    var t;
    ok, t := Longest(adj, kn, stop, Marks(nodes), origin, fuel);
    r := Stamp(nodes, kn, t);
    assert Side(r, forward) == adj;
  }

  /** The vertex `add` uses for a point: its group of common nodes, or the
      point on its own when the table does not know it. */
  function KeyIn(groups: map<Point, set<Point>>, p: Point): (v: Vertex)
    ensures v.Group? && (p in groups ==> v.members == groups[p]) && (p !in groups ==> v.members == {p})
  {
    if p in groups then Group(groups[p]) else Group({p})
  }

  /** The graph after `add(n1, n2, size, stretch)`: nothing changes for a
      zero size; otherwise the groups of both points are vertices. */
  function Added(nodes: map<Vertex, Gnode>, groups: map<Point, set<Point>>,
                 n1: Point, n2: Point, size: real, stretch: bool): (r: map<Vertex, Gnode>)
    ensures size == 0.0 ==> r == nodes
    ensures size != 0.0 ==> r.Keys == nodes.Keys + {KeyIn(groups, n1), KeyIn(groups, n2)}
  {
    if size == 0.0 then nodes
    else
      var e := Oriented(KeyIn(groups, n1), KeyIn(groups, n2), size, stretch);
      var t1 := Touch(nodes, e.from);
      var t2 := Touch(t1, e.to);
      assert {e.from, e.to} == {KeyIn(groups, n1), KeyIn(groups, n2)};
      assert t2.Keys == nodes.Keys + {e.from, e.to};
      Connect(t2, e)
  }

  /** A non-zero `add` appends exactly one edge of positive length to one
      forward list (the first point's group's, or the second's when the size
      is negative) and its mirror to the other endpoint's reverse list;
      every other list and every position stays as it was, and a new vertex
      starts with empty lists. */
  lemma AddedEdges(nodes: map<Vertex, Gnode>, groups: map<Point, set<Point>>,
                   n1: Point, n2: Point, size: real, stretch: bool)
    requires size != 0.0
    ensures var e := Oriented(KeyIn(groups, n1), KeyIn(groups, n2), size, stretch);
            var r := Added(nodes, groups, n1, n2, size, stretch);
            var f := WithVertex(WithVertex(FEdges(nodes), e.from, []), e.to, []);
            var b := WithVertex(WithVertex(REdges(nodes), e.from, []), e.to, []);
            e.from in f && e.to in b &&
            FEdges(r) == Append(f, e.from, e) && REdges(r) == Append(b, e.to, Mirror(e)) &&
            Known(r) == WithVertex(WithVertex(Known(nodes), e.from, None), e.to, None)
  {
    var e := Oriented(KeyIn(groups, n1), KeyIn(groups, n2), size, stretch);
    var t1 := Touch(nodes, e.from);
    var t2 := Touch(t1, e.to);
    TouchLists(nodes, e.from);
    TouchLists(t1, e.to);
    assert FEdges(t2) == WithVertex(WithVertex(FEdges(nodes), e.from, []), e.to, []);
    assert REdges(t2) == WithVertex(WithVertex(REdges(nodes), e.from, []), e.to, []);
    assert Known(t2) == WithVertex(WithVertex(Known(nodes), e.from, None), e.to, None);
  }

  /** Writing the outcome of a search or of the analysis back into the
      nodes: positions and search fields change, edges do not. */
  function Stamp(nodes: map<Vertex, Gnode>, known: map<Vertex, Option<real>>, t: State): (r: map<Vertex, Gnode>)
    requires known.Keys == nodes.Keys && t.dist.Keys == nodes.Keys && t.prev.Keys == nodes.Keys && t.next.Keys == nodes.Keys
    ensures r.Keys == nodes.Keys
    ensures FEdges(r) == FEdges(nodes) && REdges(r) == REdges(nodes) && Known(r) == known && Marks(r) == t
  {
    map v | v in nodes :: nodes[v].(dist := t.dist[v], prev := t.prev[v], next := t.next[v], known := known[v])
  }

  /** `m` with `v` present; a new `v` gets the default `d`. */
  function WithVertex<T>(m: map<Vertex, T>, v: Vertex, d: T): (r: map<Vertex, T>)
    ensures r.Keys == m.Keys + {v}
    ensures forall u :: u in m ==> r[u] == m[u]
    ensures v !in m ==> r[v] == d
  {
    if v in m then m else m[v := d]
  }

  /** A new group vertex without edges keeps the shape. */
  lemma ShapeWithGroup(fedges: map<Vertex, seq<Edge>>, redges: map<Vertex, seq<Edge>>, v: Vertex)
    requires GraphShape(fedges, redges) && v.Group?
    ensures GraphShape(WithVertex(fedges, v, []), WithVertex(redges, v, []))
  {
    var f, r := WithVertex(fedges, v, []), WithVertex(redges, v, []);
    forall u, e: Edge | u in r && e in r[u] ensures e.from == u && ForwardShape(Mirror(e), f.Keys) {
      assert e in redges[u] && ForwardShape(Mirror(e), fedges.Keys);
    }
  }

  /** Adding `start` and `end` without edges keeps the shape. */
  lemma ShapeWithEnds(fedges: map<Vertex, seq<Edge>>, redges: map<Vertex, seq<Edge>>)
    requires GraphShape(fedges, redges) && Start !in fedges
    ensures GraphShape(WithVertex(WithVertex(fedges, Start, []), End, []),
                       WithVertex(WithVertex(redges, Start, []), End, []))
  {
    var f := WithVertex(WithVertex(fedges, Start, []), End, []);
    var r := WithVertex(WithVertex(redges, Start, []), End, []);
    forall u, e: Edge | u in r && e in r[u] ensures e.from == u && ForwardShape(Mirror(e), f.Keys) {
      assert e in redges[u] && ForwardShape(Mirror(e), fedges.Keys);
    }
  }

  /** `m` with `e` appended to the list of `v`. */
  function Append(m: map<Vertex, seq<Edge>>, v: Vertex, e: Edge): (r: map<Vertex, seq<Edge>>)
    requires v in m
    ensures r.Keys == m.Keys && r[v] == m[v] + [e]
    ensures forall u :: u in m && u != v ==> r[u] == m[u]
  {
    m[v := m[v] + [e]]
  }

  /** Storing a well-formed edge keeps the forward lists well formed. */
  lemma ForwardAddEdge(fedges: map<Vertex, seq<Edge>>, e: Edge)
    requires ForwardEdges(fedges) && ForwardShape(e, fedges.Keys)
    ensures ForwardEdges(Append(fedges, e.from, e))
  {
    var f := Append(fedges, e.from, e);
    forall u: Vertex, x: Edge | u in f && x in f[u] ensures x.from == u && ForwardShape(x, f.Keys) {
      if x != e || u != e.from {
        assert x in fedges[u];
      }
    }
  }

  /** Storing the mirror of a well-formed edge keeps the reverse lists
      well formed. */
  lemma ReverseAddEdge(redges: map<Vertex, seq<Edge>>, keys: set<Vertex>, e: Edge)
    requires forall v, x :: v in redges && x in redges[v] ==> x.from == v && ForwardShape(Mirror(x), keys)
    requires ForwardShape(e, keys) && e.to in redges
    ensures var r := Append(redges, e.to, Mirror(e));
            forall v, x :: v in r && x in r[v] ==> x.from == v && ForwardShape(Mirror(x), keys)
  {
    var r := Append(redges, e.to, Mirror(e));
    forall u: Vertex, x: Edge | u in r && x in r[u] ensures x.from == u && ForwardShape(Mirror(x), keys) {
      if x != Mirror(e) || u != e.to {
        assert x in redges[u];
      }
    }
  }

  /** Storing a well-formed edge and its mirror keeps the shape. */
  lemma ShapeAddEdge(fedges: map<Vertex, seq<Edge>>, redges: map<Vertex, seq<Edge>>, e: Edge)
    requires GraphShape(fedges, redges) && ForwardShape(e, fedges.Keys)
    ensures GraphShape(Append(fedges, e.from, e), Append(redges, e.to, Mirror(e)))
  {
    ForwardAddEdge(fedges, e);
    ReverseAddEdge(redges, fedges.Keys, e);
  }

  /** Part way through `add_start_nodes`, over the lists `F`, `R` it
      started from: `start` and `end` are present, and each vertex of `done`
      without forward edges has gained an edge to `end`, each without
      reverse edges the mirror of an edge from `start`, all rigid and of
      length 0. */
  ghost predicate HookedLists(F: map<Vertex, seq<Edge>>, R: map<Vertex, seq<Edge>>,
                              f: map<Vertex, seq<Edge>>, r: map<Vertex, seq<Edge>>, done: set<Vertex>) {
    R.Keys == F.Keys && done <= F.Keys && Start !in F && End !in F &&
    f.Keys == F.Keys + {Start, End} && r.Keys == f.Keys &&
    forall v :: v in F ==>
      f[v] == F[v] + (if v in done && F[v] == [] then [Edge(v, End, 0.0, false)] else []) &&
      r[v] == R[v] + (if v in done && R[v] == [] then [Edge(v, Start, 0.0, false)] else [])
  }

  /** The edges `start` has gained: one to each vertex of `done` that had
      no reverse edges. */
  ghost predicate HookedStart(R: map<Vertex, seq<Edge>>, es: seq<Edge>, done: set<Vertex>)
    requires done <= R.Keys
  {
    forall e :: e in es <==> e.from == Start && e.to in done && R[e.to] == [] && e.size == 0.0 && !e.stretch
  }

  /** The reverse edges `end` has gained: one to each vertex of `done` that
      had no forward edges. */
  ghost predicate HookedEnd(F: map<Vertex, seq<Edge>>, es: seq<Edge>, done: set<Vertex>)
    requires done <= F.Keys
  {
    forall e :: e in es <==> e.from == End && e.to in done && F[e.to] == [] && e.size == 0.0 && !e.stretch
  }

  /** The whole state of `add_start_nodes` after visiting `done`. */
  ghost predicate Hooked(F: map<Vertex, seq<Edge>>, R: map<Vertex, seq<Edge>>,
                         f: map<Vertex, seq<Edge>>, r: map<Vertex, seq<Edge>>, done: set<Vertex>) {
    HookedLists(F, R, f, r, done) && HookedStart(R, f[Start], done) && HookedEnd(F, r[End], done) &&
    f[End] == [] && r[Start] == []
  }

  /** Before the loop: `start` and `end` added without edges. */
  lemma HookedInit(F: map<Vertex, seq<Edge>>, R: map<Vertex, seq<Edge>>,
                   f: map<Vertex, seq<Edge>>, r: map<Vertex, seq<Edge>>)
    requires R.Keys == F.Keys && Start !in F && End !in F
    requires f == WithVertex(WithVertex(F, Start, []), End, []) && r == WithVertex(WithVertex(R, Start, []), End, [])
    ensures Hooked(F, R, f, r, {})
  {
    forall v | v in F ensures f[v] == F[v] && r[v] == R[v] {
      assert v != Start && v != End;
    }
  }

  /** Visiting `v` adds the edge from `start` exactly when `v` had no
      reverse edges. */
  lemma StartStep(R: map<Vertex, seq<Edge>>, es: seq<Edge>, done: set<Vertex>, v: Vertex)
    requires done <= R.Keys && v in R && HookedStart(R, es, done)
    ensures HookedStart(R, es + (if R[v] == [] then [Edge(Start, v, 0.0, false)] else []), done + {v})
  {
  }

  /** Visiting `v` adds the reverse edge at `end` exactly when `v` had no
      forward edges. */
  lemma EndStep(F: map<Vertex, seq<Edge>>, es: seq<Edge>, done: set<Vertex>, v: Vertex)
    requires done <= F.Keys && v in F && HookedEnd(F, es, done)
    ensures HookedEnd(F, es + (if F[v] == [] then [Edge(End, v, 0.0, false)] else []), done + {v})
  {
  }

  /** The lists of the old vertices after one more visit. */
  lemma ListsStep(F: map<Vertex, seq<Edge>>, R: map<Vertex, seq<Edge>>,
                  f: map<Vertex, seq<Edge>>, r: map<Vertex, seq<Edge>>, done: set<Vertex>, v: Vertex,
                  f2: map<Vertex, seq<Edge>>, r2: map<Vertex, seq<Edge>>)
    requires HookedLists(F, R, f, r, done) && v in F && v !in done
    requires f2.Keys == f.Keys && r2.Keys == r.Keys
    requires forall u :: u in F && u != v ==> f2[u] == f[u] && r2[u] == r[u]
    requires f2[v] == F[v] + (if F[v] == [] then [Edge(v, End, 0.0, false)] else [])
    requires r2[v] == R[v] + (if R[v] == [] then [Edge(v, Start, 0.0, false)] else [])
    ensures HookedLists(F, R, f2, r2, done + {v})
  {
    forall u | u in F
      ensures f2[u] == F[u] + (if u in done + {v} && F[u] == [] then [Edge(u, End, 0.0, false)] else [])
      ensures r2[u] == R[u] + (if u in done + {v} && R[u] == [] then [Edge(u, Start, 0.0, false)] else [])
    {
      if u != v {
        assert f2[u] == f[u] && r2[u] == r[u];
      }
    }
  }

  /** What one turn of the `add_start_nodes` loop changes: the lists of
      `v`, the list of `start` and the reverse list of `end`. */
  lemma HookFrame(f: map<Vertex, seq<Edge>>, r: map<Vertex, seq<Edge>>, v: Vertex,
                  f1: map<Vertex, seq<Edge>>, r1: map<Vertex, seq<Edge>>,
                  f2: map<Vertex, seq<Edge>>, r2: map<Vertex, seq<Edge>>)
    requires v in f && Start in f && End in f && f.Keys == r.Keys && v != Start && v != End
    requires if r[v] == [] then f1 == Append(f, Start, Edge(Start, v, 0.0, false)) && r1 == Append(r, v, Edge(v, Start, 0.0, false))
             else f1 == f && r1 == r
    requires if f1[v] == [] then f2 == Append(f1, v, Edge(v, End, 0.0, false)) && r2 == Append(r1, End, Edge(End, v, 0.0, false))
             else f2 == f1 && r2 == r1
    ensures f2.Keys == f.Keys && r2.Keys == r.Keys
    ensures forall u :: u in f && u != v && u != Start && u != End ==> f2[u] == f[u] && r2[u] == r[u]
    ensures f2[v] == f[v] + (if f[v] == [] then [Edge(v, End, 0.0, false)] else [])
    ensures r2[v] == r[v] + (if r[v] == [] then [Edge(v, Start, 0.0, false)] else [])
    ensures f2[Start] == f[Start] + (if r[v] == [] then [Edge(Start, v, 0.0, false)] else [])
    ensures r2[End] == r[End] + (if f[v] == [] then [Edge(End, v, 0.0, false)] else [])
    ensures f2[End] == f[End] && r2[Start] == r[Start]
  {
    assert f1[v] == f[v] && r1[End] == r[End] && f1[End] == f[End] && r1[Start] == r[Start];
  }

  /** The body of the `add_start_nodes` loop for one more vertex `v`:
      first the edge from `start`, then the edge to `end`. */
  lemma HookStep(F: map<Vertex, seq<Edge>>, R: map<Vertex, seq<Edge>>,
                 f: map<Vertex, seq<Edge>>, r: map<Vertex, seq<Edge>>, done: set<Vertex>, v: Vertex,
                 f1: map<Vertex, seq<Edge>>, r1: map<Vertex, seq<Edge>>,
                 f2: map<Vertex, seq<Edge>>, r2: map<Vertex, seq<Edge>>)
    requires Hooked(F, R, f, r, done) && v in F && v !in done
    requires if r[v] == [] then f1 == Append(f, Start, Edge(Start, v, 0.0, false)) && r1 == Append(r, v, Edge(v, Start, 0.0, false))
             else f1 == f && r1 == r
    requires if f1[v] == [] then f2 == Append(f1, v, Edge(v, End, 0.0, false)) && r2 == Append(r1, End, Edge(End, v, 0.0, false))
             else f2 == f1 && r2 == r1
    ensures Hooked(F, R, f2, r2, done + {v})
  {
    HookFrame(f, r, v, f1, r1, f2, r2);
    assert f[v] == F[v] && r[v] == R[v];
    StartStep(R, f[Start], done, v);
    EndStep(F, r[End], done, v);
    ListsStep(F, R, f, r, done, v, f2, r2);
  }

  /** After `add_start_nodes` every old vertex has an edge in and an edge
      out, so no walk along either list dead-ends before `start` or `end`. */
  lemma HookedEdges(F: map<Vertex, seq<Edge>>, R: map<Vertex, seq<Edge>>,
                    f: map<Vertex, seq<Edge>>, r: map<Vertex, seq<Edge>>)
    requires Hooked(F, R, f, r, F.Keys)
    ensures forall v :: v in F ==> f[v] != [] && r[v] != []
    ensures forall v :: v in F ==> (R[v] == [] <==> Edge(Start, v, 0.0, false) in f[Start])
    ensures forall v :: v in F ==> (F[v] == [] <==> Edge(End, v, 0.0, false) in r[End])
  {
    forall v | v in F
      ensures f[v] != [] && r[v] != []
      ensures R[v] == [] <==> Edge(Start, v, 0.0, false) in f[Start]
      ensures F[v] == [] <==> Edge(End, v, 0.0, false) in r[End]
    {
      assert f[v] == F[v] + (if F[v] == [] then [Edge(v, End, 0.0, false)] else []);
      assert r[v] == R[v] + (if R[v] == [] then [Edge(v, Start, 0.0, false)] else []);
      assert HookedStart(R, f[Start], F.Keys) && HookedEnd(F, r[End], F.Keys);
    }
  }

  /** The graph of one axis (`Graph`, a dict from group to `Gnode`). */
  class Graph {
    const name: string
    const cnodes: Cnodes
    var nodes: map<Vertex, Gnode>

    ghost predicate Valid()
      reads this, cnodes
    {
      cnodes.Valid() && GraphShape(FEdges(nodes), REdges(nodes))
    }

    /** `Graph(name, nodes)`: an empty graph over a fresh common-node table. */
    constructor (name: string, points: set<Point>)
      ensures Valid() && this.name == name && fresh(cnodes)
      ensures cnodes.groups == Singletons(points) && nodes == map[]
    {
      this.name := name;
      cnodes := new Cnodes(points);
      nodes := map[];
    }

    /** The vertex a point names: its group of common nodes. */
    function Key(p: Point): (v: Vertex)
      reads this, cnodes
      requires cnodes.Valid()
      ensures v.Group? && p in v.members
      ensures p in cnodes.groups ==> v.members == cnodes.groups[p]
      ensures v == KeyIn(cnodes.groups, p)
    {
      Group(cnodes.Find(p))
    }

    /** `graph[p]`: the vertex of `p`'s group, or `None` where Python raises
        `KeyError`. */
    function Lookup(p: Point): (r: Option<Vertex>)
      reads this, cnodes
      requires Valid()
      ensures r.Some? <==> Key(p) in nodes
      ensures r.Some? ==> r.value == Key(p) && r.value in nodes && p in r.value.members
    {
      if Key(p) in nodes then Some(Key(p)) else None
    }

    /** Points linked together name the same vertex. */
    lemma LookupTogether(p: Point, q: Point)
      requires Valid() && Together(cnodes.groups, p, q)
      ensures Key(p) == Key(q) && Lookup(p) == Lookup(q)
    {
    }

    /** `link(n1, n2)`: merge the groups of two points. */
    method Link(n1: Point, n2: Point) returns (ok: bool)
      requires Valid()
      modifies cnodes
      ensures Valid()
      ensures ok <==> n1 in old(cnodes.groups) && n2 in old(cnodes.groups)
      ensures ok ==> cnodes.groups == Linked(old(cnodes.groups), n1, n2)
      ensures !ok ==> cnodes.groups == old(cnodes.groups)
    {
      ok := cnodes.Link(n1, n2);
    }

    /** `add_node(v)`. */
    method AddNode(v: Vertex)
      modifies this
      ensures nodes == Touch(old(nodes), v)
      ensures FEdges(nodes) == WithVertex(FEdges(old(nodes)), v, []) && REdges(nodes) == WithVertex(REdges(old(nodes)), v, [])
      ensures Known(nodes) == WithVertex(Known(old(nodes)), v, None)
    {
      TouchLists(nodes, v);
      if v !in nodes {
        nodes := nodes[v := Blank];
      }
    }

    /** `add_edges(a, b, size, stretch)`. */
    method AddEdges(a: Vertex, b: Vertex, size: real, stretch: bool)
      requires Valid() && ForwardShape(Edge(a, b, size, stretch), nodes.Keys)
      modifies this
      ensures Valid()
      ensures nodes == Connect(old(nodes), Edge(a, b, size, stretch))
    {
      ShapeAddEdge(FEdges(nodes), REdges(nodes), Edge(a, b, size, stretch));
      nodes := Connect(nodes, Edge(a, b, size, stretch));
    }

    /** `add(n1, n2, size, stretch)`: a zero size adds nothing; otherwise
        both endpoints become vertices (by their groups) and one edge of
        positive length is stored, reversed when the size was negative.
        Parallel edges are kept. */
    method Add(n1: Point, n2: Point, size: real, stretch: bool)
      requires Valid()
      modifies this
      ensures Valid()
      ensures nodes == Added(old(nodes), cnodes.groups, n1, n2, size, stretch)
    {
      if size == 0.0 {
        return;
      }
      var e := Oriented(Key(n1), Key(n2), size, stretch);
      ShapeWithGroup(FEdges(nodes), REdges(nodes), e.from);
      AddNode(e.from);
      ShapeWithGroup(FEdges(nodes), REdges(nodes), e.to);
      AddNode(e.to);
      AddEdges(e.from, e.to, e.size, e.stretch);
    }

    /** One step of `add_start_nodes`: join `start` to `v` when nothing
        enters `v`, and `v` to `end` when nothing leaves it. */
    method Hook(v: Vertex, ghost F: map<Vertex, seq<Edge>>, ghost R: map<Vertex, seq<Edge>>, ghost done: set<Vertex>)
      requires Valid() && Hooked(F, R, FEdges(nodes), REdges(nodes), done) && v in F && v !in done
      modifies this
      ensures Valid() && Hooked(F, R, FEdges(nodes), REdges(nodes), done + {v})
      ensures Known(nodes) == Known(old(nodes))
    {
      ghost var f0, r0 := FEdges(nodes), REdges(nodes);
      if nodes[v].redges == [] {
        AddEdges(Start, v, 0.0, false);
      }
      ghost var f1, r1 := FEdges(nodes), REdges(nodes);
      if nodes[v].fedges == [] {
        AddEdges(v, End, 0.0, false);
      }
      HookStep(F, R, f0, r0, done, v, f1, r1, FEdges(nodes), REdges(nodes));
    }

    /** `add_start_nodes`: unless `start` exists already, add `start` and
        `end`, and join `start` to every vertex without reverse edges and
        every vertex without forward edges to `end`, by rigid edges of
        length 0.  The vertices visited are those present before `start`
        and `end` were added. */
    method AddStartNodes()
      requires Valid()
      modifies this
      ensures Valid() && nodes.Keys == old(nodes).Keys + {Start, End}
      ensures Start in old(nodes) ==> nodes == old(nodes)
      ensures Start !in old(nodes) ==>
                Hooked(FEdges(old(nodes)), REdges(old(nodes)), FEdges(nodes), REdges(nodes), old(nodes).Keys) &&
                Known(nodes) == WithVertex(WithVertex(Known(old(nodes)), Start, None), End, None)
    {
      if Start in nodes {
        return;
      }
      ghost var F, R, K := FEdges(nodes), REdges(nodes), Known(nodes);
      var vs := nodes.Keys;
      ShapeWithEnds(F, R);
      AddNode(Start);
      AddNode(End);
      HookedInit(F, R, FEdges(nodes), REdges(nodes));
      HookAll(F, R, vs);
    }

    /** The loop of `add_start_nodes` over the vertices `vs` present before
        `start` and `end` were added. */
    method HookAll(ghost F: map<Vertex, seq<Edge>>, ghost R: map<Vertex, seq<Edge>>, vs: set<Vertex>)
      requires Valid() && vs == F.Keys && Hooked(F, R, FEdges(nodes), REdges(nodes), {})
      modifies this
      ensures Valid() && Hooked(F, R, FEdges(nodes), REdges(nodes), vs)
      ensures Known(nodes) == Known(old(nodes))
    {
      var visited: set<Vertex> := {};
      while visited != vs
        invariant visited <= vs
        invariant Valid() && Hooked(F, R, FEdges(nodes), REdges(nodes), visited)
        invariant Known(nodes) == Known(old(nodes))
        decreases |vs - visited|
      {
        Unvisited(vs, visited);
        var v :| v in vs && v !in visited;
        Hook(v, F, R, visited);
        VisitOne(vs, visited, v);
        visited := visited + {v};
      }
    }

    /** `longest_forward_path(origin)`: the longest-path search along
        forward edges.  `false` is the `RuntimeError` of a search that
        recurses too deep.  A finished search leaves every distance the
        longest chain length from `origin`. */
    method LongestForwardPath(origin: Vertex, fuel: nat) returns (ok: bool)
      requires Valid() && origin in nodes
      modifies this
      ensures Valid() && nodes.Keys == old(nodes).Keys
      ensures FEdges(nodes) == FEdges(old(nodes)) && REdges(nodes) == REdges(old(nodes)) && Known(nodes) == Known(old(nodes))
      ensures Pointers(FEdges(nodes), Known(nodes), false, Marks(nodes))
      ensures forall x :: x in nodes && nodes[x].dist < 0.0 ==> nodes[x].dist == -1.0
      ensures (forall v, e :: v in nodes && e in nodes[v].fedges ==> e.to != origin) ==> nodes[origin].dist == 0.0
      ensures ok ==> Finished(FEdges(nodes), Known(nodes), false, Marks(nodes), origin)
    {
      ok, nodes := SearchFrom(nodes, true, false, origin, fuel);
    }

    /** `longest_path_to_known(origin, forward)`: the same search along
        forward or reverse edges that stops at vertices with a known
        position. */
    method LongestPathToKnown(origin: Vertex, forward: bool, fuel: nat) returns (ok: bool)
      requires Valid() && origin in nodes
      modifies this
      ensures Valid() && nodes.Keys == old(nodes).Keys
      ensures FEdges(nodes) == FEdges(old(nodes)) && REdges(nodes) == REdges(old(nodes)) && Known(nodes) == Known(old(nodes))
      ensures Pointers(Side(nodes, forward), Known(nodes), true, Marks(nodes))
      ensures ok ==> Finished(Side(nodes, forward), Known(nodes), true, Marks(nodes), origin)
    {
      ok, nodes := SearchFrom(nodes, forward, true, origin, fuel);
    }

    /** The layout part of `analyse()`, once `start` and `end` are in the
        graph.  The iteration order of the stretch pass over the unplaced
        vertices is `order`. */
    method Lay(order: seq<Vertex>, fuel: nat) returns (r: Result<Layout, Failure>)
      requires Valid() && Start in nodes && Distinct(order)
      requires forall v :: v in nodes && v.Group? ==> v in order
      modifies this
      ensures Valid() && nodes.Keys == old(nodes).Keys
      ensures FEdges(nodes) == FEdges(old(nodes)) && REdges(nodes) == REdges(old(nodes))
      ensures Outcome(FEdges(nodes), REdges(nodes), cnodes.groups, Known(old(nodes)), order, Known(nodes), r)
      ensures nodes.Keys <= {Start, End} ==>
                r.Ok? && r.value.extent == 0.0 && forall p :: p in cnodes.groups ==> r.value.pos[p] == Some(0.0)
    {
      r, nodes := LayOut(nodes, cnodes.groups, order, fuel);
    }

    /** `analyse()`: add `start` and `end`, then lay the graph out
        (`Outcome`).  On success every point has a position.  With group
        vertices, each point takes its group's position and the extent is
        the length of a longest chain from `start` to `end`.  Each vertex on
        that chain sits at the length of the chain up to it, each vertex
        with a rigid edge to a placed neighbour sits at that edge's length
        from it, and the rest share out the slack between the vertices
        their walks reach, in the order `order`.  A cycle reachable from
        `start` ends in `RuntimeError`. */
    method Analyse(order: seq<Vertex>, fuel: nat) returns (r: Result<Layout, Failure>)
      requires Valid() && Distinct(order) && forall v :: v in nodes && v.Group? ==> v in order
      modifies this
      ensures Valid() && nodes.Keys == old(nodes).Keys + {Start, End}
      // the edge lists laid out are those `add_start_nodes` leaves
      ensures Start in old(nodes) ==> FEdges(nodes) == FEdges(old(nodes)) && REdges(nodes) == REdges(old(nodes))
      ensures Start !in old(nodes) ==>
                Hooked(FEdges(old(nodes)), REdges(old(nodes)), FEdges(nodes), REdges(nodes), old(nodes).Keys)
      ensures Outcome(FEdges(nodes), REdges(nodes), cnodes.groups, Known(old(nodes)), order, Known(nodes), r)
      ensures old(nodes).Keys <= {Start, End} ==>
                r.Ok? && r.value.extent == 0.0 && forall p :: p in cnodes.groups ==> r.value.pos[p] == Some(0.0)
    {
      ghost var k0 := Known(nodes);
      AddStartNodes();
      ghost var k1 := Known(nodes);
      ghost var f1, r1 := FEdges(nodes), REdges(nodes);
      assert forall v :: v in k0 ==> v in k1 && k1[v] == k0[v];
      r := Lay(order, fuel);
      assert FEdges(nodes) == f1 && REdges(nodes) == r1;
      OutcomeAgree(FEdges(nodes), REdges(nodes), cnodes.groups, k1, k0, order, Known(nodes), r);
    }
  }
}

=== FILE: nodes.dfy ===
/** The schematic's nodes (`Node` in `lcapy/schematic.py`): what is
    connected to each, whether it is a port, and whether it is drawn. */
module Nodes {
  import opened Base

  /** How many of the element types in `kinds` are not open circuits
      (type `O`). */
  function Attached(kinds: seq<string>): (n: nat)
    ensures n <= |kinds|
    ensures n == 0 <==> forall i :: 0 <= i < |kinds| ==> kinds[i] == "O"
  {
    if kinds == [] then 0
    else Attached(kinds[..|kinds| - 1]) + (if kinds[|kinds| - 1] == "O" then 0 else 1)
  }

  /** The `draw_nodes` setting: a string (`'all'`, `'none'`,
      `'connections'`, `'primary'`, ...), `None`, or a boolean. */
  datatype DrawNodes = Setting(s: string) | Absent | Flag(b: bool)

  /** The settings `draw_nodes in ('none', None, False)` accepts. */
  predicate Quiet(dn: DrawNodes) {
    dn == Setting("none") || dn == Absent || dn == Flag(false)
  }

  class Node {
    const name: string
    /** `_port`: a port element (type `P`) has been attached. */
    var port: bool
    /** `_count`: elements attached that are not open circuits. */
    var count: nat
    /** The types of the elements in `list`, in the order attached. */
    var kinds: seq<string>
    /** `pinpos`, `clock` and `label`, set by `Chip.name_pins`. */
    var pinpos: string
    var clock: bool
    var pinLabel: string

    /** The counters agree with the attached elements. */
    ghost predicate Valid()
      reads this
    {
      count == Attached(kinds) && (port <==> "P" in kinds)
    }

    constructor(name: string)
      ensures this.name == name && kinds == [] && !port && count == 0
      ensures pinpos == "" && !clock && pinLabel == ""
      ensures Valid()
    {
      this.name := name;
      port := false;
      count := 0;
      kinds := [];
      pinpos := "";
      clock := false;
      pinLabel := "";
    }

    /** `append(elt)`, given the element's type. */
    method Append(kind: string)
      requires Valid()
      modifies this
      ensures Valid()
      ensures kinds == old(kinds) + [kind]
      ensures port == (old(port) || kind == "P")
      ensures count == old(count) + (if kind == "O" then 0 else 1)
      ensures pinpos == old(pinpos) && clock == old(clock) && pinLabel == old(pinLabel)
    {
      var more := kinds + [kind];
      assert more[..|kinds|] == kinds && more[|kinds|] == kind;
      assert "P" in more <==> "P" in kinds || kind == "P";
      if kind == "P" {
        port := true;
      }
      kinds := more;
      if kind != "O" {
        count := count + 1;
      }
    }

    /** `port`: a node is a port when a port element is attached to it or
        exactly one element other than an open circuit is. */
    function IsPort(): (r: bool)
      reads this
      requires Valid()
      ensures r <==> "P" in kinds || Attached(kinds) == 1
    {
      port || count == 1
    }

    /** `visible(draw_nodes)`: whether the node is drawn. */
    function Visible(dn: DrawNodes): (r: bool)
      reads this
      requires Valid()
      // `'all'` draws every node
      ensures dn == Setting("all") ==> r
      // otherwise a name holding `@` is never drawn, and a port always is
      ensures dn != Setting("all") && '@' in name ==> !r
      ensures dn != Setting("all") && '@' !in name && IsPort() ==> r
      // a quiet setting draws ports only
      ensures Quiet(dn) && r ==> dn == Setting("all") || IsPort()
    {
      if dn == Setting("all") then true
      else if '@' in name then false
      else if IsPort() then true
      else if Quiet(dn) then false
      else if dn == Setting("connections") then count > 2
      else '_' !in name
    }
  }

  /** With `'connections'`, a node that is neither a port nor hidden is
      drawn exactly when three or more elements meet at it. */
  lemma ConnectionsDrawn(n: Node)
    requires n.Valid() && '@' !in n.name && !n.IsPort()
    ensures n.Visible(Setting("connections")) <==> Attached(n.kinds) >= 3
  {
  }

  /** Any other setting draws the nodes whose names hold neither `@` nor
      `_` (the primary nodes), and of the rest only ports. */
  lemma OtherSettingsDrawn(n: Node, dn: DrawNodes)
    requires n.Valid() && !Quiet(dn) && dn != Setting("all") && dn != Setting("connections")
    ensures n.Visible(dn) <==> '@' !in n.name && ('_' !in n.name || n.IsPort())
  {
  }

  /** What `'none'` draws (the ports), every setting draws, and what any
      setting draws, `'all'` draws. */
  lemma AllDrawsMost(n: Node, dn: DrawNodes)
    requires n.Valid()
    ensures n.Visible(dn) ==> n.Visible(Setting("all"))
    ensures n.Visible(Setting("none")) ==> n.Visible(dn)
  {
  }
}

=== FILE: options.dfy ===
/** The drawing options of a component (`Cpt`) that feed the layout: its
    size along the axis, whether it may stretch, its rotation and the
    consistency check run before it is drawn. */
module Options {
  import opened Base

  /** The parsed option string: option name to its text (`''` for a bare
      flag such as `fixed`). */
  type Opts = map<string, string>

  /** What the layout reads of one component: its name, its type letter,
      its options, and the class attributes `can_rotate`, `can_scale`,
      `can_mirror`, `can_stretch` and `default_width`.  `FixedCpt` and its
      subclasses have `can_stretch` false. */
  datatype Cpt = Cpt(name: string, cptType: string, opts: Opts,
                     canRotate: bool, canScale: bool, canMirror: bool, canStretch: bool,
                     defaultWidth: real)

  /** The base class's attributes for a component of the given type. */
  function Plain(name: string, cptType: string, opts: Opts): (c: Cpt)
    ensures c.canRotate && !c.canScale && !c.canMirror && c.canStretch && c.defaultWidth == 1.0
    ensures c.name == name && c.cptType == cptType && c.opts == opts
  {
    Cpt(name, cptType, opts, true, false, false, true, 1.0)
  }

  /** `keys[i]` is the first of `keys` that is an option. */
  predicate FirstGiven(opts: Opts, keys: seq<string>, i: nat) {
    i < |keys| && keys[i] in opts && forall j :: 0 <= j < i ==> keys[j] !in opts
  }

  /** None of `keys` is an option. */
  predicate NoneGiven(opts: Opts, keys: seq<string>) {
    forall i :: 0 <= i < |keys| ==> keys[i] !in opts
  }

  /** At most one index is the first given. */
  lemma FirstGivenUnique(opts: Opts, keys: seq<string>, k: nat)
    requires FirstGiven(opts, keys, k)
    ensures forall i: nat :: FirstGiven(opts, keys, i) ==> i == k
    ensures !NoneGiven(opts, keys)
  {
  }

  /** The options `size` consults, in order of precedence. */
  const SizeKeys: seq<string> := ["size", "right", "down", "left", "up"]

  /** The direction options, in the order `angle` consults them. */
  const DirectionKeys: seq<string> := ["right", "down", "left", "up"]

  /** The rotation each direction option stands for, in degrees. */
  const DirectionAngles: seq<int> := [0, -90, 180, 90]

  /** `Cpt.size`: the text of the first of `size`, `right`, `down`,
      `left`, `up` that is given, converted by `float`; the default width
      when none is given or the text is empty.  `num` is Python's
      `float()` on a string, `None` where it raises `ValueError`. */
  function Size(c: Cpt, num: string -> Option<real>): (r: Option<real>)
    ensures NoneGiven(c.opts, SizeKeys) ==> r == Some(c.defaultWidth)
    ensures forall i: nat :: FirstGiven(c.opts, SizeKeys, i) ==>
              r == (if c.opts[SizeKeys[i]] == "" then Some(c.defaultWidth) else num(c.opts[SizeKeys[i]]))
  {
    var val :=
      if "size" in c.opts then FirstGivenUnique(c.opts, SizeKeys, 0); Some(c.opts["size"])
      else if "right" in c.opts then FirstGivenUnique(c.opts, SizeKeys, 1); Some(c.opts["right"])
      else if "down" in c.opts then FirstGivenUnique(c.opts, SizeKeys, 2); Some(c.opts["down"])
      else if "left" in c.opts then FirstGivenUnique(c.opts, SizeKeys, 3); Some(c.opts["left"])
      else if "up" in c.opts then FirstGivenUnique(c.opts, SizeKeys, 4); Some(c.opts["up"])
      else None;
    if val.None? || val.value == "" then Some(c.defaultWidth) else num(val.value)
  }

  /** The value of a flag option as `boolattr` returns it: `False` when
      the option is absent, `True` when it is given bare, else its text. */
  datatype Flag = Off | On | Raw(text: string)

  /** Python's truth value of a `boolattr` result. */
  predicate Truthy(f: Flag) {
    f.On? || (f.Raw? && f.text != "")
  }

  /** `Cpt.boolattr(opt)`. */
  function Boolattr(opts: Opts, opt: string): (r: Flag)
    ensures r == Off <==> opt !in opts
    ensures r == On <==> opt in opts && opts[opt] == ""
    ensures r.Raw? ==> opt in opts && r.text == opts[opt]
    // any text, even `false`, switches the flag on
    ensures Truthy(r) <==> opt in opts
  {
    if opt !in opts then Off
    else if opts[opt] == "" then On
    else Raw(opts[opt])
  }

  /** `Cpt.stretch`: `can_stretch and not fixed`. */
  function Stretch(c: Cpt): (r: bool)
    ensures r <==> c.canStretch && "fixed" !in c.opts
  {
    c.canStretch && !Truthy(Boolattr(c.opts, "fixed"))
  }

  /** The angle `angle` starts from, before any `rotate` option. */
  function BaseAngle(c: Cpt): (a: int)
    ensures forall i: nat :: FirstGiven(c.opts, DirectionKeys, i) ==> a == DirectionAngles[i]
    ensures NoneGiven(c.opts, DirectionKeys) ==>
              a == (if c.cptType == "O" || c.cptType == "P" then -90 else 0)
  {
    if "right" in c.opts then FirstGivenUnique(c.opts, DirectionKeys, 0); 0
    else if "down" in c.opts then FirstGivenUnique(c.opts, DirectionKeys, 1); -90
    else if "left" in c.opts then FirstGivenUnique(c.opts, DirectionKeys, 2); 180
    else if "up" in c.opts then FirstGivenUnique(c.opts, DirectionKeys, 3); 90
    else if c.cptType in {"O", "P"} then -90
    else 0
  }

  /** `Cpt.angle`: the base angle plus the `rotate` option, if given;
      `None` where `float` rejects the `rotate` text. */
  function Angle(c: Cpt, num: string -> Option<real>): (r: Option<real>)
    ensures "rotate" !in c.opts ==> r == Some(BaseAngle(c) as real)
    ensures "rotate" in c.opts ==>
              (r.Some? <==> num(c.opts["rotate"]).Some?) &&
              (r.Some? ==> r.value - BaseAngle(c) as real == num(c.opts["rotate"]).value)
  {
    var angle := BaseAngle(c) as real;
    if "rotate" !in c.opts then Some(angle)
    else match num(c.opts["rotate"])
      case None => None
      case Some(x) => Some(angle + x)
  }

  /** An integer 2x2 matrix `((a, b), (c, d))`, applied to row vectors. */
  datatype Matrix = Matrix(a: int, b: int, c: int, d: int)

  /** The transpose, which undoes a rotation. */
  function Transpose(m: Matrix): Matrix {
    Matrix(m.a, m.c, m.b, m.d)
  }

  function Negate(m: Matrix): Matrix {
    Matrix(-m.a, -m.b, -m.c, -m.d)
  }

  const Identity := Matrix(1, 0, 0, 1)

  /** `((cos t, sin t), (-sin t, cos t))` for a quarter turn: the shape of
      the general rotation matrix `R` builds, with entries in {-1, 0, 1}. */
  predicate QuarterTurn(m: Matrix) {
    m.a == m.d && m.b == -m.c && -1 <= m.a <= 1 && -1 <= m.b <= 1 && (m.a == 0 <==> m.b != 0)
  }

  /** The angles whose rotation matrix `R` looks up in its table. */
  predicate Tabled(angle: real) {
    angle == 0.0 || angle == 90.0 || angle == 180.0 || angle == -180.0 || angle == -90.0
  }

  /** `Cpt.R` for a tabled angle: the exact integer matrix; `None` stands
      for the cosine/sine branch, which is not part of this model. */
  function RTable(angle: real): (r: Option<Matrix>)
    ensures r.Some? <==> Tabled(angle)
    ensures r.Some? ==> QuarterTurn(r.value)
    ensures r == Some(Identity) <==> angle == 0.0
  {
    if angle == 0.0 then Some(Matrix(1, 0, 0, 1))
    else if angle == 90.0 then Some(Matrix(0, 1, -1, 0))
    else if angle == 180.0 || angle == -180.0 then Some(Matrix(-1, 0, 0, -1))
    else if angle == -90.0 then Some(Matrix(0, -1, 1, 0))
    else None
  }

  /** Turning the other way is the transpose, the inverse of a rotation
      matrix. */
  lemma RTableInverse(x: real)
    requires Tabled(x)
    ensures Tabled(-x) && RTable(-x).value == Transpose(RTable(x).value)
  {
    if x == 90.0 {
      assert -x == -90.0;
    } else if x == -90.0 {
      assert -x == 90.0;
    }
  }

  /** A further half turn negates the matrix. */
  lemma RTableHalfTurn(x: real)
    requires Tabled(x) && Tabled(x + 180.0)
    ensures RTable(x + 180.0).value == Negate(RTable(x).value)
  {
    if x == 0.0 {
      assert x + 180.0 == 180.0;
    } else if x == -90.0 {
      assert x + 180.0 == 90.0;
    } else {
      assert x == -180.0 && x + 180.0 == 0.0;
    }
  }

  /** `Cpt.scale`: the `scale` option through `float`, 1 by default. */
  function Scale(c: Cpt, num: string -> Option<real>): (r: Option<real>)
    ensures "scale" !in c.opts ==> r == Some(1.0)
    ensures "scale" in c.opts ==> r == num(c.opts["scale"])
  {
    if "scale" in c.opts then num(c.opts["scale"]) else Some(1.0)
  }

  /** How many of `left`, `right`, `up`, `down` are given. */
  function DirectionCount(opts: Opts): (n: nat)
    ensures n <= 4
    ensures n == 0 <==> NoneGiven(opts, DirectionKeys)
  {
    assert NoneGiven(opts, DirectionKeys) <==> "right" !in opts && "down" !in opts && "left" !in opts && "up" !in opts by {
      assert DirectionKeys[0] == "right" && DirectionKeys[1] == "down" && DirectionKeys[2] == "left" && DirectionKeys[3] == "up";
    }
    (if "left" in opts then 1 else 0) + (if "right" in opts then 1 else 0) +
    (if "up" in opts then 1 else 0) + (if "down" in opts then 1 else 0)
  }

  /** The exceptions `check` raises; `BadNumber` is the `ValueError` of a
      `float` conversion inside `angle` or `scale`. */
  datatype CheckError = CannotRotate | CannotScale | CannotMirror | ExclusiveDirections | BadNumber

  predicate RotationOk(c: Cpt, num: string -> Option<real>) {
    c.canRotate || Angle(c, num) == Some(0.0)
  }

  predicate ScaleOk(c: Cpt, num: string -> Option<real>) {
    c.canScale || Scale(c, num) == Some(1.0)
  }

  predicate MirrorOk(c: Cpt) {
    c.canMirror || "mirror" !in c.opts
  }

  /** `Cpt.check`: a rotation, scaling or mirroring the component does
      not allow, or more than one drawing direction, is an error, checked
      in that order; otherwise the component is drawn unless it is
      `invisible`. */
  function Check(c: Cpt, num: string -> Option<real>): (r: Result<bool, CheckError>)
    ensures r.Ok? <==> RotationOk(c, num) && ScaleOk(c, num) && MirrorOk(c) && DirectionCount(c.opts) <= 1
    ensures r.Ok? ==> (r.value <==> "invisible" !in c.opts)
    ensures !RotationOk(c, num) ==> r == Err(if Angle(c, num).None? then BadNumber else CannotRotate)
    ensures RotationOk(c, num) && !ScaleOk(c, num) ==>
              r == Err(if Scale(c, num).None? then BadNumber else CannotScale)
    ensures RotationOk(c, num) && ScaleOk(c, num) && !MirrorOk(c) ==> r == Err(CannotMirror)
    ensures RotationOk(c, num) && ScaleOk(c, num) && MirrorOk(c) && DirectionCount(c.opts) > 1 ==>
              r == Err(ExclusiveDirections)
  {
    if !c.canRotate && Angle(c, num) != Some(0.0) then
      (if Angle(c, num).None? then Err(BadNumber) else Err(CannotRotate))
    else if !c.canScale && Scale(c, num) != Some(1.0) then
      (if Scale(c, num).None? then Err(BadNumber) else Err(CannotScale))
    else if !c.canMirror && Truthy(Boolattr(c.opts, "mirror")) then Err(CannotMirror)
    else if DirectionCount(c.opts) > 1 then Err(ExclusiveDirections)
    else Ok(!Truthy(Boolattr(c.opts, "invisible")))
  }
}

=== FILE: paths.dfy ===
/** Vertices and edges of the placement graph, and chains of edges. */
module Paths {
  import opened Base

  /** A graph vertex: the synthetic source and sink, or one group of
      common nodes (the Python key is the group's tuple). */
  datatype Vertex = Start | End | Group(members: set<Point>)

  /** `Gedge`: a directed edge with a minimum length and a flag saying
      whether the span may lengthen. */
  datatype Edge = Edge(from: Vertex, to: Vertex, size: real, stretch: bool)

  /** The exceptions the layout analysis can end in. */
  datatype Failure =
    | Dodgy          // RuntimeError: runaway recursion in the longest-path search
    | RecursionLimit // the same recursion limit hit while searching towards known nodes
    | NoCriticalPath // AttributeError: `end` was never reached, so it has no `prev`
    | WontFit        // ValueError: the component will not fit
    | MissingKnown   // TypeError: a walk stopped at a vertex without a known position
    | Unattached     // KeyError: a point's group never entered the graph

  /** The edge stored in the target's reverse list for a forward edge. */
  function Mirror(e: Edge): (m: Edge)
    ensures m.from == e.to && m.to == e.from
    ensures m.size == e.size && m.stretch == e.stretch
  {
    Edge(e.to, e.from, e.size, e.stretch)
  }

  /** `p` is a chain of edges leading from `a` to `b`. */
  predicate IsChain(p: seq<Edge>, a: Vertex, b: Vertex) {
    if p == [] then a == b else p[0].from == a && IsChain(p[1..], p[0].to, b)
  }

  /** Total minimum length of a chain. */
  function Length(p: seq<Edge>): real {
    if p == [] then 0.0 else p[0].size + Length(p[1..])
  }

  /** Number of stretchable edges of a chain. */
  function Stretches(p: seq<Edge>): nat {
    if p == [] then 0 else (if p[0].stretch then 1 else 0) + Stretches(p[1..])
  }

  /** Extending a chain at its far end adds the new edge's length and
      stretch count; the walks of the layout pass build chains this way. */
  lemma {:induction false} ChainSnoc(p: seq<Edge>, e: Edge, a: Vertex, b: Vertex)
    requires IsChain(p, a, b) && e.from == b
    ensures IsChain(p + [e], a, e.to)
    ensures Length(p + [e]) == Length(p) + e.size
    ensures Stretches(p + [e]) == Stretches(p) + (if e.stretch then 1 else 0)
  {
    if p != [] {
      assert (p + [e])[1..] == p[1..] + [e];
      ChainSnoc(p[1..], e, p[0].to, b);
    }
  }

  /** Every list of `adj` holds edges leaving its own vertex, towards
      vertices of `adj`, with non-negative lengths. */
  predicate AdjShape(adj: map<Vertex, seq<Edge>>) {
    forall v, e :: v in adj && e in adj[v] ==> e.from == v && e.to in adj && e.size >= 0.0
  }

  /** An edge that may be stored in a forward list: it never leaves `end`,
      never enters `start`, and only edges touching `start` or `end` have
      length 0. */
  predicate ForwardShape(e: Edge, vs: set<Vertex>) {
    e.from in vs && e.to in vs && e.from != End && e.to != Start &&
    e.size >= 0.0 && (e.size > 0.0 || e.from == Start || e.to == End)
  }

  /** Every forward list holds well-formed edges leaving its own vertex. */
  ghost predicate ForwardEdges(fedges: map<Vertex, seq<Edge>>) {
    forall v, e :: v in fedges && e in fedges[v] ==> e.from == v && ForwardShape(e, fedges.Keys)
  }

  /** The edge lists of a graph: the same vertices in both directions,
      `start` and `end` present together, every forward edge well formed and
      every reverse edge the mirror of a well-formed forward edge. */
  ghost predicate GraphShape(fedges: map<Vertex, seq<Edge>>, redges: map<Vertex, seq<Edge>>) {
    redges.Keys == fedges.Keys && (Start in fedges <==> End in fedges) && ForwardEdges(fedges) &&
    (forall v, e :: v in redges && e in redges[v] ==> e.from == v && ForwardShape(Mirror(e), fedges.Keys))
  }

  /** What makes a walk along `next` pointers stop: no edge enters `src`,
      and an edge of length 0 either leaves `src` or enters a vertex with
      no edges out. */
  predicate WalkShape(adj: map<Vertex, seq<Edge>>, src: Vertex) {
    forall v, e :: v in adj && e in adj[v] ==>
      e.to != src && (e.size > 0.0 || e.from == src || (e.to in adj && adj[e.to] == []))
  }

  /** Both edge lists of a well-formed graph are adjacencies; `end` has no
      forward and `start` no reverse edges. */
  lemma ShapeAdj(fedges: map<Vertex, seq<Edge>>, redges: map<Vertex, seq<Edge>>)
    requires GraphShape(fedges, redges)
    ensures AdjShape(fedges) && AdjShape(redges)
    ensures End in fedges ==> fedges[End] == []
    ensures Start in redges ==> redges[Start] == []
  {
    forall v, e | v in redges && e in redges[v] ensures e.from == v && e.to in redges && e.size >= 0.0 {
      assert ForwardShape(Mirror(e), fedges.Keys);
    }
    if End in fedges && fedges[End] != [] {
      var e := fedges[End][0];
      ghost var placed := e in fedges[End] && ForwardShape(e, fedges.Keys);
      assert false;
    }
    if Start in redges && redges[Start] != [] {
      var e := redges[Start][0];
      ghost var placed := e in redges[Start] && Mirror(e).to == Start && ForwardShape(Mirror(e), fedges.Keys);
      assert false;
    }
  }

  /** Forward walks stop because nothing enters `start`, reverse walks
      because nothing leads back to `end`. */
  lemma ShapeWalk(fedges: map<Vertex, seq<Edge>>, redges: map<Vertex, seq<Edge>>)
    requires GraphShape(fedges, redges)
    ensures WalkShape(fedges, Start) && WalkShape(redges, End)
  {
    ShapeAdj(fedges, redges);
    forall v, e | v in redges && e in redges[v]
      ensures e.to != End && (e.size > 0.0 || e.from == End || (e.to in redges && redges[e.to] == []))
    {
      assert ForwardShape(Mirror(e), fedges.Keys);
    }
  }

  /** Every edge of `p` is stored in `adj` under its own source. */
  predicate InAdj(adj: map<Vertex, seq<Edge>>, p: seq<Edge>) {
    forall i :: 0 <= i < |p| ==> p[i].from in adj && p[i] in adj[p[i].from]
  }

  /** Every edge leaving `u` in `adj` is relaxed: its target's distance is
      at least `u`'s distance plus the edge's length. */
  ghost predicate Relaxed(adj: map<Vertex, seq<Edge>>, dist: map<Vertex, real>, u: Vertex) {
    u in adj && u in dist &&
    forall e :: e in adj[u] ==> e.to in dist && dist[u] + e.size <= dist[e.to]
  }

  /** Every edge of `p` joins two vertices whose distances differ by exactly
      its length. */
  ghost predicate Tight(dist: map<Vertex, real>, p: seq<Edge>) {
    p == [] ||
    (p[0].from in dist && p[0].to in dist && dist[p[0].to] == dist[p[0].from] + p[0].size && Tight(dist, p[1..]))
  }

  /** The vertices a chain enters: all of its vertices but the first. */
  function Targets(p: seq<Edge>): (r: set<Vertex>)
    ensures forall i :: 0 <= i < |p| ==> p[i].to in r
  {
    if p == [] then {} else {p[0].to} + Targets(p[1..])
  }

  /** Longest-path bound: when every reached vertex (distance at least 0)
      is relaxed, a chain leaving a reached vertex ends at a reached vertex
      and is no longer than the distance gained along it. */
  lemma {:induction false} ReachedBound(adj: map<Vertex, seq<Edge>>, dist: map<Vertex, real>,
                                        p: seq<Edge>, a: Vertex, b: Vertex)
    requires IsChain(p, a, b) && InAdj(adj, p)
    requires a in dist && dist[a] >= 0.0
    requires forall u :: u in dist && dist[u] >= 0.0 ==> Relaxed(adj, dist, u)
    requires forall i :: 0 <= i < |p| ==> p[i].size >= 0.0
    ensures b in dist && dist[b] >= 0.0 && Length(p) <= dist[b] - dist[a]
  {
    if p != [] {
      var e := p[0];
      assert e in adj[e.from] && Relaxed(adj, dist, e.from);
      ReachedBound(adj, dist, p[1..], e.to, b);
    }
  }

  /** The same bound for a chain every vertex of which, except its last,
      is known to be relaxed. */
  lemma {:induction false} ChainBound(adj: map<Vertex, seq<Edge>>, dist: map<Vertex, real>,
                                      p: seq<Edge>, a: Vertex, b: Vertex)
    requires IsChain(p, a, b) && InAdj(adj, p) && a in dist
    requires forall i :: 0 <= i < |p| ==> Relaxed(adj, dist, p[i].from)
    ensures b in dist && Length(p) <= dist[b] - dist[a]
  {
    if p != [] {
      var e := p[0];
      assert e in adj[e.from] && Relaxed(adj, dist, e.from);
      ChainBound(adj, dist, p[1..], e.to, b);
    }
  }

  /** A tight chain is exactly as long as the distance gained along it. */
  lemma {:induction false} ChainExact(dist: map<Vertex, real>, p: seq<Edge>, a: Vertex, b: Vertex)
    requires IsChain(p, a, b) && Tight(dist, p) && a in dist && b in dist
    ensures Length(p) == dist[b] - dist[a]
  {
    if p != [] {
      ChainExact(dist, p[1..], p[0].to, b);
    }
  }

  /** A single edge is a chain from its source to its target and nowhere
      else, of its own length and stretch count. */
  lemma OneEdge(e: Edge)
    ensures forall a, b :: IsChain([e], a, b) <==> a == e.from && b == e.to
    ensures Length([e]) == e.size && Stretches([e]) == (if e.stretch then 1 else 0)
  {
    assert [e][1..] == [];
  }

  /** Along a tight chain every vertex it enters lies as far beyond its
      start as the chain up to that vertex is long. */
  lemma {:induction false} TightPrefix(dist: map<Vertex, real>, p: seq<Edge>, a: Vertex, b: Vertex)
    requires IsChain(p, a, b) && Tight(dist, p) && a in dist
    ensures forall i :: 0 <= i < |p| ==> p[i].to in dist && dist[p[i].to] == dist[a] + Length(p[..i + 1])
  {
    if p != [] {
      TightPrefix(dist, p[1..], p[0].to, b);
      forall i | 0 <= i < |p| ensures p[i].to in dist && dist[p[i].to] == dist[a] + Length(p[..i + 1]) {
        assert p[..i + 1][1..] == p[1..][..i];
        if i > 0 {
          assert p[i] == p[1..][i - 1];
        }
      }
    }
  }

  /** The last edge of a non-empty chain enters its end. */
  lemma {:induction false} LastEdge(p: seq<Edge>, a: Vertex, b: Vertex)
    requires IsChain(p, a, b) && p != []
    ensures p[|p| - 1].to == b
  {
    if |p| > 1 {
      LastEdge(p[1..], p[0].to, b);
    }
  }

  /** A chain of forward edges is never shorter than 0. */
  lemma {:induction false} LengthNonneg(fedges: map<Vertex, seq<Edge>>, p: seq<Edge>, a: Vertex, b: Vertex)
    requires ForwardEdges(fedges) && IsChain(p, a, b) && InAdj(fedges, p)
    ensures Length(p) >= 0.0
  {
    if p != [] {
      assert p[0] in fedges[p[0].from];
      assert InAdj(fedges, p[1..]) by {
        forall i | 0 <= i < |p| - 1 ensures p[1..][i].from in fedges && p[1..][i] in fedges[p[1..][i].from] {
          assert p[1..][i] == p[i + 1];
        }
      }
      LengthNonneg(fedges, p[1..], p[0].to, b);
    }
  }

  /** A cycle of forward edges passes only through group vertices (nothing
      enters `start`, nothing leaves `end`), so none of its edges has length
      0 and it has a positive length. */
  lemma CycleLength(fedges: map<Vertex, seq<Edge>>, c: seq<Edge>, a: Vertex)
    requires ForwardEdges(fedges) && IsChain(c, a, a) && InAdj(fedges, c) && c != []
    ensures a != Start && a != End && Length(c) > 0.0
  {
    var e := c[0];
    assert e in fedges[e.from] && ForwardShape(e, fedges.Keys);
    LastEdge(c, a, a);
    var l := c[|c| - 1];
    assert l in fedges[l.from] && ForwardShape(l, fedges.Keys);
    if |c| > 1 {
      assert c[1..][0] == c[1] && c[1] in fedges[c[1].from] && ForwardShape(c[1], fedges.Keys);
    }
    assert InAdj(fedges, c[1..]) by {
      forall i | 0 <= i < |c| - 1 ensures c[1..][i].from in fedges && c[1..][i] in fedges[c[1..][i].from] {
        assert c[1..][i] == c[i + 1];
      }
    }
    LengthNonneg(fedges, c[1..], e.to, a);
  }
}

=== FILE: pins.dfy ===
/** `Chip.name_pins` (`lcapy/schemcpts.py`): the labels written beside a
    chip's pins, from its `pins` option. */
module Pins {
  import opened Base
  import opened Nodes

  /** A pin's label and whether it is a clock input (written with a
      leading `>`, which is not shown). */
  datatype Pin = Pin(text: string, clock: bool)

  /** The label as written in the option: the clock mark put back. */
  function Written(p: Pin): string {
    if p.clock then ">" + p.text else p.text
  }

  /** A label as written, split into its clock mark and its text. */
  function Clocked(raw: string): (p: Pin)
    ensures p.clock <==> raw != "" && raw[0] == '>'
    ensures Written(p) == raw
  {
    if raw != "" && raw[0] == '>' then
      assert raw == ">" + raw[1..];
      Pin(raw[1..], true)
    else Pin(raw, false)
  }

  /** Writing a pin and reading it back gives the same pin, unless an
      unclocked label itself starts with `>`. */
  lemma ClockedWritten(p: Pin)
    requires p.clock || p.text == "" || p.text[0] != '>'
    ensures Clocked(Written(p)) == p
  {
    if p.clock {
      assert (">" + p.text)[1..] == p.text;
    }
  }

  datatype PinError =
    | NoOpenBrace           // `Expecting { for pins`
    | NoCloseBrace          // `Expecting } for pins`
    | WrongCount(expected: nat, got: nat)  // `Expecting %d pin names, got %s`
    | NoAutoLabel           // `label[0]` of an empty last name part: `IndexError`

  /** How the labels are chosen: none, from the node names, or from a
      list of names, one per pin. */
  datatype Mode = Unlabelled | Auto | Listed(names: seq<string>)

  /** The checks `name_pins` makes on the `pins` option before it labels
      anything, for a chip with `n` drawn nodes. */
  function PinMode(pins: string, n: nat): (r: Result<Mode, PinError>)
    ensures pins == "" ==> r == Ok(Unlabelled)
    ensures pins == "auto" ==> r == Ok(Auto)
    ensures r == Err(NoOpenBrace) <==> pins != "" && pins != "auto" && pins[0] != '{'
    ensures r == Err(NoCloseBrace) <==> pins != "" && pins[0] == '{' && pins[|pins| - 1] != '}'
    // a list of names is accepted exactly when it has one name per node,
    // and then the names, joined by commas and braced, are the option
    ensures r.Ok? && r.value.Listed? ==>
              |r.value.names| == n && n >= 1 && pins == "{" + Join(r.value.names, ',') + "}"
    ensures r.Err? && r.error.WrongCount? ==>
              r.error.expected == n && r.error.got != n && pins[0] == '{' && pins[|pins| - 1] == '}'
  {
    if pins == "" then Ok(Unlabelled)
    else if pins == "auto" then Ok(Auto)
    else if pins[0] != '{' then Err(NoOpenBrace)
    else if pins[|pins| - 1] != '}' then Err(NoCloseBrace)
    else
      var inner := pins[1..|pins| - 1];
      var names := Split(inner, ',');
      if |names| != n then Err(WrongCount(n, |names|))
      else
        JoinSplit(inner, ',');
        assert pins == "{" + inner + "}";
        Ok(Listed(names))
  }

  /** The automatic label of a node: the last dotted part of its name,
      empty when that part starts with `_`; `None` when that part is
      empty. */
  function AutoLabel(name: string): (r: Option<string>)
    ensures r.None? <==> LastPart(name, '.') == ""
    ensures r.Some? ==> '.' !in r.value && (r.value == "" || r.value[0] != '_')
    ensures r.Some? && r.value != "" ==> r.value == LastPart(name, '.')
    ensures name != "" && '.' !in name && name[0] != '_' ==> r == Some(name)
  {
    var part := LastPart(name, '.');
    if part == "" then None
    else if part[0] == '_' then Some("")
    else Some(part)
  }

  /** The pin of node number `m`, named `name`; `None` is the
      `IndexError` of an empty automatic label. */
  function PinFor(mode: Mode, name: string, m: nat): Option<Pin>
    requires mode.Listed? ==> m < |mode.names|
  {
    match mode
    case Unlabelled => Some(Clocked(""))
    case Auto => if AutoLabel(name).None? then None else Some(Clocked(AutoLabel(name).value))
    case Listed(names) => Some(Clocked(Strip(names[m])))
  }

  /** Only an empty automatic label fails; otherwise the pin, written
      back, is the label `name_pins` computes: empty, automatic, or the
      `m`-th listed name with its surrounding whitespace removed. */
  lemma PinForLabel(mode: Mode, name: string, m: nat)
    requires mode.Listed? ==> m < |mode.names|
    ensures PinFor(mode, name, m).None? <==> mode.Auto? && AutoLabel(name).None?
    ensures mode.Unlabelled? ==> PinFor(mode, name, m) == Some(Pin("", false))
    ensures PinFor(mode, name, m).Some? && mode.Auto? ==> Written(PinFor(mode, name, m).value) == AutoLabel(name).value
    ensures PinFor(mode, name, m).Some? && mode.Listed? ==> Written(PinFor(mode, name, m).value) == Strip(mode.names[m])
  {
  }

  /** The first node from `m` on that has no pin, or `|nodes|`. */
  function FirstUnnamed(mode: Mode, nodes: seq<Node>, m: nat): (k: nat)
    requires m <= |nodes| && (mode.Listed? ==> |mode.names| == |nodes|)
    ensures m <= k <= |nodes|
    ensures forall i :: m <= i < k ==> PinFor(mode, nodes[i].name, i).Some?
    ensures k < |nodes| ==> PinFor(mode, nodes[k].name, k).None?
    decreases |nodes| - m
  {
    if m == |nodes| || PinFor(mode, nodes[m].name, m).None? then m
    else FirstUnnamed(mode, nodes, m + 1)
  }

  /** When no node before `m` lacks a pin and node `m` has one, the first
      node without a pin comes after `m`. */
  lemma Named(mode: Mode, nodes: seq<Node>, m: nat)
    requires m < |nodes| && (mode.Listed? ==> |mode.names| == |nodes|)
    requires m <= FirstUnnamed(mode, nodes, 0) && PinFor(mode, nodes[m].name, m).Some?
    ensures m < FirstUnnamed(mode, nodes, 0)
  {
  }

  /** Node `i` is not repeated in `nodes[i + 1..k]`, so what was written
      to it at step `i` is what it holds after step `k - 1`. */
  predicate LastBefore(nodes: seq<Node>, i: nat, k: nat)
    requires i < k <= |nodes|
  {
    forall j :: i < j < k ==> nodes[j] != nodes[i]
  }

  /** What `name_pins` leaves alone in a node. */
  twostate predicate Kept(n: Node)
    reads n
  {
    n.port == old(n.port) && n.count == old(n.count) && n.kinds == old(n.kinds)
  }

  /** What `name_pins` writes in a node is as it was. */
  twostate predicate Untouched(n: Node)
    reads n
  {
    n.pinpos == old(n.pinpos) && n.clock == old(n.clock) && n.pinLabel == old(n.pinLabel)
  }

  /** Node `n` holds the pin position `pos` and the pin `p`. */
  predicate Holds(n: Node, pos: string, p: Pin)
    reads n
  {
    n.pinpos == pos && n.pinLabel == p.text && n.clock == p.clock
  }

  /** Each of the first `m` nodes that is not repeated among them holds
      its pin position and its pin. */
  predicate Labelled(nodes: seq<Node>, pinpos: seq<string>, mode: Mode, m: nat)
    reads nodes
    requires m <= |nodes| <= |pinpos| && (mode.Listed? ==> |mode.names| == |nodes|)
    requires forall i :: 0 <= i < m ==> PinFor(mode, nodes[i].name, i).Some?
  {
    forall i :: 0 <= i < m && LastBefore(nodes, i, m) ==>
      Holds(nodes[i], pinpos[i], PinFor(mode, nodes[i].name, i).value)
  }

  /** One turn of the loop of `name_pins`: node `m` gets its pin
      position, then its label, if it has one. */
  method NameOne(nodes: seq<Node>, pinpos: seq<string>, mode: Mode, m: nat) returns (ok: bool)
    requires m < |nodes| <= |pinpos| && (mode.Listed? ==> |mode.names| == |nodes|)
    requires forall i :: 0 <= i < m ==> PinFor(mode, nodes[i].name, i).Some?
    requires Labelled(nodes, pinpos, mode, m)
    modifies nodes[m]
    ensures Kept(nodes[m]) && nodes[m].pinpos == pinpos[m]
    ensures ok <==> PinFor(mode, nodes[m].name, m).Some?
    ensures ok ==> Labelled(nodes, pinpos, mode, m + 1)
    ensures !ok ==> nodes[m].clock == old(nodes[m].clock) && nodes[m].pinLabel == old(nodes[m].pinLabel)
  {
    var n := nodes[m];
    n.pinpos := pinpos[m];
    var pin := PinFor(mode, n.name, m);
    if pin.None? {
      return false;
    }
    n.clock := pin.value.clock;
    n.pinLabel := pin.value.text;
    forall i | 0 <= i < m + 1 && LastBefore(nodes, i, m + 1)
      ensures Holds(nodes[i], pinpos[i], PinFor(mode, nodes[i].name, i).value)
    {
      if i < m {
        assert LastBefore(nodes, i, m) && nodes[i] != n;
        assert old(Holds(nodes[i], pinpos[i], PinFor(mode, nodes[i].name, i).value));
      }
    }
    return true;
  }

  /** Node `i` is none of the first `m` nodes. */
  predicate NotAmong(nodes: seq<Node>, i: nat, m: nat)
    requires i < |nodes| && m <= |nodes|
  {
    forall j :: 0 <= j < m ==> nodes[j] != nodes[i]
  }

  /** Every node from `m` on that is none of the first `m` nodes is as
      it was. */
  twostate predicate LaterUntouched(nodes: seq<Node>, m: nat)
    requires m <= |nodes|
    reads nodes
  {
    forall i :: m <= i < |nodes| && NotAmong(nodes, i, m) ==> Untouched(nodes[i])
  }

  /** The node that has no pin is none of the nodes before it: the same
      node earlier would have had no pin either. */
  lemma Unaliased(mode: Mode, nodes: seq<Node>)
    requires mode.Listed? ==> |mode.names| == |nodes|
    requires FirstUnnamed(mode, nodes, 0) < |nodes|
    ensures var k := FirstUnnamed(mode, nodes, 0); NotAmong(nodes, k, k)
  {
    var k := FirstUnnamed(mode, nodes, 0);
    PinForLabel(mode, nodes[k].name, k);
    forall i | 0 <= i < k ensures nodes[i] != nodes[k] {
      PinForLabel(mode, nodes[i].name, i);
    }
  }

  /** The loop of `name_pins`, once the option is accepted.  It stops at
      the `IndexError` of the first node without a pin, after setting that
      node's `pinpos`, and leaves its label and every later node alone. */
  method NameAll(nodes: seq<Node>, pinpos: seq<string>, mode: Mode) returns (err: Option<PinError>)
    requires |pinpos| >= |nodes| && (mode.Listed? ==> |mode.names| == |nodes|)
    modifies nodes
    ensures forall i :: 0 <= i < |nodes| ==> Kept(nodes[i])
    ensures var k := FirstUnnamed(mode, nodes, 0);
            (err.Some? <==> k < |nodes|) && (err.Some? ==> err.value == NoAutoLabel) &&
            (k < |nodes| ==> nodes[k].pinpos == pinpos[k]) &&
            Labelled(nodes, pinpos, mode, k)
    ensures var k := FirstUnnamed(mode, nodes, 0);
            k < |nodes| ==> NotAmong(nodes, k, k) &&
                            nodes[k].clock == old(nodes[k].clock) && nodes[k].pinLabel == old(nodes[k].pinLabel)
    ensures var k := FirstUnnamed(mode, nodes, 0);
            k < |nodes| ==> LaterUntouched(nodes, k + 1)
  {
    ghost var k := FirstUnnamed(mode, nodes, 0);
    var m := 0;
    while m < |nodes|
      invariant m <= k
      invariant forall i :: 0 <= i < |nodes| ==> Kept(nodes[i])
      invariant Labelled(nodes, pinpos, mode, m)
      invariant LaterUntouched(nodes, m)
    {
      var ok := NameOne(nodes, pinpos, mode, m);
      // node `m` is the only one written
      forall i | m < i < |nodes| && NotAmong(nodes, i, m + 1)
        ensures Untouched(nodes[i])
      {
        assert NotAmong(nodes, i, m) && nodes[i] != nodes[m];
      }
      if !ok {
        assert m == k;
        Unaliased(mode, nodes);
        return Some(NoAutoLabel);
      }
      Named(mode, nodes, m);
      m := m + 1;
    }
    return None;
  }

  /** `name_pins()`, given the drawn nodes, the chip's `pinpos` and its
      `pins` option.  The result is the error raised, if any. */
  method NamePins(nodes: seq<Node>, pinpos: seq<string>, pins: string) returns (err: Option<PinError>)
    requires |pinpos| >= |nodes|
    modifies nodes
    ensures forall i :: 0 <= i < |nodes| ==> Kept(nodes[i])
    // a malformed option is reported before any node changes
    ensures PinMode(pins, |nodes|).Err? ==> err == Some(PinMode(pins, |nodes|).error) && unchanged(nodes)
    // otherwise the nodes are labelled in order up to the first that has
    // no label, which is reported after its `pinpos` is set
    ensures PinMode(pins, |nodes|).Ok? ==>
              var mode := PinMode(pins, |nodes|).value;
              var k := FirstUnnamed(mode, nodes, 0);
              (err.Some? <==> k < |nodes|) && (err.Some? ==> err.value == NoAutoLabel) &&
              (k < |nodes| ==> nodes[k].pinpos == pinpos[k]) &&
              Labelled(nodes, pinpos, mode, k)
    // the node without a pin keeps its label, and so does every later node
    ensures PinMode(pins, |nodes|).Ok? ==>
              var mode := PinMode(pins, |nodes|).value;
              var k := FirstUnnamed(mode, nodes, 0);
              (k < |nodes| ==> NotAmong(nodes, k, k) &&
                               nodes[k].clock == old(nodes[k].clock) && nodes[k].pinLabel == old(nodes[k].pinLabel)) &&
              (k < |nodes| ==> LaterUntouched(nodes, k + 1))
  {
    var checked := PinMode(pins, |nodes|);
    if checked.Err? {
      return Some(checked.error);
    }
    err := NameAll(nodes, pinpos, checked.value);
  }
}

=== FILE: placement.dfy ===
/** How one component contributes to the graph of an axis: `xlink`/`ylink`
    merge its nodes that sit at the same offset along the axis, and
    `place` orders its nodes by offset and adds an edge between each pair
    of neighbours. */
module Placement {
  import opened Base
  import opened CommonNodes
  import opened Paths
  import opened LayoutGraph

  /** The table after the inner loop of `xlink` from column `m2` of row
      `m1`: each later node with the same offset as node `m1` is linked to
      it in turn; `None` is the `KeyError` of a name the table lacks. */
  function LinkRowFrom(groups: map<Point, set<Point>>, names: seq<Point>, vals: seq<real>, m1: nat, m2: nat)
    : (r: Option<map<Point, set<Point>>>)
    requires IsPartition(groups) && |names| == |vals| && m1 < |names|
    ensures r.Some? ==> IsPartition(r.value) && r.value.Keys == groups.Keys
    decreases |names| - m2
  {
    if m2 >= |names| then Some(groups)
    else if vals[m2] != vals[m1] then LinkRowFrom(groups, names, vals, m1, m2 + 1)
    else if names[m1] in groups && names[m2] in groups then
      LinkedPartition(groups, names[m1], names[m2]);
      LinkRowFrom(Linked(groups, names[m1], names[m2]), names, vals, m1, m2 + 1)
    else None
  }

  /** The table after the outer loop of `xlink` from row `m1`. */
  function LinkFrom(groups: map<Point, set<Point>>, names: seq<Point>, vals: seq<real>, m1: nat)
    : (r: Option<map<Point, set<Point>>>)
    requires IsPartition(groups) && |names| == |vals|
    ensures r.Some? ==> IsPartition(r.value) && r.value.Keys == groups.Keys
    decreases |names| - m1
  {
    if m1 >= |names| then Some(groups)
    else
      match LinkRowFrom(groups, names, vals, m1, m1 + 1)
      case None => None
      case Some(g) => LinkFrom(g, names, vals, m1 + 1)
  }

  /** Some node with an equal-offset partner at or after column `m2` of
      row `m1` is missing from the table. */
  predicate RowMissing(groups: map<Point, set<Point>>, names: seq<Point>, vals: seq<real>, m1: nat, m2: nat)
    requires |names| == |vals| && m1 < |names|
  {
    exists m :: m2 <= m < |names| && vals[m] == vals[m1] && (names[m1] !in groups || names[m] !in groups)
  }

  /** Some two nodes from row `m1` on have equal offsets and one of them is
      missing from the table. */
  predicate Missing(groups: map<Point, set<Point>>, names: seq<Point>, vals: seq<real>, m1: nat)
    requires |names| == |vals|
  {
    exists a, b :: m1 <= a < b < |names| && vals[a] == vals[b] && (names[a] !in groups || names[b] !in groups)
  }

  lemma {:induction false} LinkRowFails(groups: map<Point, set<Point>>, names: seq<Point>, vals: seq<real>, m1: nat, m2: nat)
    requires IsPartition(groups) && |names| == |vals| && m1 < |names|
    ensures LinkRowFrom(groups, names, vals, m1, m2).None? <==> RowMissing(groups, names, vals, m1, m2)
    decreases |names| - m2
  {
    if m2 < |names| {
      if vals[m2] != vals[m1] {
        LinkRowFails(groups, names, vals, m1, m2 + 1);
        if RowMissing(groups, names, vals, m1, m2) {
          var m :| m2 <= m < |names| && vals[m] == vals[m1] && (names[m1] !in groups || names[m] !in groups);
          assert RowMissing(groups, names, vals, m1, m2 + 1) by { assert m != m2; }
        }
      } else if names[m1] in groups && names[m2] in groups {
        var g := Linked(groups, names[m1], names[m2]);
        LinkedPartition(groups, names[m1], names[m2]);
        LinkRowFails(g, names, vals, m1, m2 + 1);
        assert RowMissing(groups, names, vals, m1, m2) <==> RowMissing(g, names, vals, m1, m2 + 1) by {
          if RowMissing(groups, names, vals, m1, m2) {
            var m :| m2 <= m < |names| && vals[m] == vals[m1] && (names[m1] !in groups || names[m] !in groups);
            assert m != m2;
          }
          if RowMissing(g, names, vals, m1, m2 + 1) {
            var m :| m2 + 1 <= m < |names| && vals[m] == vals[m1] && (names[m1] !in g || names[m] !in g);
            assert m2 <= m;
          }
        }
      } else {
        assert vals[m2] == vals[m1] && (names[m1] !in groups || names[m2] !in groups);
      }
    }
  }

  /** `xlink` stops with a `KeyError` exactly when two nodes with equal
      offsets are not both in the table: linking never adds or removes a
      point. */
  lemma {:induction false} LinkFromFails(groups: map<Point, set<Point>>, names: seq<Point>, vals: seq<real>, m1: nat)
    requires IsPartition(groups) && |names| == |vals|
    ensures LinkFrom(groups, names, vals, m1).None? <==> Missing(groups, names, vals, m1)
    decreases |names| - m1
  {
    if m1 < |names| {
      LinkRowFails(groups, names, vals, m1, m1 + 1);
      match LinkRowFrom(groups, names, vals, m1, m1 + 1)
      case None =>
        var m :| m1 + 1 <= m < |names| && vals[m] == vals[m1] && (names[m1] !in groups || names[m] !in groups);
        assert Missing(groups, names, vals, m1) by { assert vals[m1] == vals[m]; }
      case Some(g) =>
        LinkFromFails(g, names, vals, m1 + 1);
        MissingShift(groups, g, names, vals, m1);
    }
  }

  /** When row `m1` links without a `KeyError`, the rows after it fail on
      the linked table exactly when they would have on the original one. */
  lemma MissingShift(groups: map<Point, set<Point>>, g: map<Point, set<Point>>, names: seq<Point>, vals: seq<real>, m1: nat)
    requires |names| == |vals| && m1 < |names| && g.Keys == groups.Keys
    requires !RowMissing(groups, names, vals, m1, m1 + 1)
    ensures Missing(groups, names, vals, m1) <==> Missing(g, names, vals, m1 + 1)
  {
    if Missing(groups, names, vals, m1) {
      var a, b :| m1 <= a < b < |names| && vals[a] == vals[b] && (names[a] !in groups || names[b] !in groups);
      // `a == m1` would be a failure in row `m1` itself
      assert Missing(g, names, vals, m1 + 1) by {
        assert m1 + 1 <= a < b < |names| && (names[a] !in g || names[b] !in g);
      }
    }
    if Missing(g, names, vals, m1 + 1) {
      var a, b :| m1 + 1 <= a < b < |names| && vals[a] == vals[b] && (names[a] !in g || names[b] !in g);
      assert m1 <= a && (names[a] !in groups || names[b] !in groups);
    }
  }

  /** After the inner loop, node `m1` shares a group with every later node
      of equal offset, and points that shared a group still do. */
  lemma {:induction false} LinkRowTogether(groups: map<Point, set<Point>>, names: seq<Point>, vals: seq<real>, m1: nat, m2: nat)
    requires IsPartition(groups) && |names| == |vals| && m1 < |names|
    requires LinkRowFrom(groups, names, vals, m1, m2).Some?
    ensures var r := LinkRowFrom(groups, names, vals, m1, m2).value;
            (forall m :: m2 <= m < |names| && vals[m] == vals[m1] ==> Together(r, names[m1], names[m])) &&
            (forall p, q :: Together(groups, p, q) ==> Together(r, p, q))
    decreases |names| - m2
  {
    if m2 < |names| {
      var r := LinkRowFrom(groups, names, vals, m1, m2).value;
      if vals[m2] != vals[m1] {
        LinkRowTogether(groups, names, vals, m1, m2 + 1);
      } else {
        var g := Linked(groups, names[m1], names[m2]);
        LinkedPartition(groups, names[m1], names[m2]);
        LinkRowTogether(g, names, vals, m1, m2 + 1);
        LinkedTogether(groups, names[m1], names[m2], names[m1], names[m2]);
        forall p, q | Together(groups, p, q) ensures Together(g, p, q) {
          LinkedTogether(groups, names[m1], names[m2], p, q);
        }
      }
    }
  }

  /** After a successful `xlink` from row `m1`, every two nodes with equal
      offsets share a group, and points that shared a group still do. */
  lemma {:induction false} LinkFromTogether(groups: map<Point, set<Point>>, names: seq<Point>, vals: seq<real>, m1: nat)
    requires IsPartition(groups) && |names| == |vals|
    requires LinkFrom(groups, names, vals, m1).Some?
    ensures var r := LinkFrom(groups, names, vals, m1).value;
            (forall a, b :: m1 <= a < b < |names| && vals[a] == vals[b] ==> Together(r, names[a], names[b])) &&
            (forall p, q :: Together(groups, p, q) ==> Together(r, p, q))
    decreases |names| - m1
  {
    if m1 < |names| {
      var g := LinkRowFrom(groups, names, vals, m1, m1 + 1).value;
      var r := LinkFrom(groups, names, vals, m1).value;
      LinkRowTogether(groups, names, vals, m1, m1 + 1);
      LinkFromTogether(g, names, vals, m1 + 1);
      assert r == LinkFrom(g, names, vals, m1 + 1).value;
      forall a, b | m1 <= a < b < |names| && vals[a] == vals[b] ensures Together(r, names[a], names[b]) {
        if a == m1 {
          assert Together(g, names[a], names[b]);
        }
      }
    }
  }

  /** `xlink` on the whole table. */
  function XLink(groups: map<Point, set<Point>>, names: seq<Point>, vals: seq<real>): (r: Option<map<Point, set<Point>>>)
    requires IsPartition(groups) && |names| == |vals|
    ensures r.Some? ==> IsPartition(r.value) && r.value.Keys == groups.Keys
  {
    LinkFrom(groups, names, vals, 0)
  }

  /** The inner loop of `xlink` for row `m1`. */
  method LinkRow(c: Cnodes, names: seq<Point>, vals: seq<real>, m1: nat) returns (ok: bool)
    requires c.Valid() && |names| == |vals| && m1 < |names|
    modifies c
    ensures c.Valid()
    ensures ok <==> LinkRowFrom(old(c.groups), names, vals, m1, m1 + 1).Some?
    ensures ok ==> c.groups == LinkRowFrom(old(c.groups), names, vals, m1, m1 + 1).value
  {
    var m2 := m1 + 1;
    while m2 < |names|
      invariant m1 + 1 <= m2 <= |names| && c.Valid()
      invariant LinkRowFrom(old(c.groups), names, vals, m1, m1 + 1) == LinkRowFrom(c.groups, names, vals, m1, m2)
    {
      if vals[m2] == vals[m1] {
        ok := c.Link(names[m1], names[m2]);
        if !ok {
          return;
        }
      }
      m2 := m2 + 1;
    }
    ok := true;
  }

  /** `xlink(graphs)` or `ylink(graphs)`, given the names of the
      component's drawn nodes and their offsets along the axis: links every
      pair of nodes with equal offsets, row by row.  `false` is the
      `KeyError` of a name the table does not know. */
  method LinkEqual(g: Graph, names: seq<Point>, vals: seq<real>) returns (ok: bool)
    requires g.Valid() && |names| == |vals|
    modifies g.cnodes
    ensures g.Valid()
    ensures ok <==> XLink(old(g.cnodes.groups), names, vals).Some?
    ensures ok ==> g.cnodes.groups == XLink(old(g.cnodes.groups), names, vals).value
  {
    ok := true;
    var m1 := 0;
    while m1 < |names|
      invariant m1 <= |names| && g.Valid()
      invariant XLink(old(g.cnodes.groups), names, vals) == LinkFrom(g.cnodes.groups, names, vals, m1)
    {
      ok := LinkRow(g.cnodes, names, vals, m1);
      if !ok {
        return;
      }
      m1 := m1 + 1;
    }
  }

  /** One call `add(n1, n2, size, stretch)`. */
  datatype Call = Call(n1: Point, n2: Point, size: real, stretch: bool)

  /** Every entry of `idx` indexes `vals`. */
  predicate Indices(vals: seq<real>, idx: seq<nat>) {
    forall i :: 0 <= i < |idx| ==> idx[i] < |vals|
  }

  /** `idx` is `argsort(vals)[::-1]`: the indices of `vals` once each, in
      order of non-increasing value. */
  predicate Descending(vals: seq<real>, idx: seq<nat>) {
    |idx| == |vals| && Indices(vals, idx) &&
    (forall i, j :: 0 <= i < j < |idx| ==> idx[i] != idx[j] && vals[idx[i]] >= vals[idx[j]])
  }

  /** A non-positive difference scaled by a size keeps the sign of the
      size's opposite, and is zero only when the difference is. */
  lemma Scaled(x: real, size: real)
    requires x <= 0.0
    ensures size >= 0.0 ==> x * size <= 0.0
    ensures size > 0.0 ==> (x * size == 0.0 <==> x == 0.0)
  {
    if size > 0.0 && x < 0.0 {
      assert x * size < 0.0 * size;
    }
  }

  /** The separation `place` asks for from node `m1` to node `m2`. */
  function Gap(vals: seq<real>, m1: nat, m2: nat, size: real): real
    requires m1 < |vals| && m2 < |vals|
  {
    (vals[m2] - vals[m1]) * size
  }

  /** The calls `place` makes: one per pair of neighbours in `idx`, with
      the second node's offset minus the first's, scaled by the size. */
  function PlaceCalls(names: seq<Point>, vals: seq<real>, idx: seq<nat>, size: real, stretch: bool): (calls: seq<Call>)
    requires |names| == |vals| && Indices(vals, idx)
    // `range(len(idx) - 1)`: one call fewer than there are nodes, none for no nodes
    ensures |calls| == if idx == [] then 0 else |idx| - 1
    // neighbours in descending order, with the component's stretch flag
    ensures forall i :: 0 <= i < |calls| ==>
              calls[i].n1 == names[idx[i]] && calls[i].n2 == names[idx[i + 1]] &&
              calls[i].stretch == stretch &&
              calls[i].size == Gap(vals, idx[i], idx[i + 1], size)
  {
    if |idx| <= 1 then []
    else
      assert Indices(vals, idx[1..]);
      [Call(names[idx[0]], names[idx[1]], Gap(vals, idx[0], idx[1], size), stretch)] +
      PlaceCalls(names, vals, idx[1..], size, stretch)
  }

  /** A positive size never asks for a positive separation, and asks for
      none exactly when the two neighbours' offsets are equal. */
  lemma PlaceCallsSigns(names: seq<Point>, vals: seq<real>, idx: seq<nat>, size: real, stretch: bool)
    requires |names| == |vals| && Descending(vals, idx)
    ensures var calls := PlaceCalls(names, vals, idx, size, stretch);
            (size >= 0.0 ==> forall i :: 0 <= i < |calls| ==> calls[i].size <= 0.0) &&
            (size > 0.0 ==> forall i :: 0 <= i < |calls| ==> (calls[i].size == 0.0 <==> vals[idx[i]] == vals[idx[i + 1]]))
  {
    var calls := PlaceCalls(names, vals, idx, size, stretch);
    forall i | 0 <= i < |calls|
      ensures size >= 0.0 ==> calls[i].size <= 0.0
      ensures size > 0.0 ==> (calls[i].size == 0.0 <==> vals[idx[i]] == vals[idx[i + 1]])
    {
      var x := vals[idx[i + 1]] - vals[idx[i]];
      assert x <= 0.0;
      Scaled(x, size);
    }
  }

  /** The graph after the calls, made in order. */
  function Placed(nodes: map<Vertex, Gnode>, groups: map<Point, set<Point>>, calls: seq<Call>): map<Vertex, Gnode> {
    if calls == [] then nodes
    else
      var c := calls[|calls| - 1];
      Added(Placed(nodes, groups, calls[..|calls| - 1]), groups, c.n1, c.n2, c.size, c.stretch)
  }

  lemma PlacedSnoc(nodes: map<Vertex, Gnode>, groups: map<Point, set<Point>>, calls: seq<Call>, c: Call)
    ensures Placed(nodes, groups, calls + [c]) == Added(Placed(nodes, groups, calls), groups, c.n1, c.n2, c.size, c.stretch)
  {
    assert (calls + [c])[..|calls|] == calls;
  }

  /** One call of the loop of `place`. */
  method PlaceStep(g: Graph, c: Call, ghost nodes: map<Vertex, Gnode>, ghost done: seq<Call>)
    requires g.Valid() && g.nodes == Placed(nodes, g.cnodes.groups, done)
    modifies g
    ensures g.Valid() && g.nodes == Placed(nodes, g.cnodes.groups, done + [c])
  {
    PlacedSnoc(nodes, g.cnodes.groups, done, c);
    g.Add(c.n1, c.n2, c.size, c.stretch);
  }

  /** `place(graphs, vals)` (and so `xplace`/`yplace`), given the names of
      the drawn nodes, their offsets, the descending order `idx` of the
      offsets and the component's size and stretch flag. */
  method Place(g: Graph, names: seq<Point>, vals: seq<real>, idx: seq<nat>, size: real, stretch: bool)
    requires g.Valid() && |names| == |vals| && Indices(vals, idx)
    modifies g
    ensures g.Valid()
    ensures g.nodes == Placed(old(g.nodes), g.cnodes.groups, PlaceCalls(names, vals, idx, size, stretch))
  {
    ghost var calls := PlaceCalls(names, vals, idx, size, stretch);
    var i := 0;
    while i + 1 < |idx|
      invariant g.Valid() && i <= |calls|
      invariant g.nodes == Placed(old(g.nodes), g.cnodes.groups, calls[..i])
    {
      var m1, m2 := idx[i], idx[i + 1];
      var value := Gap(vals, m1, m2, size);
      assert calls[..i + 1] == calls[..i] + [Call(names[m1], names[m2], value, stretch)];
      PlaceStep(g, Call(names[m1], names[m2], value, stretch), old(g.nodes), calls[..i]);
      i := i + 1;
    }
    assert calls[..i] == calls;
  }
}

=== FILE: search.dfy ===
/** The recursive longest-path relaxation shared by `longest_forward_path`
    and `longest_path_to_known`, and the walks that follow the pointers it
    leaves.  The three per-vertex fields the search overwrites are threaded
    through as one value. */
module Search {
  import opened Base
  import opened Paths

  /** The `dist`, `prev` and `next` fields of every vertex. */
  datatype State = State(dist: map<Vertex, real>, prev: map<Vertex, Option<Edge>>,
                         next: map<Vertex, Option<Edge>>)

  /** The state has an entry for exactly the vertices of the graph. */
  predicate Frame(adj: map<Vertex, seq<Edge>>, known: map<Vertex, Option<real>>, s: State) {
    AdjShape(adj) && known.Keys == adj.Keys &&
    s.dist.Keys == adj.Keys && s.prev.Keys == adj.Keys && s.next.Keys == adj.Keys
  }

  /** The search has finished with `u`: it is a known vertex the search
      stops at, or every edge out of it is relaxed. */
  ghost predicate Settled(adj: map<Vertex, seq<Edge>>, known: map<Vertex, Option<real>>, stop: bool,
                          dist: map<Vertex, real>, u: Vertex) {
    u in known && ((stop && known[u].Some?) || Relaxed(adj, dist, u))
  }

  /** `prev[x] == e`: `e` leads into `x` from a reached vertex the search
      expanded, and `x` is no farther than `e` takes it. */
  ghost predicate PrevSound(adj: map<Vertex, seq<Edge>>, known: map<Vertex, Option<real>>, stop: bool,
                            dist: map<Vertex, real>, x: Vertex, e: Edge) {
    e.to == x && e.from in adj && e in adj[e.from] && e.from in dist && x in dist &&
    dist[e.from] >= 0.0 && dist[x] >= 0.0 && dist[x] <= dist[e.from] + e.size && (e.from != x || e.size > 0.0) &&
    e.from in known && !(stop && known[e.from].Some?)
  }

  /** `next[x] == e`: `e` leaves `x`, which was reached and expanded. */
  ghost predicate NextSound(adj: map<Vertex, seq<Edge>>, known: map<Vertex, Option<real>>, stop: bool,
                            dist: map<Vertex, real>, x: Vertex, e: Edge) {
    e.from == x && x in adj && e in adj[x] && x in dist && dist[x] >= 0.0 &&
    x in known && !(stop && known[x].Some?)
  }

  /** Distances are -1 (unreached) or non-negative. */
  ghost predicate Distances(dist: map<Vertex, real>) {
    forall x :: x in dist ==> dist[x] == -1.0 || dist[x] >= 0.0
  }

  ghost predicate PrevPointers(adj: map<Vertex, seq<Edge>>, known: map<Vertex, Option<real>>, stop: bool,
                               dist: map<Vertex, real>, prev: map<Vertex, Option<Edge>>) {
    forall x :: x in prev && prev[x].Some? ==> PrevSound(adj, known, stop, dist, x, prev[x].value)
  }

  ghost predicate NextPointers(adj: map<Vertex, seq<Edge>>, known: map<Vertex, Option<real>>, stop: bool,
                               dist: map<Vertex, real>, next: map<Vertex, Option<Edge>>) {
    forall x :: x in next && next[x].Some? ==> NextSound(adj, known, stop, dist, x, next[x].value)
  }

  /** What holds throughout a search: distances are -1 or non-negative, and
      every `prev` and `next` pointer is sound. */
  ghost predicate Pointers(adj: map<Vertex, seq<Edge>>, known: map<Vertex, Option<real>>, stop: bool,
                           s: State) {
    Distances(s.dist) && PrevPointers(adj, known, stop, s.dist, s.prev) &&
    NextPointers(adj, known, stop, s.dist, s.next)
  }

  /** From `s0` to `s` distances only grow, `prev` and `next` pointers are
      never cleared, and every vertex whose distance grew has a `prev`
      pointer. */
  ghost predicate Grows(s0: State, s: State) {
    s.dist.Keys == s0.dist.Keys && s.prev.Keys == s0.prev.Keys && s.next.Keys == s0.next.Keys &&
    (forall u :: u in s0.dist ==> s0.dist[u] <= s.dist[u]) &&
    (forall u :: u in s0.prev && s0.prev[u].Some? ==> s.prev[u].Some?) &&
    (forall u :: u in s0.next && s0.next[u].Some? ==> s.next[u].Some?) &&
    (forall u :: u in s.dist && u in s0.dist && s.dist[u] != s0.dist[u] ==> u in s.prev && s.prev[u].Some?)
  }

  /** Every vertex whose distance changed from `s0` to `s` is settled in `s`. */
  ghost predicate SettledChanged(adj: map<Vertex, seq<Edge>>, known: map<Vertex, Option<real>>, stop: bool,
                                 s0: State, s: State) {
    forall u :: u in s.dist && u in s0.dist && s.dist[u] != s0.dist[u] ==> Settled(adj, known, stop, s.dist, u)
  }

  /** The state after relaxing `e` out of `v`. */
  function Relax(s: State, v: Vertex, e: Edge): State
    requires v in s.dist
  {
    State(s.dist[e.to := s.dist[v] + e.size], s.prev[e.to := Some(e)], s.next[v := Some(e)])
  }

  lemma GrowsTrans(s1: State, s2: State, s3: State)
    requires Grows(s1, s2) && Grows(s2, s3)
    ensures Grows(s1, s3)
  {
    forall u | u in s3.dist && u in s1.dist && s3.dist[u] != s1.dist[u] ensures s3.prev[u].Some? {
      if s2.dist[u] == s1.dist[u] {
        assert s3.dist[u] != s2.dist[u];
      }
    }
  }

  lemma RelaxPrev(adj: map<Vertex, seq<Edge>>, known: map<Vertex, Option<real>>, stop: bool,
                  dist: map<Vertex, real>, prev: map<Vertex, Option<Edge>>, v: Vertex, e: Edge)
    requires PrevPointers(adj, known, stop, dist, prev)
    requires v in adj && e in adj[v] && e.from == v && v in dist && e.to in dist && dist[v] >= 0.0
    requires dist[v] + e.size > dist[e.to] && e.size >= 0.0 && v in known && !(stop && known[v].Some?)
    ensures PrevPointers(adj, known, stop, dist[e.to := dist[v] + e.size], prev[e.to := Some(e)])
  {
    var d, p := dist[e.to := dist[v] + e.size], prev[e.to := Some(e)];
    forall x | x in p && p[x].Some? ensures PrevSound(adj, known, stop, d, x, p[x].value) {
      if x != e.to {
        assert PrevSound(adj, known, stop, dist, x, prev[x].value);
      }
    }
  }

  lemma RelaxNext(adj: map<Vertex, seq<Edge>>, known: map<Vertex, Option<real>>, stop: bool,
                  dist: map<Vertex, real>, next: map<Vertex, Option<Edge>>, v: Vertex, e: Edge)
    requires NextPointers(adj, known, stop, dist, next)
    requires v in adj && e in adj[v] && e.from == v && v in dist && e.to in dist && dist[v] >= 0.0
    requires dist[v] + e.size > dist[e.to] && v in known && !(stop && known[v].Some?)
    ensures NextPointers(adj, known, stop, dist[e.to := dist[v] + e.size], next[v := Some(e)])
  {
    var d, n := dist[e.to := dist[v] + e.size], next[v := Some(e)];
    forall x | x in n && n[x].Some? ensures NextSound(adj, known, stop, d, x, n[x].value) {
      if x != v {
        assert NextSound(adj, known, stop, dist, x, next[x].value);
      }
    }
  }

  /** Relaxing an edge of the graph keeps the state's frame and only grows it. */
  lemma RelaxFrame(adj: map<Vertex, seq<Edge>>, known: map<Vertex, Option<real>>, s: State, v: Vertex, e: Edge)
    requires Frame(adj, known, s) && v in adj && e in adj[v] && v in s.dist
    requires s.dist[v] + e.size > s.dist[e.to]
    ensures Frame(adj, known, Relax(s, v, e)) && Grows(s, Relax(s, v, e))
  {
    assert e.from == v && e.to in adj;
    var t := Relax(s, v, e);
    assert t.dist.Keys == s.dist.Keys && t.prev.Keys == s.prev.Keys && t.next.Keys == s.next.Keys;
  }

  /** Relaxing edge `e` out of a reached, expandable `v` keeps the pointers
      sound. */
  lemma RelaxSound(adj: map<Vertex, seq<Edge>>, known: map<Vertex, Option<real>>, stop: bool,
                   s: State, v: Vertex, e: Edge)
    requires Frame(adj, known, s) && Pointers(adj, known, stop, s)
    requires v in adj && e in adj[v] && v in s.dist && s.dist[v] >= 0.0
    requires s.dist[v] + e.size > s.dist[e.to]
    requires !(stop && known[v].Some?)
    ensures Pointers(adj, known, stop, Relax(s, v, e))
  {
    assert e.from == v && e.to in adj && e.size >= 0.0;
    RelaxPrev(adj, known, stop, s.dist, s.prev, v, e);
    RelaxNext(adj, known, stop, s.dist, s.next, v, e);
    var t := Relax(s, v, e);
    assert t.dist == s.dist[e.to := s.dist[v] + e.size];
    assert Distances(t.dist);
  }

  /** Raising distances leaves every settled vertex whose own distance is
      unchanged settled. */
  lemma SettledMono(adj: map<Vertex, seq<Edge>>, known: map<Vertex, Option<real>>, stop: bool,
                    d1: map<Vertex, real>, d2: map<Vertex, real>, u: Vertex)
    requires d1.Keys == d2.Keys && forall w :: w in d1 ==> d1[w] <= d2[w]
    requires u in d1 && d1[u] == d2[u] && Settled(adj, known, stop, d1, u)
    ensures Settled(adj, known, stop, d2, u)
  {
    if !(stop && known[u].Some?) {
      forall e | e in adj[u] ensures e.to in d2 && d2[u] + e.size <= d2[e.to] {
        assert e.to in d1 && d1[u] + e.size <= d1[e.to];
      }
    }
  }

  /** What the loop of `traverse(v)` knows after handling the first `i`
      edges of `v`, starting from `s0`. */
  ghost predicate LoopProgress(adj: map<Vertex, seq<Edge>>, known: map<Vertex, Option<real>>, stop: bool,
                               s0: State, s: State, v: Vertex, i: nat) {
    v in adj && i <= |adj[v]| && v in s.dist && v in s0.dist &&
    Grows(s0, s) && SettledChanged(adj, known, stop, s0, s) &&
    (s.dist[v] == s0.dist[v] ==>
      forall j :: 0 <= j < i ==> adj[v][j].to in s.dist && s.dist[v] + adj[v][j].size <= s.dist[adj[v][j].to])
  }

  /** A relaxing step keeps every changed vertex settled: a vertex either
      changed inside the recursive call (which settled it), is the target
      just relaxed (which the call settled), or was settled before and kept
      its distance. */
  lemma RelaxStepSettled(adj: map<Vertex, seq<Edge>>, known: map<Vertex, Option<real>>, stop: bool,
                         s0: State, s1: State, s3: State, v: Vertex, e: Edge)
    requires v in s1.dist && Grows(s0, s1) && SettledChanged(adj, known, stop, s0, s1)
    requires var s2 := Relax(s1, v, e);
             Grows(s1, s2) && Grows(s2, s3) && SettledChanged(adj, known, stop, s2, s3) &&
             Settled(adj, known, stop, s3.dist, e.to)
    ensures SettledChanged(adj, known, stop, s0, s3)
  {
    var s2 := Relax(s1, v, e);
    forall u | u in s3.dist && u in s0.dist && s3.dist[u] != s0.dist[u]
      ensures Settled(adj, known, stop, s3.dist, u)
    {
      if s3.dist[u] == s2.dist[u] && u != e.to {
        assert s2.dist[u] == s1.dist[u];
        GrowsTrans(s1, s2, s3);
        SettledMono(adj, known, stop, s1.dist, s3.dist, u);
      }
    }
  }

  /** A relaxing step extends the run of relaxed edges of `v` by one. */
  lemma RelaxStepRelaxed(adj: map<Vertex, seq<Edge>>, known: map<Vertex, Option<real>>, stop: bool,
                         s0: State, s1: State, s3: State, v: Vertex, i: nat)
    requires LoopProgress(adj, known, stop, s0, s1, v, i) && i < |adj[v]| && adj[v][i].to in s1.dist
    requires var s2 := Relax(s1, v, adj[v][i]);
             Grows(s1, s2) && Grows(s2, s3)
    requires Grows(s0, s3)
    ensures s3.dist[v] == s0.dist[v] ==>
      forall j :: 0 <= j < i + 1 ==> adj[v][j].to in s3.dist && s3.dist[v] + adj[v][j].size <= s3.dist[adj[v][j].to]
  {
    var e := adj[v][i];
    var s2 := Relax(s1, v, e);
    if s3.dist[v] == s0.dist[v] {
      assert s1.dist[v] == s0.dist[v] && s3.dist[v] == s1.dist[v];
      forall j | 0 <= j < i + 1
        ensures adj[v][j].to in s3.dist && s3.dist[v] + adj[v][j].size <= s3.dist[adj[v][j].to]
      {
        if j < i {
          assert s1.dist[v] + adj[v][j].size <= s1.dist[adj[v][j].to];
        } else {
          assert s2.dist[e.to] == s1.dist[v] + e.size;
        }
      }
    }
  }

  /** A step that relaxes nothing also extends the run by one. */
  lemma SkipStep(adj: map<Vertex, seq<Edge>>, known: map<Vertex, Option<real>>, stop: bool,
                 s0: State, s: State, v: Vertex, i: nat)
    requires LoopProgress(adj, known, stop, s0, s, v, i) && i < |adj[v]| && adj[v][i].to in s.dist
    requires s.dist[v] + adj[v][i].size <= s.dist[adj[v][i].to]
    ensures LoopProgress(adj, known, stop, s0, s, v, i + 1)
  {
  }

  /** After the last edge, `v` and every changed vertex are settled. */
  lemma FinishLoop(adj: map<Vertex, seq<Edge>>, known: map<Vertex, Option<real>>, stop: bool,
                   s0: State, s: State, v: Vertex)
    requires v in adj && LoopProgress(adj, known, stop, s0, s, v, |adj[v]|) && v in known
    ensures Settled(adj, known, stop, s.dist, v) && SettledChanged(adj, known, stop, s0, s)
  {
    if s.dist[v] == s0.dist[v] {
      assert Relaxed(adj, s.dist, v) by {
        forall e | e in adj[v] ensures e.to in s.dist && s.dist[v] + e.size <= s.dist[e.to] {
          var j :| 0 <= j < |adj[v]| && adj[v][j] == e;
        }
      }
    }
  }

  /** `traverse(v)`: relax every edge out of `v` in order and recurse into
      each vertex whose distance grew; with `stop`, a vertex with a known
      position is not expanded.  `fuel` is the recursion depth left;
      running out of it is Python's `RuntimeError`, reported as `ok == false`.
      On success `v` and every vertex whose distance changed are settled. */
  method Traverse(adj: map<Vertex, seq<Edge>>, known: map<Vertex, Option<real>>, stop: bool,
                  s: State, v: Vertex, fuel: nat) returns (ok: bool, t: State)
    requires Frame(adj, known, s) && Pointers(adj, known, stop, s)
    requires v in s.dist && s.dist[v] >= 0.0
    decreases fuel, 1
    ensures Frame(adj, known, t) && Pointers(adj, known, stop, t) && Grows(s, t)
    ensures ok ==> Settled(adj, known, stop, t.dist, v) && SettledChanged(adj, known, stop, s, t)
    ensures ok && !(stop && known[v].Some?) && Lengthens(adj, s, v, 0) ==> t.next[v].Some?
  {
    t, ok := s, true;
    if stop && known[v].Some? {
      return;
    }
    var i := 0;
    while i < |adj[v]| && ok
      invariant Frame(adj, known, t) && Pointers(adj, known, stop, t) && Grows(s, t)
      invariant ok ==> LoopProgress(adj, known, stop, s, t, v, i)
      invariant i == 0 ==> t == s
      invariant 0 < i && Lengthens(adj, s, v, 0) ==> t.next[v].Some?
    {
      ok, t := Step(adj, known, stop, s, t, v, i, fuel);
      i := i + 1;
    }
    if ok {
      FinishLoop(adj, known, stop, s, t, v);
    }
  }

  /** The `i`-th edge out of `v` lengthens its target's distance in `s`. */
  ghost predicate Lengthens(adj: map<Vertex, seq<Edge>>, s: State, v: Vertex, i: nat) {
    v in adj && i < |adj[v]| && v in s.dist && adj[v][i].to in s.dist &&
    s.dist[v] + adj[v][i].size > s.dist[adj[v][i].to]
  }

  /** One turn of the loop of `traverse(v)`: the `i`-th edge out of `v` is
      relaxed if it lengthens its target's distance, and the target is then
      traversed. */
  method Step(adj: map<Vertex, seq<Edge>>, known: map<Vertex, Option<real>>, stop: bool,
              s0: State, s: State, v: Vertex, i: nat, fuel: nat) returns (ok: bool, t: State)
    requires Frame(adj, known, s) && Pointers(adj, known, stop, s) && Grows(s0, s)
    requires LoopProgress(adj, known, stop, s0, s, v, i) && i < |adj[v]|
    requires s.dist[v] >= 0.0 && !(stop && known[v].Some?)
    decreases fuel, 0
    ensures Frame(adj, known, t) && Pointers(adj, known, stop, t) && Grows(s0, t)
    ensures ok ==> LoopProgress(adj, known, stop, s0, t, v, i + 1)
    ensures s.next[v].Some? || Lengthens(adj, s, v, i) ==> t.next[v].Some?
  {
    var e := adj[v][i];
    assert e.from == v && e.to in adj;
    if s.dist[v] + e.size <= s.dist[e.to] {
      SkipStep(adj, known, stop, s0, s, v, i);
      return true, s;
    }
    RelaxFrame(adj, known, s, v, e);
    RelaxSound(adj, known, stop, s, v, e);
    var s2 := Relax(s, v, e);
    GrowsTrans(s0, s, s2);
    if fuel == 0 {
      return false, s2;
    }
    ok, t := Traverse(adj, known, stop, s2, e.to, fuel - 1);
    GrowsTrans(s0, s2, t);
    if ok {
      RelaxStepSettled(adj, known, stop, s0, s, t, v, e);
      RelaxStepRelaxed(adj, known, stop, s0, s, t, v, i);
    }
  }

  /** When the search has finished: every reached vertex is settled. */
  ghost predicate Complete(adj: map<Vertex, seq<Edge>>, known: map<Vertex, Option<real>>, stop: bool,
                           t: State) {
    forall x {:trigger Settled(adj, known, stop, t.dist, x)} ::
      x in t.dist && t.dist[x] >= 0.0 ==> Settled(adj, known, stop, t.dist, x)
  }

  /** The reset at the top of both searches: every distance becomes -1 and
      every pointer is cleared. */
  method Reset(s: State) returns (t: State)
    requires s.prev.Keys == s.dist.Keys && s.next.Keys == s.dist.Keys
    ensures t.dist.Keys == s.dist.Keys && t.prev.Keys == s.dist.Keys && t.next.Keys == s.dist.Keys
    ensures forall v :: v in t.dist ==> t.dist[v] == -1.0 && t.prev[v] == None && t.next[v] == None
  {
    t := s;
    var todo := s.dist.Keys;
    while todo != {}
      invariant todo <= s.dist.Keys
      invariant t.dist.Keys == s.dist.Keys && t.prev.Keys == s.dist.Keys && t.next.Keys == s.dist.Keys
      invariant forall v :: v in t.dist && v !in todo ==> t.dist[v] == -1.0 && t.prev[v] == None && t.next[v] == None
      decreases todo
    {
      var v :| v in todo;
      t := State(t.dist[v := -1.0], t.prev[v := None], t.next[v := None]);
      todo := todo - {v};
    }
  }

  /** A search from `origin` that ran to the end: the pointers are sound,
      every reached vertex is settled, `origin` is reached, and any other
      vertex is reached exactly when it has a `prev` edge. */
  ghost predicate Finished(adj: map<Vertex, seq<Edge>>, known: map<Vertex, Option<real>>, stop: bool,
                           t: State, origin: Vertex) {
    Frame(adj, known, t) && Pointers(adj, known, stop, t) && Complete(adj, known, stop, t) &&
    origin in t.dist && t.dist[origin] >= 0.0 &&
    forall x :: x in t.dist && x != origin ==> (t.dist[x] >= 0.0 <==> t.prev[x].Some?)
  }

  /** The state a search starts from: everything reset, `origin` at 0. */
  lemma StartSound(adj: map<Vertex, seq<Edge>>, known: map<Vertex, Option<real>>, stop: bool,
                   r: State, origin: Vertex)
    requires AdjShape(adj) && known.Keys == adj.Keys && origin in adj
    requires r.dist.Keys == adj.Keys && r.prev.Keys == adj.Keys && r.next.Keys == adj.Keys
    requires forall v :: v in r.dist ==> r.dist[v] == -1.0 && r.prev[v] == None && r.next[v] == None
    ensures var s0 := r.(dist := r.dist[origin := 0.0]);
            Frame(adj, known, s0) && Pointers(adj, known, stop, s0)
  {
  }

  /** In the start state every edge out of `origin` lengthens its target,
      except a loop of length 0. */
  lemma StartLengthens(adj: map<Vertex, seq<Edge>>, r: State, origin: Vertex)
    requires AdjShape(adj) && origin in adj && r.dist.Keys == adj.Keys
    requires forall v :: v in r.dist ==> r.dist[v] == -1.0
    ensures adj[origin] != [] && (adj[origin][0].to != origin || adj[origin][0].size > 0.0) ==>
              Lengthens(adj, r.(dist := r.dist[origin := 0.0]), origin, 0)
  {
    if adj[origin] != [] {
      assert adj[origin][0] in adj[origin];
    }
  }

  /** What a search from a start state `s0` that only grew to `t` knows:
      reached vertices other than `origin` have a `prev` edge and the
      others keep -1; on success every reached vertex is settled. */
  lemma SearchFacts(adj: map<Vertex, seq<Edge>>, known: map<Vertex, Option<real>>, stop: bool,
                    s0: State, t: State, origin: Vertex, ok: bool)
    requires origin in s0.dist && s0.dist[origin] == 0.0
    requires forall v :: v in s0.dist && v != origin ==> s0.dist[v] == -1.0
    requires Frame(adj, known, t) && Pointers(adj, known, stop, t) && Grows(s0, t)
    requires ok ==> Settled(adj, known, stop, t.dist, origin) && SettledChanged(adj, known, stop, s0, t)
    ensures t.dist[origin] >= 0.0
    ensures forall x :: x in t.dist && x != origin ==> (t.dist[x] >= 0.0 <==> t.prev[x].Some?)
    ensures forall x :: x in t.dist && t.dist[x] < 0.0 ==> t.dist[x] == -1.0
    ensures (forall v, e :: v in adj && e in adj[v] ==> e.to != origin) ==> t.dist[origin] == 0.0
    ensures ok ==> Complete(adj, known, stop, t)
  {
    forall x | x in t.dist && x != origin && t.dist[x] >= 0.0 ensures t.prev[x].Some? {
      assert t.dist[x] != s0.dist[x];
    }
    forall x | x in t.dist && x != origin && t.prev[x].Some? ensures t.dist[x] >= 0.0 {
      assert PrevSound(adj, known, stop, t.dist, x, t.prev[x].value);
    }
    if ok {
      forall x | x in t.dist && t.dist[x] >= 0.0 ensures Settled(adj, known, stop, t.dist, x) {
        if x != origin {
          assert t.dist[x] != s0.dist[x];
        }
      }
    }
  }

  /** The body shared by `longest_forward_path` and `longest_path_to_known`:
      reset, put `origin` at distance 0 and traverse from it.  Afterwards a
      vertex is reached exactly when it is `origin` or has a `prev` edge,
      unreached ones keep -1, and on success the search is complete. */
  method Longest(adj: map<Vertex, seq<Edge>>, known: map<Vertex, Option<real>>, stop: bool,
                 s: State, origin: Vertex, fuel: nat) returns (ok: bool, t: State)
    requires AdjShape(adj) && known.Keys == adj.Keys && origin in adj
    requires s.dist.Keys == adj.Keys && s.prev.Keys == adj.Keys && s.next.Keys == adj.Keys
    ensures Frame(adj, known, t) && Pointers(adj, known, stop, t)
    ensures forall x :: x in t.dist && t.dist[x] < 0.0 ==> t.dist[x] == -1.0
    ensures (forall v, e :: v in adj && e in adj[v] ==> e.to != origin) ==> t.dist[origin] == 0.0
    ensures ok ==> Finished(adj, known, stop, t, origin)
    // an expanded origin whose first edge is not a loop of length 0 has a `next` pointer
    ensures (ok && !(stop && known[origin].Some?) && adj[origin] != [] &&
             (adj[origin][0].to != origin || adj[origin][0].size > 0.0)) ==> t.next[origin].Some?
  {
    var r := Reset(s);
    StartSound(adj, known, stop, r, origin);
    var s0 := r.(dist := r.dist[origin := 0.0]);
    StartLengthens(adj, r, origin);
    ok, t := Traverse(adj, known, stop, s0, origin, fuel);
    SearchFacts(adj, known, stop, s0, t, origin, ok);
  }

  /** A `prev` edge of a finished search is tight: its target is exactly
      the edge's length beyond its source. */
  lemma PrevTight(adj: map<Vertex, seq<Edge>>, known: map<Vertex, Option<real>>, stop: bool,
                  t: State, x: Vertex)
    requires Frame(adj, known, t) && Pointers(adj, known, stop, t) && Complete(adj, known, stop, t)
    requires x in t.prev && t.prev[x].Some?
    ensures var e := t.prev[x].value;
            e.to == x && e in adj[e.from] && t.dist[x] == t.dist[e.from] + e.size
  {
    var e := t.prev[x].value;
    assert PrevSound(adj, known, stop, t.dist, x, e);
    assert Settled(adj, known, stop, t.dist, e.from);
  }

  /** A search cannot finish while a cycle of positive length is
      reachable from its origin: in Python the recursion runs away and the
      search ends in `RuntimeError`. */
  lemma CycleUnfinished(adj: map<Vertex, seq<Edge>>, known: map<Vertex, Option<real>>, t: State,
                        origin: Vertex, p: seq<Edge>, c: seq<Edge>, a: Vertex)
    requires IsChain(p, origin, a) && InAdj(adj, p) && IsChain(c, a, a) && InAdj(adj, c) && Length(c) > 0.0
    ensures !Finished(adj, known, false, t, origin)
  {
    if Finished(adj, known, false, t, origin) {
      CompleteBound(adj, known, t, p, origin, a);
      CompleteBound(adj, known, t, c, a, a);
    }
  }

  /** `e` is a tight `prev` edge into `x` from a reached vertex. */
  ghost predicate TightPrev(adj: map<Vertex, seq<Edge>>, dist: map<Vertex, real>, x: Vertex, e: Edge) {
    e.to == x && e.from in adj && e in adj[e.from] && e.from in dist && x in dist &&
    dist[e.from] >= 0.0 && dist[x] == dist[e.from] + e.size
  }

  /** The `prev` pointers of a finished search form a tree of tight edges
      rooted at `origin` that spans the reached vertices. */
  ghost predicate PrevTree(adj: map<Vertex, seq<Edge>>, t: State, origin: Vertex) {
    t.dist.Keys == adj.Keys && t.prev.Keys == adj.Keys && origin in adj && t.dist[origin] >= 0.0 &&
    (forall x :: x in t.prev && t.prev[x].Some? ==> TightPrev(adj, t.dist, x, t.prev[x].value)) &&
    (forall x :: x in t.dist && x != origin ==> (t.dist[x] >= 0.0 <==> t.prev[x].Some?))
  }

  lemma FinishedTree(adj: map<Vertex, seq<Edge>>, known: map<Vertex, Option<real>>, stop: bool,
                     t: State, origin: Vertex)
    requires Finished(adj, known, stop, t, origin)
    ensures PrevTree(adj, t, origin)
  {
    forall x | x in t.prev && t.prev[x].Some? ensures TightPrev(adj, t.dist, x, t.prev[x].value) {
      PrevTight(adj, known, stop, t, x);
      assert PrevSound(adj, known, stop, t.dist, x, t.prev[x].value);
    }
  }

  /** After a complete unbounded search every chain leaving a reached
      vertex ends at a reached vertex, no longer than the distance gained. */
  lemma CompleteBound(adj: map<Vertex, seq<Edge>>, known: map<Vertex, Option<real>>, t: State,
                      p: seq<Edge>, a: Vertex, b: Vertex)
    requires Frame(adj, known, t) && Complete(adj, known, false, t)
    requires IsChain(p, a, b) && InAdj(adj, p) && a in t.dist && t.dist[a] >= 0.0
    ensures b in t.dist && t.dist[b] >= 0.0 && Length(p) <= t.dist[b] - t.dist[a]
  {
    forall u | u in t.dist && t.dist[u] >= 0.0 ensures Relaxed(adj, t.dist, u) {
      assert Settled(adj, known, false, t.dist, u);
    }
    forall i | 0 <= i < |p| ensures p[i].size >= 0.0 {
      assert p[i] in adj[p[i].from];
    }
    ReachedBound(adj, t.dist, p, a, b);
  }

  /** A walk so far: `path`, of length `total` with `count` stretchable
      edges, leads from `v` to `last` along `next` pointers through vertices without a known position, no longer than
      the distance gained; each vertex left behind has edges out and lies
      before `last` unless `last` is a dead end. */
  ghost predicate Walked(adj: map<Vertex, seq<Edge>>, known: map<Vertex, Option<real>>, t: State,
                         v: Vertex, src: Vertex, last: Vertex, total: real, count: nat,
                         path: seq<Edge>, visited: set<Vertex>)
    requires Frame(adj, known, t)
  {
    total == Length(path) && count == Stretches(path) &&
    last in adj && last != src && v in adj && visited <= adj.Keys &&
    IsChain(path, v, last) && InAdj(adj, path) &&
    (forall i :: 0 <= i < |path| ==> t.next[path[i].from] == Some(path[i]) && known[path[i].from] == None) &&
    Length(path) <= t.dist[last] - t.dist[v] &&
    (forall w :: w in visited ==> adj[w] != [] && (t.dist[w] < t.dist[last] || adj[last] == []))
  }

  /** Extending a chain of `adj` by an edge of `adj`. */
  lemma ChainExtend(adj: map<Vertex, seq<Edge>>, path: seq<Edge>, e: Edge, v: Vertex, last: Vertex)
    requires IsChain(path, v, last) && InAdj(adj, path) && e.from == last && last in adj && e in adj[last]
    ensures IsChain(path + [e], v, e.to) && InAdj(adj, path + [e])
    ensures Length(path + [e]) == Length(path) + e.size
    ensures Stretches(path + [e]) == Stretches(path) + (if e.stretch then 1 else 0)
  {
    ChainSnoc(path, e, v, last);
    var p := path + [e];
    forall i | 0 <= i < |p| ensures p[i].from in adj && p[i] in adj[p[i].from] {
      if i < |path| {
        assert p[i] == path[i];
      }
    }
  }

  /** Extending the walked edges by the `next` edge of an unknown vertex. */
  lemma PointersExtend(known: map<Vertex, Option<real>>, t: State, path: seq<Edge>, last: Vertex, e: Edge)
    requires last in t.next && t.next[last] == Some(e) && e.from == last && last in known && known[last] == None
    requires forall i :: 0 <= i < |path| ==>
               path[i].from in t.next && path[i].from in known &&
               t.next[path[i].from] == Some(path[i]) && known[path[i].from] == None
    ensures var p := path + [e];
            forall i :: 0 <= i < |p| ==> t.next[p[i].from] == Some(p[i]) && known[p[i].from] == None
  {
    var p := path + [e];
    forall i | 0 <= i < |p| ensures t.next[p[i].from] == Some(p[i]) && known[p[i].from] == None {
      if i < |path| {
        assert p[i] == path[i];
      }
    }
  }

  /** Following the `next` edge out of `last` moves forward: the edge is
      relaxed, and the vertices left behind all lie before its target
      unless that target is a dead end. */
  lemma WalkAdvance(adj: map<Vertex, seq<Edge>>, known: map<Vertex, Option<real>>, t: State,
                    src: Vertex, last: Vertex, visited: set<Vertex>, e: Edge)
    requires Frame(adj, known, t) && NextPointers(adj, known, true, t.dist, t.next) && Complete(adj, known, true, t)
    requires WalkShape(adj, src) && last in adj && last != src && t.next[last] == Some(e) && visited <= adj.Keys
    requires forall w :: w in visited ==> adj[w] != [] && (t.dist[w] < t.dist[last] || adj[last] == [])
    ensures e.from == last && e in adj[last] && e.to in adj && e.to != src && known[last] == None
    ensures t.dist[last] + e.size <= t.dist[e.to]
    ensures forall w :: w in visited + {last} ==> adj[w] != [] && (t.dist[w] < t.dist[e.to] || adj[e.to] == [])
    ensures |adj.Keys - (visited + {last})| < |adj.Keys - visited|
  {
    assert NextSound(adj, known, true, t.dist, last, e);
    assert Relaxed(adj, t.dist, last) by {
      assert Settled(adj, known, true, t.dist, last);
    }
    assert last !in visited;
    assert adj.Keys - (visited + {last}) < adj.Keys - visited;
  }

  /** One step of a walk along `next` pointers keeps it a walk and visits a
      vertex not visited before. */
  lemma WalkStep(adj: map<Vertex, seq<Edge>>, known: map<Vertex, Option<real>>, t: State,
                 v: Vertex, src: Vertex, last: Vertex, total: real, count: nat,
                 path: seq<Edge>, visited: set<Vertex>, e: Edge)
    requires Frame(adj, known, t) && NextPointers(adj, known, true, t.dist, t.next) && Complete(adj, known, true, t)
    requires WalkShape(adj, src) && Walked(adj, known, t, v, src, last, total, count, path, visited)
    requires t.next[last] == Some(e)
    ensures Walked(adj, known, t, v, src, e.to, total + e.size, count + (if e.stretch then 1 else 0),
                   path + [e], visited + {last})
    ensures |adj.Keys - (visited + {last})| < |adj.Keys - visited|
  {
    WalkAdvance(adj, known, t, src, last, visited, e);
    ChainExtend(adj, path, e, v, last);
    PointersExtend(known, t, path, last, e);
  }

  /** A finished search towards placed vertices: its `next` pointers are
      sound and every reached vertex is settled. */
  ghost predicate Searched(adj: map<Vertex, seq<Edge>>, known: map<Vertex, Option<real>>, t: State) {
    NextPointers(adj, known, true, t.dist, t.next) && Complete(adj, known, true, t)
  }

  /** The walk of the stretch pass: follow `next` pointers from `v` while
      there is one, adding up lengths and stretchable edges.  The walk
      crosses only vertices the search expanded, so none with a known
      position, and stops where no `next` pointer leaves. */
  method Walk(adj: map<Vertex, seq<Edge>>, known: map<Vertex, Option<real>>, t: State,
              v: Vertex, src: Vertex)
    returns (last: Vertex, total: real, count: nat, ghost path: seq<Edge>, ghost visited: set<Vertex>)
    requires Frame(adj, known, t) && Searched(adj, known, t)
    requires WalkShape(adj, src) && v in adj && v != src
    ensures Walked(adj, known, t, v, src, last, total, count, path, visited)
    ensures t.next[last] == None
  {
    last, total, count, path, visited := v, 0.0, 0, [], {};
    while t.next[last].Some?
      invariant Walked(adj, known, t, v, src, last, total, count, path, visited)
      decreases |adj.Keys - visited|
    {
      var e := t.next[last].value;
      WalkStep(adj, known, t, v, src, last, total, count, path, visited, e);
      visited := visited + {last};
      path, total, count, last := path + [e], total + e.size, count + (if e.stretch then 1 else 0), e.to;
    }
  }
}

=== FILE: slack.dfy ===
/** The two placement rules of `analyse` that compute one vertex's position
    from its neighbours: the rigid-edge rule of `assign_fixed` and the
    slack-sharing rule of the stretch pass. */
module Slack {
  import opened Base
  import opened Paths

  /** The first edge of `es` satisfying `q`, as a `for … if …: return` loop
      finds it. */
  function FirstWhere(es: seq<Edge>, q: Edge -> bool): (r: Option<Edge>)
    ensures r.None? <==> forall e :: e in es ==> !q(e)
    ensures r.Some? ==> r.value in es && q(r.value)
  {
    if es == [] then None
    else if q(es[0]) then Some(es[0])
    else FirstWhere(es[1..], q)
  }

  /** `FirstWhere` returns the edge at the first index satisfying `q`. */
  lemma {:induction false} FirstWhereIndex(es: seq<Edge>, q: Edge -> bool, i: nat)
    requires i < |es| && q(es[i])
    requires forall j :: 0 <= j < i ==> !q(es[j])
    ensures FirstWhere(es, q) == Some(es[i])
  {
    if i > 0 {
      assert !q(es[0]);
      FirstWhereIndex(es[1..], q, i - 1);
    }
  }

  /** A non-stretching forward edge to a placed vertex other than `end`. */
  predicate RigidForward(e: Edge, unknown: set<Vertex>) {
    !e.stretch && e.to !in unknown && e.to != End
  }

  /** The reverse-edge test as `assign_fixed` writes it: it looks at the
      reverse edge's source, which is the vertex being placed itself. */
  predicate RigidBackwardAsWritten(e: Edge, unknown: set<Vertex>) {
    !e.stretch && e.from !in unknown && e.from != Start
  }

  /** The reverse-edge test as intended: the predecessor the reverse edge
      leads to is placed and is not `start`. */
  predicate RigidBackward(e: Edge, unknown: set<Vertex>) {
    !e.stretch && e.to !in unknown && e.to != Start
  }

  /** `assign_fixed` as written: the position comes from the neighbour's
      longest-path distance `dist`, not from its assigned position. */
  function FixedAsWritten(fedges: seq<Edge>, redges: seq<Edge>, unknown: set<Vertex>,
                          dist: map<Vertex, real>): (r: Option<real>)
    requires forall e :: e in fedges ==> e.to in dist
    requires forall e :: e in redges ==> e.from in dist
    ensures r.None? <==> (forall e :: e in fedges ==> !RigidForward(e, unknown)) &&
                         (forall e :: e in redges ==> !RigidBackwardAsWritten(e, unknown))
    ensures r.Some? ==>
      (exists e :: e in fedges && RigidForward(e, unknown) && r.value == dist[e.to] - e.size) ||
      (exists e :: e in redges && RigidBackwardAsWritten(e, unknown) && r.value == dist[e.from] + e.size)
  {
    match FirstWhere(fedges, e => RigidForward(e, unknown))
    case Some(e) => Some(dist[e.to] - e.size)
    case None =>
      match FirstWhere(redges, e => RigidBackwardAsWritten(e, unknown))
      case Some(e) => Some(dist[e.from] + e.size)
      case None => None
  }

  /** The corrected rule: a rigid edge to a placed neighbour fixes the
      vertex at exactly that edge's length from the neighbour's assigned
      position, looking first along forward and then along reverse edges. */
  function FixedCorrected(fedges: seq<Edge>, redges: seq<Edge>, unknown: set<Vertex>,
                          known: map<Vertex, Option<real>>): (r: Option<real>)
    requires forall e :: e in fedges && RigidForward(e, unknown) ==> e.to in known && known[e.to].Some?
    requires forall e :: e in redges && RigidBackward(e, unknown) ==> e.to in known && known[e.to].Some?
    ensures r.None? <==> (forall e :: e in fedges ==> !RigidForward(e, unknown)) &&
                         (forall e :: e in redges ==> !RigidBackward(e, unknown))
    ensures r.Some? ==>
      (exists e :: e in fedges && RigidForward(e, unknown) && r.value + e.size == known[e.to].value) ||
      (exists e :: e in redges && RigidBackward(e, unknown) && r.value == known[e.to].value + e.size)
  {
    match FirstWhere(fedges, e => RigidForward(e, unknown))
    case Some(e) => Some(known[e.to].value - e.size)
    case None =>
      match FirstWhere(redges, e => RigidBackward(e, unknown))
      case Some(e) => Some(known[e.to].value + e.size)
      case None => None
  }

  /** The reverse-edge branch of `assign_fixed` as written never fires: the
      reverse edges of an unplaced vertex all start at that vertex, so only
      forward edges can fix it. */
  lemma AsWrittenIgnoresReverse(v: Vertex, fedges: seq<Edge>, redges: seq<Edge>,
                                unknown: set<Vertex>, dist: map<Vertex, real>)
    requires v in unknown
    requires forall e :: e in fedges ==> e.to in dist
    requires forall e :: e in redges ==> e.from == v && e.from in dist
    ensures FixedAsWritten(fedges, redges, unknown, dist).Some? <==>
            exists e :: e in fedges && RigidForward(e, unknown)
    ensures FirstWhere(redges, e => RigidBackwardAsWritten(e, unknown)) == None
  {
    assert forall e :: e in redges ==> !RigidBackwardAsWritten(e, unknown);
  }

  /** A rigid chain A -1-> B -1-> C where C is on the critical path at 10
      but B's longest-path distance is 1.  B is fixed at 9 from C; then A is
      fixed from B.  As written A lands at 0, eight units from where the
      rigid edge A -> B puts it; the corrected rule puts A at 8. */
  lemma RigidChainMisplaced()
    ensures var a, b, c := Group({"a"}), Group({"b"}), Group({"c"});
            var ab, bc := Edge(a, b, 1.0, false), Edge(b, c, 1.0, false);
            var dist := map[a := 0.0, b := 1.0, c := 10.0];
            var known := map[a := None, b := None, c := Some(10.0)];
            FixedAsWritten([bc], [Mirror(ab)], {a, b}, dist) == Some(9.0) &&
            FixedAsWritten([ab], [Edge(a, Start, 0.0, false)], {a}, dist) == Some(0.0) &&
            FixedCorrected([bc], [Mirror(ab)], {a, b}, known) == Some(9.0) &&
            FixedCorrected([ab], [Edge(a, Start, 0.0, false)], {a}, known[b := Some(9.0)]) == Some(8.0)
  {
    var a, b, c := Group({"a"}), Group({"b"}), Group({"c"});
    assert a != b && b != c && a != c by {
      assert "a" in a.members && "a" !in b.members && "a" !in c.members;
      assert "b" in b.members && "b" !in c.members;
    }
  }

  /** A vertex X whose only rigid edge comes from K, placed at 5, with
      length 2: as written X is never fixed; the corrected rule puts it at 7. */
  lemma RigidPredecessorIgnored()
    ensures var x, k := Group({"x"}), Group({"k"});
            var rigid := Edge(k, x, 2.0, false);
            FixedAsWritten([Edge(x, End, 0.0, false)], [Mirror(rigid)], {x}, map[x := 0.0, k := 5.0, End := 7.0]) == None &&
            FixedCorrected([Edge(x, End, 0.0, false)], [Mirror(rigid)], {x}, map[x := None, k := Some(5.0)]) == Some(7.0)
  {
    var x, k := Group({"x"}), Group({"k"});
    assert x != k by { assert "x" in x.members && "x" !in k.members; }
  }

  /** The position the stretch pass gives a vertex from the two walks:
      `from`/`to` are where the reverse and forward walks stopped, `rdist`,
      `fdist` their lengths and `rstretches`, `fstretches` the number of
      stretchable edges on them. */
  function StretchPosition(fromIsStart: bool, toIsEnd: bool,
                           fromKnown: Option<real>, toKnown: Option<real>,
                           fdist: real, rdist: real, fstretches: nat, rstretches: nat): (r: Result<real, Failure>)
    // a dangling vertex hangs off whichever side is anchored
    ensures fromIsStart ==> (r.Ok? <==> toKnown.Some?) && (r.Ok? ==> r.value == toKnown.value - fdist)
    ensures !fromIsStart && toIsEnd ==>
              (r.Ok? <==> fromKnown.Some?) && (r.Ok? ==> r.value == fromKnown.value + rdist)
    ensures r.Err? ==> r.error == MissingKnown || r.error == WontFit
    ensures !fromIsStart && !toIsEnd ==>
              (r == Err(MissingKnown) <==> fromKnown.None? || toKnown.None?) &&
              (r == Err(WontFit) <==> fromKnown.Some? && toKnown.Some? &&
                                      fdist + rdist > toKnown.value - fromKnown.value)
    // between two anchors it lies between the two bounds
    ensures !fromIsStart && !toIsEnd && r.Ok? ==>
              fromKnown.value + rdist <= r.value <= toKnown.value - fdist
    ensures !fromIsStart && !toIsEnd && r.Ok? && rstretches == 0 ==> r.value == fromKnown.value + rdist
    ensures !fromIsStart && !toIsEnd && r.Ok? && rstretches > 0 && fstretches == 0 ==>
              r.value == toKnown.value - fdist
  {
    if fromIsStart then
      if toKnown.None? then Err(MissingKnown) else Ok(toKnown.value - fdist)
    else if toIsEnd then
      if fromKnown.None? then Err(MissingKnown) else Ok(fromKnown.value + rdist)
    else if fromKnown.None? || toKnown.None? then Err(MissingKnown)
    else
      var separation := toKnown.value - fromKnown.value;
      var extent := fdist + rdist;
      if extent > separation then Err(WontFit)
      else if rstretches == 0 then Ok(fromKnown.value + rdist)
      else if fstretches == 0 then Ok(toKnown.value - fdist)
      else
        var fs, rs := fstretches as real, rstretches as real;
        var stretch := (separation - extent) / (fs + rs);
        var x := fromKnown.value + rdist + stretch * rs;
        assert stretch >= 0.0;
        assert toKnown.value - fdist - x == stretch * fs by {
          assert stretch * (fs + rs) == separation - extent;
        }
        Ok(x)
  }

  /** Between two anchors the slack is shared equally by every stretchable
      edge of both walks: each of the `rstretches` edges behind the vertex
      and each of the `fstretches` edges ahead of it grows by the same
      amount. */
  lemma SlackShared(from: real, to: real, fdist: real, rdist: real, fstretches: nat, rstretches: nat)
    requires StretchPosition(false, false, Some(from), Some(to), fdist, rdist, fstretches, rstretches).Ok?
    ensures var x := StretchPosition(false, false, Some(from), Some(to), fdist, rdist, fstretches, rstretches).value;
            (x - from - rdist) * fstretches as real == (to - fdist - x) * rstretches as real
  {
    var x := StretchPosition(false, false, Some(from), Some(to), fdist, rdist, fstretches, rstretches).value;
    var fs, rs := fstretches as real, rstretches as real;
    if rstretches > 0 && fstretches > 0 {
      var stretch := (to - from - (fdist + rdist)) / (fs + rs);
      assert x == from + rdist + stretch * rs;
      assert stretch * (fs + rs) == to - from - (fdist + rdist);
      assert to - fdist - x == stretch * fs;
    }
  }

  /** When some edge can stretch, the equal-share condition and the two
      anchors determine the position: it is the only such point. */
  lemma SlackShareUnique(from: real, to: real, fdist: real, rdist: real,
                         fstretches: nat, rstretches: nat, x: real)
    requires fstretches + rstretches > 0
    requires (x - from - rdist) * fstretches as real == (to - fdist - x) * rstretches as real
    ensures StretchPosition(false, false, Some(from), Some(to), fdist, rdist, fstretches, rstretches).Ok? ==>
            x == StretchPosition(false, false, Some(from), Some(to), fdist, rdist, fstretches, rstretches).value
  {
    var r := StretchPosition(false, false, Some(from), Some(to), fdist, rdist, fstretches, rstretches);
    if r.Ok? {
      SlackShared(from, to, fdist, rdist, fstretches, rstretches);
      var fs, rs := fstretches as real, rstretches as real;
      assert (x - r.value) * (fs + rs) == 0.0 by {
        assert (r.value - from - rdist) * fs == (to - fdist - r.value) * rs;
      }
    }
  }
}

=== FILE: wire.dfy ===
/** `Wire` (`lcapy/schemcpts.py`): an implicit wire (a ground or other
    implicit connection) gets a node of its own at its far end. */
module Wires {
  import opened Base
  import opened Options
  import opened Nodes

  /** `implicit_keys`. */
  const ImplicitKeys: seq<string> := ["implicit", "ground", "sground", "rground"]

  /** Whether one of `keys` is an option, trying them in order. */
  function AnyGiven(opts: Opts, keys: seq<string>): (r: bool)
    ensures r <==> !NoneGiven(opts, keys)
  {
    if keys == [] then false
    else if keys[0] in opts then true
    else
      assert forall i :: 1 <= i < |keys| ==> keys[i] == keys[1..][i - 1];
      AnyGiven(opts, keys[1..])
  }

  /** `implicit`: the wire has one of the implicit options. */
  function Implicit(opts: Opts): (r: bool)
    ensures r <==> "implicit" in opts || "ground" in opts || "sground" in opts || "rground" in opts
  {
    assert ImplicitKeys[0] == "implicit" && ImplicitKeys[1] == "ground";
    assert ImplicitKeys[2] == "sground" && ImplicitKeys[3] == "rground";
    AnyGiven(opts, ImplicitKeys)
  }

  /** The name given to the far node of implicit wire `wire` whose far
      node is `node`. */
  function Renamed(wire: string, node: Point): (r: Point)
    ensures '@' in r
    ensures |r| == |wire| + 2 + |node|
    ensures r[..|wire|] == wire && r[|wire|..|wire| + 2] == "@_" && r[|wire| + 2..] == node
  {
    wire + "@_" + node
  }

  /** The node list after `Wire.__init__`: an implicit wire keeps its
      first node and renames the second; any other wire keeps its nodes. */
  function WireNodes(wire: string, opts: Opts, nodes: seq<Point>): (r: seq<Point>)
    requires |nodes| >= 2
    ensures Implicit(opts) ==> r == [nodes[0], Renamed(wire, nodes[1])]
    ensures !Implicit(opts) ==> r == nodes
  {
    if Implicit(opts) then [nodes[0], Renamed(wire, nodes[1])] else nodes
  }

  class Wire {
    const name: string
    const opts: Opts
    var nodes: seq<Point>

    /** `Wire.__init__`, given the wire's name, its options and its node
        names. */
    constructor(name: string, opts: Opts, nodes: seq<Point>)
      requires |nodes| >= 2
      ensures this.name == name && this.opts == opts
      ensures this.nodes == WireNodes(name, opts, nodes)
    {
      this.name := name;
      this.opts := opts;
      this.nodes := nodes;
      if Implicit(opts) {
        this.nodes := [nodes[0], name + "@_" + nodes[1]];
      }
    }
  }

  /** A renamed node is drawn only when every node is. */
  lemma RenamedHidden(n: Node, wire: string, node: Point, dn: DrawNodes)
    requires n.Valid() && n.name == Renamed(wire, node) && dn != Setting("all")
    ensures !n.Visible(dn)
  {
  }

  /** The first `@` of a renamed node ends the wire's name. */
  lemma FirstAt(wire: string, node: Point, i: nat)
    requires '@' !in wire && i < |Renamed(wire, node)| && Renamed(wire, node)[i] == '@'
    ensures i >= |wire|
  {
    var r := Renamed(wire, node);
    assert forall j :: 0 <= j < |wire| ==> r[j] == wire[j];
  }

  /** Where the wire's name ends, a renamed node holds `@`. */
  lemma AtEnd(wire: string, node: Point)
    ensures |wire| < |Renamed(wire, node)| && Renamed(wire, node)[|wire|] == '@'
  {
    var r := Renamed(wire, node);
    assert r[|wire|] == r[|wire|..|wire| + 2][0];
  }

  /** Two implicit wires whose names hold no `@` rename to the same node
      only when they are the same wire with the same far node. */
  lemma RenamedInjective(w1: string, p1: Point, w2: string, p2: Point)
    requires '@' !in w1 && '@' !in w2
    ensures Renamed(w1, p1) == Renamed(w2, p2) ==> w1 == w2 && p1 == p2
  {
    var r1, r2 := Renamed(w1, p1), Renamed(w2, p2);
    if r1 == r2 {
      AtEnd(w1, p1);
      AtEnd(w2, p2);
      FirstAt(w2, p2, |w1|);
      FirstAt(w1, p1, |w2|);
      assert |w1| == |w2|;
    }
  }
}
